=== FILE: README.md ===
# ecom-cart — a Dafny model of the shop's cart, order, review, wishlist and account logic

ecom-cart is a small online shop: an Express server over a MongoDB document store and a React storefront.
This project models the parts of it that hold rules rather than wiring:

- the server's cart handlers (add-or-replace, read, remove, clear, behind one guard chain);
- the order record, with its save hook that keeps a tracking log, and the order and admin handlers;
- the review endpoints, which recompute a product's rating and review count after every change;
- the wishlist endpoints (a set of user/product pairs);
- the account handlers, the sign-in middleware and the contact form;
- the result shaping of image uploads;
- on the client: image addresses, the profile page's address parsing and display, the checkout page, the
  support chatbot's intent classifier, and the toast, wishlist and sign-in state holders.

Server handlers are methods over a `Store.Db` object. Its products and carts are maps keyed by canonical id,
and its other collections are sequences in insertion order. Each handler's `modifies` clause names the
collections it writes. Its `ensures` gives the reply and the new collection for every path, including the
error replies.

Client state holders are classes whose fields are the component's state: `AuthState.AuthContext`,
`Checkout.CheckoutPage`, `ToastQueue.ToastProvider`, `WishlistCache.WishlistProvider` and
`Chatbot.ChatWindow`. Pure helpers are functions. The properties that relate several calls are lemmas:
idempotence, round trips, uniqueness of pairs, consistency of the rating aggregate, and order of listings.

Library calls are parameters of the members that use them:

- password hashing, hash comparison, token signing and token verification;
- `JSON.parse` and `JSON.stringify`;
- the image host's reply;
- the order POST and the cart-clearing request of the checkout page;
- the clock, random tracking numbers and random ids.

Ids are strings. A valid ObjectId is 24 hexadecimal characters, and the store keeps ids in lower case
(`Strings.Canon`). A malformed id that reaches a query fails the cast, and the handler's catch block
answers 500.

## Model

| member | source | states |
|---|---|---|
| Common.NewestFirst | server/controllers/orderController.js:32 | a listing sorted on creation time descending is the insertion order reversed: same length, i-th newest is the (n-1-i)-th stored |
| JsonValue.Field | client/src/pages/Profile.jsx:269-276 | reading a key of a parsed value: the stored text for a present key of an object, "" for a missing key or a non-object |
| Store.Db.constructor | server/models/Cart.js:41 | a fresh store has every collection empty |
| Store.FindOrder | server/controllers/orderController.js:41 | `findById`: the index of the first order with the id, or the length when none has it; no earlier order has the id |
| Store.FindReview | server/routes/reviewRoutes.js:141 | `findById` on reviews: first match or the length, with no earlier match |
| Store.FindUser | server/controllers/userController.js:19 | `findById` on accounts: first match or the length, with no earlier match |
| Store.FindFirst | server/controllers/orderController.js:41 | the first-match search behind `findById` and `findOne`: the first document whose key is the value, or the length, with no earlier match |
| Store.FindByEmail | server/controllers/authController.js:14 | `findOne({ email })`: the first account with the address, and the length exactly when the address is not taken |
| Records.AppendKeepsUniqueEmails | server/controllers/authController.js:14-21 | appending an account whose address is free keeps addresses pairwise distinct |
| Records.ReplaceKeepsUniqueEmails | server/controllers/userController.js:35-50 | replacing an account by one with its own or a free address keeps addresses distinct |
| ProductModel.NewProduct | server/models/Product.js:3-39 | a product document is created exactly when a name and a price are given; stock, rating and review count default to 0 |
| ProductModel.NewProductDefaults | server/models/Product.js:27-38 | a product given only its required fields starts with no stock, rating 0 and no reviews |
| CartModel.StoredQuantity | server/models/Cart.js:33-36 | an entry stored without a quantity has quantity 1; a given quantity is kept |
| CartModel.Snapshot | server/models/Cart.js:9-37 | a new entry carries the product id and copies of name, brand, category, price, description and image, with the given quantity |
| CartModel.CountFor | server/models/Cart.js:9-38 | the number of entries of one product never exceeds the number of entries |
| CartModel.OnePerProductCount | server/models/Cart.js:9-38 | when no two entries share a product id, each product has at most one entry |
| CartModel.AbsentCount | server/models/Cart.js:9-38 | a product no entry refers to has count 0 |
| CartModel.NoneAfter | server/models/Cart.js:9-38 | with distinct product ids, the entries after a product's entry hold none of it |
| CartModel.SchemaAllowsDuplicates | server/models/Cart.js:3-39 | a cart valid under the schema can hold two entries of one product: the schema has no uniqueness constraint |
| CartController.CartGuard | server/controllers/cartController.js:9-26 | the first failing guard, in order: missing ids, malformed owner id, malformed product id, caller neither owner nor admin; each verdict with its exact condition (iff) |
| CartController.GuardReply | server/controllers/cartController.js:9-26 | a refused request answers 403 for the authorization guard and 400 for the others |
| CartController.ClampQuantity | server/controllers/cartController.js:29 | `max(1, quantity \|\| 1)`: always at least 1; a missing, zero or negative quantity becomes 1 and any other is kept |
| CartController.IndexOf | server/controllers/cartController.js:58-59 | `findIndex` on the stored product ids: the first matching index with no match before it, or -1 when none matches |
| CartController.FindEntry | server/controllers/cartController.js:58-59 | the search loop returns exactly `IndexOf` |
| CartController.Refresh | server/controllers/cartController.js:61-71 | a re-added entry keeps its product id and gets the new quantity and the product's current details |
| CartController.AddReplaces | server/controllers/cartController.js:58-71 | re-adding a product overwrites its entry's quantity (no increment) and refreshes its details; every other entry stays at its place |
| CartController.AddAppends | server/controllers/cartController.js:72-84 | adding a product not in the cart keeps every entry and appends one snapshot at the end |
| CartController.NewCartHasOneEntry | server/controllers/cartController.js:41-55 | a new cart holds exactly the one entry added |
| CartController.CountForAppend | server/controllers/cartController.js:72-84 | appending an entry adds one to its product's count and nothing to the others |
| CartController.CountForSameIds | server/controllers/cartController.js:61-71 | an in-place refresh keeps every product's count |
| CartController.CountForPresent | server/controllers/cartController.js:58-59 | a product found by the search has count at least 1 |
| CartController.AddKeepsOnePerProduct | server/controllers/cartController.js:41-84 | adding keeps at most one entry per product, and afterwards the product has exactly one entry |
| CartController.ClientReAddResetsQuantity | client/src/context/CartContext.jsx:37-41 | the storefront always posts quantity 1, so re-adding an item resets its quantity to 1 |
| CartController.ClientDecrementBelowOne | client/src/pages/Cart.jsx:24 | decrementing an item of quantity 1 posts 0, which is stored as 1 |
| CartController.UpperCaseIdDuplicatesEntry | server/controllers/cartController.js:58-59 | a product requested with an upper-case hex id is found but not recognised in the cart, and gets a second entry |
| CartController.AddCanonicalKeepsOnePerProduct | server/controllers/cartController.js:58-84 | comparing canonical ids, an add keeps one entry per product whatever the case of the requested id |
| CartController.Without | server/controllers/cartController.js:158 | the filter keeps exactly the entries of other products and never lengthens the list |
| CartController.WithoutAbsent | server/controllers/cartController.js:158 | removing a product the cart does not hold changes nothing |
| CartController.WithoutAppend | server/controllers/cartController.js:158 | the filter distributes over concatenation, so kept entries stay in their order |
| CartController.WithoutKeepsOnePerProduct | server/controllers/cartController.js:158 | removing keeps at most one entry per product |
| CartController.Cleared | server/controllers/cartController.js:188-195 | an existing cart keeps its document and owner with no entries; a missing one is not created; other carts unchanged |
| CartController.ClearIdempotent | server/controllers/cartController.js:188-195 | clearing twice is clearing once |
| CartController.AddToCart | server/controllers/cartController.js:5-95 | guard failures and an unknown product (404) write nothing; otherwise the owner's cart becomes the cart after the add and is returned with 200 |
| CartController.GetCart | server/controllers/cartController.js:97-127 | guard failures are refused; a missing cart is an empty cart with 200, not an error |
| CartController.RemoveItem | server/controllers/cartController.js:129-167 | guard failures write nothing; a missing cart is 404; otherwise every entry of the product is dropped and the rest kept |
| CartController.ClearCart | server/controllers/cartController.js:169-200 | the carts become `Cleared`; the reply says "Cart is already empty" for a missing cart and "Cart cleared" otherwise |
| OrderModel.StatusDescription | server/models/Order.js:108-119 | each of the six statuses has its own sentence, and any other text gets "Status updated" |
| OrderModel.StatusDescriptionInjective | server/models/Order.js:108-119 | two statuses of the enumeration with the same sentence are the same status |
| OrderModel.HookEntry | server/models/Order.js:91-96 | the hook's entry has the current status, location "Warehouse", the current time and the status's sentence |
| OrderModel.TrackingNumberFormat | server/models/Order.js:74-80 | every default tracking number is "TRK" followed by six digits |
| OrderModel.NewOrder | server/models/Order.js:3-85 | a new document takes the schema defaults for every path left out: status "Placed", payment "Pending", mode "COD", delivery in 5 days, partner "FastShip", empty log |
| OrderModel.HookOnlyPushes | server/models/Order.js:98-103 | the hook appends exactly one entry and keeps earlier entries and every other field |
| OrderModel.StatusSavedTwice | server/models/Order.js:88-106 | saving the same status again pushes nothing; a save pushes one entry exactly when the status changed |
| OrderModel.OrderDocument.Create | server/models/Order.js:88-90 | a document built in memory is new |
| OrderModel.OrderDocument.Load | server/models/Order.js:88-90 | a loaded document is not new, and its status counts as unmodified |
| OrderModel.OrderDocument.PreSave | server/models/Order.js:88-106 | the hook pushes the entry of the current status exactly when the document is new or its status changed |
| OrderController.PaymentStatusFor | server/controllers/orderController.js:18 | "Pending" exactly when the mode is the exact text "online", "Paid" otherwise; always a valid payment status |
| OrderController.CastId | server/controllers/orderController.js:14 | building a document keeps whether an id is a valid ObjectId |
| OrderController.CreateOrder | server/controllers/orderController.js:13-24 | a document failing validation is not stored (500); a valid one is stored with its hook entry and answered with 201 |
| OrderController.PlaceOrder | server/controllers/orderController.js:3-28 | an incomplete body gets 400; a complete one fails with 500; nothing is ever stored |
| OrderController.PlaceOrderNeverValid | server/controllers/orderController.js:13-20 | the document built as written never passes validation: the amount is passed under a key the schema drops |
| OrderController.IntendedOrderValid | server/models/Order.js:3-26 | with the amount under its schema key, a complete body with an ObjectId owner, quantities, and line product ids that are absent or ObjectIds yields a valid order |
| OrderController.MalformedLineIdRejected | server/models/Order.js:11-14 | a line whose product id is present but not an ObjectId fails the cast, so the order is not valid |
| OrderController.PlaceOrderCorrected | server/controllers/orderController.js:3-28 | with the amount passed as `amount`, a valid order is stored with its amount, status "Placed", mode "COD", the mode's payment status and one "Placed" entry |
| OrderController.OrdersOf | server/controllers/orderController.js:32 | exactly the orders of the user, none added |
| OrderController.OrdersOfAppend | server/controllers/orderController.js:32 | a new order joins only its owner's selection, at the end |
| OrderController.NewOrderListedFirst | server/controllers/orderController.js:32 | a new order heads its owner's listing; other users' listings are unchanged |
| OrderController.ListingNewestFirst | server/controllers/orderController.js:32 | the listing is sorted on creation time, newest first |
| OrderController.FilterChronological | server/controllers/orderController.js:32 | a user's selection of chronologically stored orders is chronological |
| OrderController.GetOrdersByUser | server/controllers/orderController.js:30-37 | the user's orders newest first; a malformed id fails with 500 |
| OrderController.CancelOrder | server/controllers/orderController.js:39-56 | unknown order 404, delivered order 400, both unchanged; otherwise status "Cancelled" saved with the hook, no ownership check |
| OrderController.CancelSettles | server/controllers/orderController.js:50-52 | a cancelled order is not delivered, and cancelling again pushes no further entry |
| OrderController.Tracking | server/controllers/orderController.js:64-67 | the reply holds only the status and the delivery estimate, "In process" exactly when the order has none |
| OrderController.TrackOrder | server/controllers/orderController.js:58-71 | unknown order 404, malformed id 500, otherwise the tracking view; nothing changes |
| AdminController.GetAllOrders | server/controllers/adminController.js:5-12 | every stored order, and only those |
| AdminController.StatusPatched | server/controllers/adminController.js:18-22 | the direct update writes only the status and leaves the tracking log as it was |
| AdminController.StatusUpdateSkipsHook | server/controllers/adminController.js:18-22 | the direct update appends no tracking entry where a load-and-save of the same change appends one |
| AdminController.UpdateOrderStatus | server/controllers/adminController.js:15-27 | any status is written with no transition check; an unknown id answers 200 with no order |
| AdminController.DeleteProduct | server/controllers/adminController.js:30-37 | the product is gone afterwards and the reply is "Product deleted" whether or not it existed |
| AdminController.DeleteIdempotent | server/controllers/adminController.js:32-33 | deleting twice leaves the catalogue as deleting once |
| AdminController.ApplyPatch | server/controllers/adminController.js:42-47 | each supplied path is overwritten and every other one kept, the id included |
| AdminController.ApplyPatchLaws | server/controllers/adminController.js:42-47 | an empty body changes nothing, and the same body sent twice is sent once |
| AdminController.UpdateProduct | server/controllers/adminController.js:40-51 | the patched product is stored and returned; an unknown id answers 200 with no product |
| ReviewModel.AppendKeepsUniquePairs | server/models/Review.js:32 | inserting a review whose pair is absent keeps one review per user and product |
| ReviewModel.RemoveKeepsUniquePairs | server/models/Review.js:32 | removing a review keeps the pairs unique |
| ReviewModel.EditKeepsUniquePairs | server/models/Review.js:32 | editing rating or comment keeps the pairs unique |
| ReviewRoutes.ReviewsFor | server/routes/reviewRoutes.js:19-21 | exactly the reviews of the product |
| ReviewRoutes.ReviewsForConcat | server/routes/reviewRoutes.js:19-21 | the selection distributes over concatenation |
| ReviewRoutes.CountAfterAppend | server/routes/reviewRoutes.js:123-127 | storing a review adds one to its product's count and nothing to the others |
| ReviewRoutes.CountAfterRemove | server/routes/reviewRoutes.js:184-187 | removing a review takes one from its product's count and nothing from the others |
| ReviewRoutes.RatingSumBounds | server/routes/reviewRoutes.js:202 | with every rating in [1, 5], the sum lies between n and 5n |
| ReviewRoutes.AverageInRange | server/routes/reviewRoutes.js:203 | the average of at least one valid rating lies in [1, 5] |
| ReviewRoutes.Aggregated | server/routes/reviewRoutes.js:206-209 | the product gets the reviews' count and average rating and nothing else changes |
| ReviewRoutes.Recomputed | server/routes/reviewRoutes.js:197-213 | only the product under the key changes; the catalogue keeps its keys |
| ReviewRoutes.RecomputedConsistent | server/routes/reviewRoutes.js:197-213 | after recomputation the product's count and rating agree with its reviews, and a reviewed product's rating lies in [1, 5] |
| ReviewRoutes.RecomputedKeepsConsistent | server/routes/reviewRoutes.js:197-213 | when every product's figures agree with the reviews and a change touched one product's reviews only, recomputing that product keeps every product in agreement |
| ReviewRoutes.AppendKeepsConsistent | server/routes/reviewRoutes.js:123-127 | storing a review and recomputing its product keeps every product's count and rating in agreement with the reviews |
| ReviewRoutes.EditKeepsConsistent | server/routes/reviewRoutes.js:153-159 | editing a review and recomputing its product keeps every product in agreement |
| ReviewRoutes.RemoveKeepsConsistent | server/routes/reviewRoutes.js:184-187 | deleting a review and recomputing its product keeps every product in agreement |
| ReviewRoutes.ListReviews | server/routes/reviewRoutes.js:9-29 | the product's reviews newest first; a malformed id fails with 500 |
| ReviewRoutes.CountReviews | server/routes/reviewRoutes.js:32-47 | the number of the product's reviews |
| ReviewRoutes.AverageRating | server/routes/reviewRoutes.js:50-70 | the average rating, 0 without reviews, and 0 for an id that is no ObjectId |
| ReviewRoutes.Drafted | server/routes/reviewRoutes.js:115-121 | the review holds the caller, product, rating and comment, and the caller's name or "Anonymous" |
| ReviewRoutes.CreateReview | server/routes/reviewRoutes.js:73-134 | a second review of the pair is 400 before the product check, a missing product 404, an invalid review 500, all with no write; a body without a product id is 400 when the caller has any review and 404 otherwise, and a present id that is no ObjectId (empty included) is 500; success stores it and recomputes; pairs stay unique |
| ReviewRoutes.Edited | server/routes/reviewRoutes.js:153-154 | a truthy rating and a non-empty comment replace the stored ones; everything else is kept |
| ReviewRoutes.EmptyEditIsNoChange | server/routes/reviewRoutes.js:153-154 | an edit with no rating (or 0) and no comment leaves the review as it was |
| ReviewRoutes.UpdateReview | server/routes/reviewRoutes.js:137-166 | missing review 404, another author's 401, an invalid edit 500, all with no write; success stores the edit and recomputes |
| ReviewRoutes.RemoveKeepsAllValid | server/routes/reviewRoutes.js:184 | removing a review keeps every remaining one valid |
| ReviewRoutes.DeleteReview | server/routes/reviewRoutes.js:169-194 | missing review 404; allowed for the author or a caller whose `role` is "admin"; success removes it, lowers the count by one and recomputes |
| WishlistModel.NewItem | server/models/Wishlist.js:14-17 | a new entry records the user, the product and the insertion time |
| WishlistModel.FindPair | server/routes/wishlistRoutes.js:97-100 | `findOne` of a pair: its first entry, or the length when there is none |
| WishlistModel.FindPairIffHasPair | server/routes/wishlistRoutes.js:97-100 | the search finds an entry exactly when the pair is present |
| WishlistModel.AppendKeepsUniquePairs | server/models/Wishlist.js:21 | inserting an absent pair keeps membership a set |
| WishlistModel.RemoveDropsPair | server/models/Wishlist.js:21 | deleting a pair's entry from a set removes the pair and keeps a set |
| WishlistRoutes.ItemsOf | server/routes/wishlistRoutes.js:19-20 | exactly the caller's entries |
| WishlistRoutes.Populated | server/routes/wishlistRoutes.js:19-20 | an entry with its product, or none when the product is gone |
| WishlistRoutes.PopulateAll | server/routes/wishlistRoutes.js:19-20 | every entry populated, in order |
| WishlistRoutes.ListWishlist | server/routes/wishlistRoutes.js:9-39 | the caller's entries, each with its product |
| WishlistRoutes.AddToWishlist | server/routes/wishlistRoutes.js:42-84 | a body without a product id or an unknown product is 404, a present id that is no ObjectId (empty included) 500, a present pair 400, all with no write; success appends exactly the caller's pair (201); the pair is present afterwards iff before or on success; a set stays a set |
| WishlistRoutes.RemoveFromWishlist | server/routes/wishlistRoutes.js:87-115 | an absent pair is 404; otherwise exactly that entry is deleted, and afterwards the pair is absent |
| WishlistRoutes.CheckWishlist | server/routes/wishlistRoutes.js:118-132 | true exactly when the caller lists the product |
| UserController.PublicView | server/controllers/userController.js:71 | the account with every field but the password hash |
| UserController.UpdateUser | server/controllers/userController.js:8-64 | unknown account 404 before authorization, 401 unless owner or admin, 400 for an address used by another account; otherwise each supplied field replaces the stored one; the reply has the six public fields; addresses stay distinct |
| UserController.GetUserDetails | server/controllers/userController.js:69-87 | unknown account 404, 401 unless owner or admin, otherwise the account without its hash |
| UserController.GetUserOrders | server/controllers/userController.js:92-107 | 401 first unless owner or admin; otherwise that account's orders newest first, all owned by it |
| AuthController.NewAccount | server/controllers/authController.js:21 | the account stores the given hash, never the password, with empty phone and address and no admin right |
| AuthController.Register | server/controllers/authController.js:5-29 | a missing field or a taken address is 400 with no account; otherwise one account with the hashed password is appended, found by its address, and addresses stay distinct |
| AuthController.FindByEmailAppend | server/controllers/authController.js:14-21 | an account appended with a free address is the one its address finds |
| AuthController.Session | server/controllers/authController.js:55-66 | the reply's `_id` and `id` are the account id; phone and address default to "" |
| AuthController.Login | server/controllers/authController.js:31-72 | a missing field is 400; an unknown address and a wrong password give the same 400 "Invalid credentials"; success signs `{ id, isAdmin }` |
| AuthMiddleware.Request.constructor | server/middleware/authMiddleware.js:5 | a request starts with no account, no refusal and the next handler not called |
| AuthMiddleware.BearerToken | server/middleware/authMiddleware.js:12 | the token is the second space-separated field of the header, or "" when there is none |
| AuthMiddleware.BearerTokenOfHeader | server/middleware/authMiddleware.js:9-12 | "Bearer " and a token without spaces gives that token back |
| AuthMiddleware.BareSchemeHasNoToken | server/middleware/authMiddleware.js:12-16 | the header "Bearer" passes the scheme check but has no token |
| AuthMiddleware.ClaimedId | server/middleware/authMiddleware.js:22-27 | `id` is preferred over `_id`, and the result is empty exactly when both are |
| AuthMiddleware.WithoutPassword | server/middleware/authMiddleware.js:30 | the account with its hash removed and nothing else changed |
| AuthMiddleware.Protect | server/middleware/authMiddleware.js:5-51 | each refusal with its 401 message, in order; on success the account without hash is attached and the next handler runs exactly once; a refusal never calls it |
| AuthMiddleware.Admin | server/middleware/authMiddleware.js:54-60 | the next handler runs exactly when an administrator is attached, otherwise 401 |
| ContactRoutes.Submission | server/routes/contactRoutes.js:18-23 | the stored message keeps the fields, with subject "General Inquiry" when none is given |
| ContactRoutes.Submit | server/routes/contactRoutes.js:8-39 | a missing name, email or message is 400 with nothing stored; otherwise one submission is appended and 201 returns its id |
| ContactRoutes.ListContacts | server/routes/contactRoutes.js:44-52 | every submission, newest first, the latest heading the list |
| CloudinaryUpload.FileFilter | server/utils/cloudinaryUpload.js:18-23 | accept exactly names ending in ".jpg", ".jpeg", ".png" or ".gif", refuse others with the fixed message |
| CloudinaryUpload.UpperCaseExtensionRejected | server/utils/cloudinaryUpload.js:19 | the match is case-sensitive: "photo.JPG" is refused |
| CloudinaryUpload.TempFilename | server/utils/cloudinaryUpload.js:12-14 | the temporary name is the time in decimal, a dash, and the client's name |
| CloudinaryUpload.TempFilenameKeepsVerdict | server/utils/cloudinaryUpload.js:12-23 | the temporary name is an image name exactly when the client's name is |
| CloudinaryUpload.ExtensionsHaveOneDot | server/utils/cloudinaryUpload.js:19 | no accepted extension contains a dash |
| CloudinaryUpload.Basename | server/utils/cloudinaryUpload.js:37 | `path.basename` yields a segment without slashes |
| CloudinaryUpload.StripTrailingSlashes | server/utils/cloudinaryUpload.js:37 | trailing slashes dropped: a prefix of the path not ending in a slash |
| CloudinaryUpload.LastSegment | server/utils/cloudinaryUpload.js:37 | the last segment is a slash-free suffix of the path |
| CloudinaryUpload.BasenameOfJoin | server/utils/cloudinaryUpload.js:37 | the base name of a file in a directory is the file's name |
| CloudinaryUpload.LastSegmentAfterSlash | server/utils/cloudinaryUpload.js:37 | after a slash, the last segment is the slash-free name |
| CloudinaryUpload.LocalUrlOfStoredFile | server/utils/cloudinaryUpload.js:37-39 | a stored upload is served locally under its temporary name |
| CloudinaryUpload.TempDir.constructor | server/utils/cloudinaryUpload.js:7-11 | the upload directory holds the given files |
| CloudinaryUpload.UploadToCloudinary | server/utils/cloudinaryUpload.js:33-83 | always success; unconfigured or failed uploads are served locally with no public id (a failure carrying its error); a hosted upload returns the host's URL and id and deletes the temporary file |
| ImageUtils.GetImageUrl | client/src/utils/imageUtils.js:15-23 | "" for an empty path, an "http" address kept, a root-relative path served from the API server, any other kept; never root-relative |
| ImageUtils.GetImageUrlIdempotent | client/src/utils/imageUtils.js:15-23 | applying the function to its result changes nothing |
| ProfileAddress.FindPincode | client/src/pages/Profile.jsx:64 | the leftmost six-digit run with word boundaries at or after a position, or the length |
| ProfileAddress.Pincode | client/src/pages/Profile.jsx:64-65 | some match exists iff a code is found; the code is the six digits of the leftmost match |
| ProfileAddress.SevenDigitsNoPincode | client/src/pages/Profile.jsx:64 | a run of seven digits holds no postal code |
| ProfileAddress.TrimAll | client/src/pages/Profile.jsx:69 | every segment trimmed of JavaScript white space (Unicode spaces and line terminators included), none added or dropped |
| ProfileAddress.ManualParts | client/src/pages/Profile.jsx:62-84 | with a comma and three or more segments, the first three trimmed ones are street, area and city, a fourth the state, a fifth the country; otherwise the street is the whole input |
| ProfileAddress.ParseAddress | client/src/pages/Profile.jsx:53-86 | JSON input is returned as parsed; any other input is split by hand |
| ProfileAddress.ManualThreeParts | client/src/pages/Profile.jsx:68-76 | three comma-free trimmed parts joined by commas read back as street, area and city, with no state or country |
| ProfileAddress.AddressObject | client/src/pages/Profile.jsx:89-101 | the serialised object has exactly the six keys, each with its part |
| ProfileAddress.FormatAddressForDisplay | client/src/pages/Profile.jsx:266-280 | a parsed object shows its non-empty parts joined by ", " from street to postal code; text that does not parse is shown as is, or "Not set" when empty |
| ProfileAddress.ComposeRoundTrip | client/src/pages/Profile.jsx:89-101 | when parsing reads back what serialising wrote, a composed address displays as its non-empty parts and parses to the six-key object |
| ProfileAddress.ShownAddress | client/src/pages/Profile.jsx:479 | the profile's address line is never empty: the formatted address, or "Not set" when that is "" |
| ProfileAddress.BlankComposedShowsNothing | client/src/pages/Profile.jsx:266-280 | a blank composed address formats as "", so the profile shows "Not set" for it, as for an unparsable empty address |
| Checkout.PrefillReadsProfileAddress | client/src/pages/Checkout.jsx:36-67 | an address the profile page composed from six parts, when the codec round-trips it, prefills the checkout form with exactly those parts |
| Checkout.Prefill | client/src/pages/Checkout.jsx:36-67 | no address leaves the parts blank; an address not starting with "{" becomes the street alone; a JSON address fills the parts; a parse failure keeps the form with the text as street; phone and email come from the user |
| Checkout.CartTotal | client/src/pages/Checkout.jsx:71-81 | the total of an empty cart is 0, and it is nonnegative when every line is |
| Checkout.CartTotalConcat | client/src/pages/Checkout.jsx:71-81 | the total of two carts together is the sum of their totals |
| Checkout.FormattedAddress | client/src/pages/Checkout.jsx:155-164 | the one-line address is empty exactly when every part is |
| Checkout.FormattedAddressOrderDiffers | client/src/pages/Checkout.jsx:155-164 | the postal code precedes the country here, unlike on the profile page |
| Checkout.PayloadLines | client/src/pages/Checkout.jsx:203-208 | one line per cart item: `productId` else `_id`, with quantity, price and name copied |
| Checkout.Payload | client/src/pages/Checkout.jsx:201-215 | the request carries the user id, the lines, the total, the one-line address, the mode, "Pending" exactly for "online", and the contact fields |
| Checkout.CheckoutPage.constructor | client/src/pages/Checkout.jsx:10-27 | the page starts with an empty form, cash on delivery, no message and nothing sent |
| Checkout.CheckoutPage.HandleCheckout | client/src/pages/Checkout.jsx:167-241 | refuses with no request for no user, empty cart, no phone, no token, in that order; otherwise sends one request; the cart is cleared only after it is accepted |
| ToastQueue.KindOf | client/src/context/ToastContext.jsx:29-42 | each shorthand maps to its toast type |
| ToastQueue.Without | client/src/context/ToastContext.jsx:24-26 | no remaining toast has the id, and none is added |
| ToastQueue.WithoutKeepsOthers | client/src/context/ToastContext.jsx:24-26 | exactly the toasts with other ids are kept, and an unknown id changes nothing |
| ToastQueue.WithoutConcat | client/src/context/ToastContext.jsx:24-26 | removal distributes over concatenation, so the rest keep their order |
| ToastQueue.RemoveAfterAdd | client/src/context/ToastContext.jsx:8-26 | closing a toast just added removes it; a repeated random id removes an older toast too |
| ToastQueue.WithoutShorter | client/src/context/ToastContext.jsx:24-26 | a queue holding the id loses at least one toast |
| ToastQueue.ToastProvider.constructor | client/src/context/ToastContext.jsx:11 | the queue starts empty |
| ToastQueue.ToastProvider.AddToast | client/src/context/ToastContext.jsx:14-21 | appends exactly one toast, type "info" and duration 3000 by default, and returns its id |
| ToastQueue.ToastProvider.RemoveToast | client/src/context/ToastContext.jsx:24-26 | the queue becomes `Without` the id |
| ToastQueue.ToastProvider.Show | client/src/context/ToastContext.jsx:29-42 | a shorthand appends one toast of its type, duration 3000 when omitted |
| WishlistCache.ItemProductId | client/src/context/WishlistContext.jsx:112-117 | a cached item's product id, absent exactly for a null product |
| WishlistCache.Unlisted | client/src/context/WishlistContext.jsx:112-117 | no kept item refers to the product, and none is added |
| WishlistCache.UnlistedKeepsOthers | client/src/context/WishlistContext.jsx:112-117 | exactly the items of other products are kept, and with none referring to it nothing changes |
| WishlistCache.WishlistProvider.constructor | client/src/context/WishlistContext.jsx:13-18 | the cache starts empty, not loading, with no fetch made |
| WishlistCache.WishlistProvider.FetchWishlist | client/src/context/WishlistContext.jsx:29-67 | a throttled call changes nothing; otherwise the list is the server's or empty, the last-fetch time moves only on a reply, and the flags are cleared |
| WishlistCache.WishlistProvider.RefreshWishlist | client/src/context/WishlistContext.jsx:141 | a forced fetch: never throttled |
| WishlistCache.WishlistProvider.AddToWishlist | client/src/context/WishlistContext.jsx:69-99 | signed out or failed: false and no change; success: the item appended and true; the list changes exactly on success |
| WishlistCache.WishlistProvider.RemoveFromWishlist | client/src/context/WishlistContext.jsx:101-124 | on success every item of the product goes and it is no longer listed; on failure nothing changes |
| WishlistCache.WishlistProvider.IsInWishlist | client/src/context/WishlistContext.jsx:126-132 | false for an empty id or list, otherwise true iff some item refers to the product |
| Chatbot.Normalized | client/src/components/Chatbot.jsx:60 | the normalised query has no surrounding JavaScript white space |
| Chatbot.TrimShape | client/src/components/Chatbot.jsx:60 | trimming keeps a contiguous part of the text |
| Chatbot.NormalizedIdempotent | client/src/components/Chatbot.jsx:44-60 | normalising a normalised query changes nothing |
| Chatbot.MatchesIsSubstring | client/src/components/Chatbot.jsx:44-56 | the whole-word test adds nothing: a query matches iff a phrase is a substring of it |
| Chatbot.FirstIntent | client/src/components/Chatbot.jsx:85-201 | the first matching phrase group at or after a position, none matching before it |
| Chatbot.Classify | client/src/components/Chatbot.jsx:78-201 | greeting iff a greeting matches; too short iff not and under 3 UTF-16 code units (`length`); otherwise the first matching group, or the fallback iff none matches |
| Chatbot.Respond | client/src/components/Chatbot.jsx:59-205 | the greeting reply for a greeting, the request for details for a short query, the fallback reply when no group matches |
| Chatbot.HiIsAGreeting | client/src/components/Chatbot.jsx:64-79 | any query containing "hi" gets the greeting reply |
| Chatbot.ShippingQuestionGetsGreeting | client/src/components/Chatbot.jsx:64-79 | a question about "shipping" gets the greeting reply, because it contains "hi" |
| Chatbot.OneCharacterAsksForDetails | client/src/components/Chatbot.jsx:81-82 | a query of at most one character asks for more details |
| Chatbot.TwoEmojiAreNotTooShort | client/src/components/Chatbot.jsx:81 | two characters outside the Basic Multilingual Plane are four code units, so such a query is not answered as too short |
| Chatbot.ChatWindow.constructor | client/src/components/Chatbot.jsx:5-9 | the window starts closed with the welcome message only |
| Chatbot.ChatWindow.Toggle | client/src/components/Chatbot.jsx:22-24 | toggling flips the window open or closed |
| Chatbot.ChatWindow.SendMessage | client/src/components/Chatbot.jsx:27-41 | blank input adds nothing; otherwise the user's message and exactly one reply are appended and the input is cleared |
| AuthState.ToText | client/src/context/AuthContext.jsx:73-78 | an ObjectId becomes its hex text; other ids are unchanged |
| AuthState.IdText | client/src/pages/Checkout.jsx:202 | the text of an id in a request body, "" when absent |
| AuthState.Item | client/src/context/AuthContext.jsx:15-23 | a stored key's text, "" for a missing key |
| AuthState.Normalize | client/src/context/AuthContext.jsx:64-78 | a missing `_id` is copied from `id`, otherwise a missing `id` from `_id`; present ids become text; nothing else changes |
| AuthState.NormalizeIdempotent | client/src/context/AuthContext.jsx:64-78 | normalising twice is normalising once |
| AuthState.FillUnderscoreId | client/src/context/AuthContext.jsx:28-33 | a stored user lacking `_id` gets it from `id`; otherwise it is unchanged |
| AuthState.StoredUser | client/src/context/AuthContext.jsx:11-47 | a user is found exactly when a token and a parsable stored user are present; it is that user repaired |
| AuthState.AuthContext.constructor | client/src/context/AuthContext.jsx:7-9 | the provider starts with no user and loading |
| AuthState.AuthContext.LoadStoredUser | client/src/context/AuthContext.jsx:11-47 | a found user becomes the user; an unparsable stored user is removed; loading ends on every path |
| AuthState.AuthContext.Login | client/src/context/AuthContext.jsx:52-88 | no data changes nothing; otherwise the normalised user is held and stored under "user" |
| AuthState.AuthContext.Logout | client/src/context/AuthContext.jsx:90-94 | no user, and neither "user" nor "token" is stored; other keys stay |
| AuthState.ReloadAfterLogin | client/src/context/AuthContext.jsx:11-88 | with a token stored and a faithful codec, a reload after sign-in brings back the same user |
| AuthState.ReloadAfterLogout | client/src/context/AuthContext.jsx:90-94 | after sign-out a reload finds no user |

## Left out

- The React rendering, routing and navigation are not modelled. This covers the redirect to the sign-in page, `setTimeout` navigation and the 600 ms delay before the chatbot replies (`SendMessage` appends the reply at once).
- ReviewRoutes.CreateReview, WishlistRoutes.AddToWishlist: a `productId` sent as JSON `null` is not a separate case. The wishlist answers it like a missing id (404). The review handler keeps `null` in its duplicate query, which then matches no stored review, so it answers 404 even for a caller with reviews, where a missing id gives 400.
- Express route tables are not modelled. Cart, order and admin routes mount no sign-in middleware, so the cart handlers' caller is an `Option` that is `None` in practice.
- server/models/User.js and server/models/Contact.js are not part of this model. `Records` holds the fields the handlers use.
- Password hashing, token signing and verification, `JSON.parse`/`JSON.stringify`, the image host, multer's disk storage, `fs.unlinkSync` and browser local storage are library calls. They appear as parameters or as a map, and are not verified.
- The 5 MiB limit is only a predicate (`CloudinaryUpload.WithinLimit`). The multer middleware that enforces it is a library.
- Floating point is modelled with `real`: checkout totals via `parseFloat`, and rating averages. `parseInt` and `parseFloat` are `None` where they yield NaN.
- Time and randomness are parameters: `Date.now`, `Math.random` (tracking-number offset, toast ids) and new document ids.
- Concurrency is not modelled. Concurrent read-modify-write of one cart and the ordering of client effects are out of scope.
- Store internals are modelled only through their effects.
  - Population is modelled only for the wishlist. `WishlistRoutes.Populated` attaches the whole product, where server/routes/wishlistRoutes.js:20 and :76 select six fields (name, price, image, stock, rating and review count).
  - The other populated listings return the stored references unpopulated:
    - `OrderController.GetOrdersByUser` (server/controllers/orderController.js:32 populates each line's product);
    - `AdminController.GetAllOrders` (server/controllers/adminController.js:7 populates the owner's email and each line's name and price);
    - `ReviewRoutes.ListReviews` (server/routes/reviewRoutes.js:20 populates the author's name).
  - A listing sorted on `createdAt` descending is the store reversed (`Common.NewestFirst`). Records with equal `createdAt` therefore come latest-inserted first; the store's own order among ties is not modelled.
  - Ids are the 24-hex-character form only; 12-byte binary ids are not modelled.
- The outer `catch` of `protect` (server/middleware/authMiddleware.js:44-47) is not modelled because no modelled step can reach it. A `localStorage.setItem` exception in `login` is not modelled either.
- `client/src/context/CartContext.jsx` is HTTP plumbing and is not modelled. Only its fixed quantity 1 on add is used, by `CartController.ClientReAddResetsQuantity`.
- WishlistContext's sign-in effect (client/src/context/WishlistContext.jsx:21-27) reads `isAuthenticated`, which the sign-in context does not provide. The effect therefore always empties the list and never fetches. The effect itself is not a member.
- Review deletion checks `role === 'admin'` while accounts carry `isAdmin`, so administrators cannot delete other users' reviews. `ReviewRoutes.MayDelete` models the code as written.
- Chatbot.Respond: its contract names only the greeting, too-short and fallback replies. The reply text of each intent group is given by `Chatbot.Reply` and is not restated.
- WishlistCache.WishlistProvider.RefreshWishlist: its contract states only the flags and the list after a successful reply. Every other path is that of `FetchWishlist` with `force` set.
- Checkout.CheckoutPage.HandleCheckout: the cart-clearing request is a boolean parameter, and its own failure is not reported.
- AdminController.GetAllOrders: the population of each order's owner and lines is not modelled.
- ClampQuantity: the request's quantity is an optional integer. A numeric string such as "3", which `Math.max` coerces to 3, is not modelled. Neither is a non-numeric string, which gives NaN and is then refused by the save with 500, nor a fraction such as 2.5, which is kept.
- NewOrder: the delivery estimate is the creation time plus 5 × 24 hours. server/models/Order.js:57 adds five calendar days in local time, which differs by an hour across a daylight-saving change; time zones are not modelled.
- Normalized: lower-casing maps only the ASCII capitals A-Z. JavaScript's `toLowerCase` also maps the capitals of other scripts (such as "É"), and those are left unchanged here. Trimming and the `\s` split use JavaScript's full white-space set (`Strings.IsSpace`).
- Some behaviours differ from what the handler names and comments suggest; the model follows the code.
  - `trackOrder` returns only the status and the delivery estimate.
  - Neither placing nor cancelling an order checks ownership.
  - The administrator's status update appends no tracking entry.

## Findings

| source | as written | input that shows it | evidently intended | confidence | as-written member | corrected member |
|---|---|---|---|---|---|---|
| server/controllers/orderController.js:13-20 | the new order receives the amount under `totalPrice`, which the schema drops; `amount` is required, so every save fails validation and the handler answers 500 | any complete body, e.g. an ObjectId `userId`, `products: []`, `address: "x"`, `paymentMode: "COD"`, `amount: 10` | pass the amount as `amount`, so a valid order is stored with its amount | high; not executed | OrderController.PlaceOrderNeverValid | OrderController.IntendedOrderValid |
| server/controllers/cartController.js:58-59 | the entry search compares the requested id text with the stored lower-case id, while the product lookup casts it; a product requested in upper-case hex gets a second entry | a cart holding product `aaaaaaaaaaaaaaaaaaaaaaaa`, then an add with `productId: "AAAAAAAAAAAAAAAAAAAAAAAA"` | compare canonical ids, so one entry per product is kept | medium; not executed | CartController.UpperCaseIdDuplicatesEntry | CartController.AddCanonicalKeepsOnePerProduct |

=== FILE: admin_controller.dfy ===
/**
  The administration handlers (server/controllers/adminController.js). Each is one query on one record:
  the status update and the product update go through `findByIdAndUpdate`, which writes the given paths
  directly, without running validation or the document's save hook.
*/
module AdminController {
  import opened Common
  import opened Strings
  import opened ProductModel
  import opened OrderModel
  import opened Store

  /** The paths of a product update body; `None` is a path the body does not contain. */
  datatype ProductPatch = ProductPatch(
    name: Option<string>,
    brand: Option<string>,
    category: Option<string>,
    price: Option<real>,
    description: Option<string>,
    image: Option<string>,
    cloudinaryId: Option<string>,
    countInStock: Option<int>,
    rating: Option<real>,
    numReviews: Option<int>)

  /** `getAllOrders`: every order, in store order. */
  method GetAllOrders(db: Db) returns (r: Outcome<seq<Order>>)
    ensures r.Ok? && r.status == 200 && |r.value| == |db.orders|
    ensures forall o :: o in r.value <==> o in db.orders
  {
    r := Ok(200, db.orders);
  }

  /** The stored order after the status update: the given status, every other path as it was. */
  function StatusPatched(o: Order, status: Option<string>): (r: Order)
    ensures r.trackingDetails == o.trackingDetails
    ensures r.status == status.GetOr(o.status)
    ensures r.(status := o.status) == o
  {
    if status.Some? then o.(status := status.value) else o
  }

  /**
    The same status change made by loading the order and saving it would have pushed a tracking entry;
    the direct update does not.
  */
  lemma StatusUpdateSkipsHook(o: Order, s: string, now: int)
    requires s != o.status
    ensures |StatusPatched(o, Some(s)).trackingDetails| == |o.trackingDetails|
    ensures |StatusSaved(o, s, now).trackingDetails| == |o.trackingDetails| + 1
  {
  }

  /**
    `updateOrderStatus`: any status text is written, whatever the current one (a delivered or cancelled
    order included); an absent status leaves the order unchanged; an unknown id still answers 200, with
    no order.
  */
  method UpdateOrderStatus(db: Db, id: string, status: Option<string>) returns (r: Outcome<Option<Order>>)
    modifies db`orders
    ensures !IsObjectId(id) ==> r.Fail? && r.status == 500 && db.orders == old(db.orders)
    ensures IsObjectId(id) && FindOrder(old(db.orders), Canon(id)) == |old(db.orders)| ==>
      r == Ok(200, None) && db.orders == old(db.orders)
    ensures IsObjectId(id) && FindOrder(old(db.orders), Canon(id)) < |old(db.orders)| ==>
      var k := FindOrder(old(db.orders), Canon(id));
      var o := StatusPatched(old(db.orders)[k], status);
      db.orders == old(db.orders)[k := o] && r == Ok(200, Some(o))
  {
    if !IsObjectId(id) {
      return Fail(500, "Cast to ObjectId failed");
    }
    var k := FindOrder(db.orders, Canon(id));
    if k == |db.orders| {
      return Ok(200, None);
    }
    var o := StatusPatched(db.orders[k], status);
    db.orders := db.orders[k := o];
    r := Ok(200, Some(o));
  }

  /** `deleteProduct`: the product is gone afterwards and the reply is the same whether it existed or not. */
  method DeleteProduct(db: Db, id: string) returns (r: Outcome<string>)
    modifies db`products
    ensures !IsObjectId(id) ==> r.Fail? && r.status == 500 && db.products == old(db.products)
    ensures IsObjectId(id) ==> r == Ok(200, "Product deleted") && db.products == old(db.products) - {Canon(id)}
    ensures IsObjectId(id) ==> Canon(id) !in db.products
  {
    if !IsObjectId(id) {
      return Fail(500, "Cast to ObjectId failed");
    }
    db.products := db.products - {Canon(id)};
    r := Ok(200, "Product deleted");
  }

  /** Deleting twice leaves the catalogue as deleting once. */
  lemma DeleteIdempotent(products: map<string, Product>, key: string)
    ensures (products - {key}) - {key} == products - {key}
  {
  }

  /** The product after an update: each path the body contains is overwritten, every other one is kept. */
  function ApplyPatch(p: Product, patch: ProductPatch): (r: Product)
    ensures r.id == p.id
    ensures r.name == patch.name.GetOr(p.name) && r.brand == patch.brand.GetOr(p.brand)
    ensures r.category == patch.category.GetOr(p.category) && r.price == patch.price.GetOr(p.price)
    ensures r.description == patch.description.GetOr(p.description) && r.image == patch.image.GetOr(p.image)
    ensures r.cloudinaryId == patch.cloudinaryId.GetOr(p.cloudinaryId)
    ensures r.countInStock == patch.countInStock.GetOr(p.countInStock)
    ensures r.rating == patch.rating.GetOr(p.rating) && r.numReviews == patch.numReviews.GetOr(p.numReviews)
  {
    Product(p.id, patch.name.GetOr(p.name), patch.brand.GetOr(p.brand), patch.category.GetOr(p.category),
            patch.price.GetOr(p.price), patch.description.GetOr(p.description), patch.image.GetOr(p.image),
            patch.cloudinaryId.GetOr(p.cloudinaryId), patch.countInStock.GetOr(p.countInStock),
            patch.rating.GetOr(p.rating), patch.numReviews.GetOr(p.numReviews))
  }

  /** An empty body changes nothing, and sending the same body twice is sending it once. */
  lemma ApplyPatchLaws(p: Product, patch: ProductPatch)
    ensures ApplyPatch(p, ProductPatch(None, None, None, None, None, None, None, None, None, None)) == p
    ensures ApplyPatch(ApplyPatch(p, patch), patch) == ApplyPatch(p, patch)
  {
  }

  /** `updateProduct`: the patched product, or no product for an unknown id. */
  method UpdateProduct(db: Db, id: string, patch: ProductPatch) returns (r: Outcome<Option<Product>>)
    modifies db`products
    ensures !IsObjectId(id) ==> r.Fail? && r.status == 500 && db.products == old(db.products)
    ensures IsObjectId(id) && Canon(id) !in old(db.products) ==> r == Ok(200, None) && db.products == old(db.products)
    ensures IsObjectId(id) && Canon(id) in old(db.products) ==>
      var p := ApplyPatch(old(db.products)[Canon(id)], patch);
      db.products == old(db.products)[Canon(id) := p] && r == Ok(200, Some(p))
  {
    if !IsObjectId(id) {
      return Fail(500, "Cast to ObjectId failed");
    }
    var key := Canon(id);
    if key !in db.products {
      return Ok(200, None);
    }
    var p := ApplyPatch(db.products[key], patch);
    db.products := db.products[key := p];
    r := Ok(200, Some(p));
  }
}

=== FILE: auth_controller.dfy ===
/**
  Registration and sign-in (server/controllers/authController.js). Password hashing, hash comparison and
  token signing are library calls; they are parameters here: `hash` is the one-way hash, `matches(p, h)`
  tells whether password `p` produced hash `h`, and `sign` turns a payload into a token.
*/
module AuthController {
  import opened Common
  import opened Records
  import opened Store

  /** What a signed token carries. */
  datatype TokenPayload = TokenPayload(id: string, isAdmin: bool)

  /** The account in a sign-in reply; both `_id` and `id` are sent, with the same value. */
  datatype SessionUser = SessionUser(underscoreId: string, id: string, name: string, email: string,
                                     phone: string, address: string, isAdmin: bool)

  datatype LoginReply = LoginReply(token: string, user: SessionUser)

  /** A new account: the hash of the password, never the password; the other paths at their defaults. */
  function NewAccount(id: string, name: string, email: string, hashed: string): (u: User)
    ensures u.id == id && u.name == name && u.email == email && u.password == hashed
    ensures u.phone == "" && u.address == "" && !u.isAdmin
  {
    User(id, name, email, hashed, "", "", false, "")
  }

  /**
    `register`: 400 when name, email or password is missing, 400 when the address is taken; otherwise the
    account is stored with the hashed password and the reply is only a message.
  */
  method Register(db: Db, name: string, email: string, password: string, hash: string -> string, newId: string)
    returns (r: Outcome<string>)
    modifies db`users
    ensures name == "" || email == "" || password == "" ==>
      r == Fail(400, "Please provide all required fields") && db.users == old(db.users)
    ensures name != "" && email != "" && password != "" && EmailTaken(old(db.users), email) ==>
      r == Fail(400, "User already exists") && db.users == old(db.users)
    ensures name != "" && email != "" && password != "" && !EmailTaken(old(db.users), email) ==>
      r == Ok(201, "User registered successfully")
      && db.users == old(db.users) + [NewAccount(newId, name, email, hash(password))]
      && FindByEmail(db.users, email) == |old(db.users)|
    ensures UniqueEmails(old(db.users)) ==> UniqueEmails(db.users)
  {
    if name == "" || email == "" || password == "" {
      return Fail(400, "Please provide all required fields");
    }
    if FindByEmail(db.users, email) < |db.users| {
      return Fail(400, "User already exists");
    }
    var user := NewAccount(newId, name, email, hash(password));
    if UniqueEmails(db.users) {
      AppendKeepsUniqueEmails(db.users, user);
    }
    FindByEmailAppend(db.users, user);
    db.users := db.users + [user];
    r := Ok(201, "User registered successfully");
  }

  /** Appending an account whose address is not yet taken makes it the one the address finds. */
  lemma {:induction false} FindByEmailAppend(users: seq<User>, u: User)
    requires !EmailTaken(users, u.email)
    ensures FindByEmail(users + [u], u.email) == |users|
  {
    var s := users + [u];
    assert forall i :: 0 <= i < |users| ==> s[i] == users[i];
    assert s[|users|].email == u.email;
  }

  /** The account data the sign-in reply carries. */
  function Session(u: User): (s: SessionUser)
    ensures s.underscoreId == u.id && s.id == u.id && s.name == u.name && s.email == u.email
    ensures s.phone == OrElse(u.phone, "") && s.address == OrElse(u.address, "") && s.isAdmin == u.isAdmin
  {
    SessionUser(u.id, u.id, u.name, u.email, OrElse(u.phone, ""), OrElse(u.address, ""), u.isAdmin)
  }

  /**
    `login`: 400 when the email or the password is missing; an unknown address and a wrong password both
    get the same 400 "Invalid credentials", so the reply does not tell which; on success the token is the
    signature of `{ id, isAdmin }` of the account found by address.
  */
  method Login(db: Db, email: string, password: string, matches: (string, string) -> bool,
               sign: TokenPayload -> string) returns (r: Outcome<LoginReply>)
    ensures email == "" || password == "" ==> r == Fail(400, "Please provide email and password")
    ensures email != "" && password != "" && !EmailTaken(db.users, email) ==> r == Fail(400, "Invalid credentials")
    ensures email != "" && password != "" && EmailTaken(db.users, email) ==>
      var u := db.users[FindByEmail(db.users, email)];
      && (!matches(password, u.password) ==> r == Fail(400, "Invalid credentials"))
      && (matches(password, u.password) ==> r == Ok(200, LoginReply(sign(TokenPayload(u.id, u.isAdmin)), Session(u))))
    ensures r.Ok? ==> r.value.user.underscoreId == r.value.user.id
  {
    if email == "" || password == "" {
      return Fail(400, "Please provide email and password");
    }
    var k := FindByEmail(db.users, email);
    if k == |db.users| {
      return Fail(400, "Invalid credentials");
    }
    var user := db.users[k];
    if !matches(password, user.password) {
      return Fail(400, "Invalid credentials");
    }
    var token := sign(TokenPayload(user.id, user.isAdmin));
    r := Ok(200, LoginReply(token, Session(user)));
  }
}

=== FILE: auth_middleware.dfy ===
/**
  The sign-in check placed before protected handlers, and the administrator check
  (server/middleware/authMiddleware.js). Token verification is a library call and a parameter here:
  `verify(token)` is the token's claims, or `None` when the signature is wrong or the token has expired.
*/
module AuthMiddleware {
  import opened Common
  import opened Strings
  import opened Records
  import opened Store

  /** The identity claims of a token payload; "" is a claim the payload lacks. */
  datatype Claims = Claims(id: string, underscoreId: string)

  /** A refusal sent back instead of calling the next handler. */
  datatype Rejection = Rejection(status: nat, message: string)

  /**
    A request as the middleware sees it: its Authorization header ("" when absent), the account attached to
    it, how often the next handler has been called, and the refusal sent, if any.
  */
  class Request {
    const authorization: string
    var user: Option<User>
    var nextCalls: nat
    var rejection: Option<Rejection>

    constructor (authorization: string)
      ensures this.authorization == authorization && user.None? && nextCalls == 0 && rejection.None?
    {
      this.authorization := authorization;
      user := None;
      nextCalls := 0;
      rejection := None;
    }
  }

  /** `authorization.split(" ")[1]`: the second space-separated field, or "" when there is none. */
  function BearerToken(header: string): (t: string)
    ensures |Split(header, ' ')| < 2 ==> t == ""
    ensures |Split(header, ' ')| >= 2 ==> t == Split(header, ' ')[1]
  {
    var fields := Split(header, ' ');
    if |fields| < 2 then "" else fields[1]
  }

  /** The header the client sends, "Bearer " followed by a token without spaces, yields that token back. */
  lemma BearerTokenOfHeader(t: string)
    requires Free(t, ' ')
    ensures BearerToken("Bearer " + t) == t
  {
    assert "Bearer " + t == "Bearer" + [' '] + t;
    SplitAfterFree("Bearer", ' ', t);
    SplitFree(t, ' ');
  }

  /** A header that is exactly "Bearer" starts with it but carries no token. */
  lemma BareSchemeHasNoToken()
    ensures StartsWith("Bearer", "Bearer") && BearerToken("Bearer") == ""
  {
    SplitFree("Bearer", ' ');
  }

  /** The account id a payload names: `id` when present, else `_id`. */
  function ClaimedId(c: Claims): (id: string)
    ensures c.id != "" ==> id == c.id
    ensures c.id == "" ==> id == c.underscoreId
    ensures id == "" <==> c.id == "" && c.underscoreId == ""
  {
    OrElse(c.id, c.underscoreId)
  }

  /** The account as `select("-password")` loads it. */
  function WithoutPassword(u: User): (v: User)
    ensures v.password == "" && v.(password := u.password) == u
  {
    u.(password := "")
  }

  /**
    `protect`: refuses with 401 when the header is missing or does not start with "Bearer", when it has no
    token field, when the token does not verify, when the payload names no account, when the named id
    cannot be cast (the query throws inside the verification block), and when no account has that id.
    Otherwise it attaches the account and calls the next handler exactly once.
  */
  method Protect(db: Db, req: Request, verify: string -> Option<Claims>)
    requires req.rejection.None?
    modifies req
    ensures var h := req.authorization;
      var t := BearerToken(h);
      var c := verify(t);
      && (h == "" || !StartsWith(h, "Bearer") ==> req.rejection == Some(Rejection(401, "Not authorized, no token")))
      && (h != "" && StartsWith(h, "Bearer") && t == "" ==>
            req.rejection == Some(Rejection(401, "Not authorized, invalid token format")))
      && (h != "" && StartsWith(h, "Bearer") && t != "" && c.None? ==>
            req.rejection == Some(Rejection(401, "Token invalid or expired")))
      && (h != "" && StartsWith(h, "Bearer") && t != "" && c.Some? ==>
            var id := ClaimedId(c.value);
            && (id == "" ==> req.rejection == Some(Rejection(401, "Invalid token payload")))
            && (id != "" && !IsObjectId(id) ==> req.rejection == Some(Rejection(401, "Token invalid or expired")))
            && (id != "" && IsObjectId(id) && FindUser(db.users, Canon(id)) == |db.users| ==>
                  req.rejection == Some(Rejection(401, "User not found or deleted")))
            && (id != "" && IsObjectId(id) && FindUser(db.users, Canon(id)) < |db.users| ==>
                  req.user == Some(WithoutPassword(db.users[FindUser(db.users, Canon(id))]))
                  && req.rejection.None?))
    ensures req.rejection.None? ==> req.nextCalls == old(req.nextCalls) + 1 && req.user.Some? && req.user.value.password == ""
    ensures req.rejection.Some? ==> req.nextCalls == old(req.nextCalls) && req.user == old(req.user)
  {
    var h := req.authorization;
    if h == "" || !StartsWith(h, "Bearer") {
      req.rejection := Some(Rejection(401, "Not authorized, no token"));
      return;
    }
    var token := BearerToken(h);
    if token == "" {
      req.rejection := Some(Rejection(401, "Not authorized, invalid token format"));
      return;
    }
    var decoded := verify(token);
    if decoded.None? {
      req.rejection := Some(Rejection(401, "Token invalid or expired"));
      return;
    }
    var id := ClaimedId(decoded.value);
    if id == "" {
      req.rejection := Some(Rejection(401, "Invalid token payload"));
      return;
    }
    if !IsObjectId(id) {
      req.rejection := Some(Rejection(401, "Token invalid or expired"));
      return;
    }
    var k := FindUser(db.users, Canon(id));
    if k == |db.users| {
      req.rejection := Some(Rejection(401, "User not found or deleted"));
      return;
    }
    req.user := Some(WithoutPassword(db.users[k]));
    req.nextCalls := req.nextCalls + 1;
  }

  /** `admin`: the next handler runs exactly when an account is attached and it is an administrator. */
  method Admin(req: Request)
    requires req.rejection.None?
    modifies req
    ensures req.user == old(req.user)
    ensures old(req.user).Some? && old(req.user).value.isAdmin ==>
      req.nextCalls == old(req.nextCalls) + 1 && req.rejection.None?
    ensures !(old(req.user).Some? && old(req.user).value.isAdmin) ==>
      req.nextCalls == old(req.nextCalls) && req.rejection == Some(Rejection(401, "Not authorized as an admin"))
  {
    if req.user.Some? && req.user.value.isAdmin {
      req.nextCalls := req.nextCalls + 1;
    } else {
      req.rejection := Some(Rejection(401, "Not authorized as an admin"));
    }
  }
}

=== FILE: auth_state.dfy ===
/**
  The client's sign-in state (client/src/context/AuthContext.jsx): the signed-in user held in memory and
  mirrored in the browser's local storage under the key "user", next to the token under "token".
  `JSON.stringify` and `JSON.parse` of a user are parameters; `parse` answers `None` when the stored text
  is not a user object.
*/
module AuthState {
  import opened Common

  /**
    An id as a client-side user object holds it: absent (or null), a string, or a store ObjectId object,
    which renders as its hexadecimal text.
  */
  datatype IdVal = Missing | Text(s: string) | ObjectIdValue(hex: HexText)

  /** The text of an ObjectId: always 24 hexadecimal characters, so never empty. */
  type HexText = s: string | |s| == 24 witness "000000000000000000000000"

  /** JavaScript truthiness of an id: a non-empty string or an object. */
  predicate Truthy(v: IdVal) {
    v.ObjectIdValue? || (v.Text? && v.s != "")
  }

  /** `v.toString()` */
  function ToText(v: IdVal): (t: IdVal)
    ensures v.ObjectIdValue? ==> t == Text(v.hex)
    ensures !v.ObjectIdValue? ==> t == v
  {
    match v
    case ObjectIdValue(hex) => Text(hex)
    case _ => v
  }

  /** The text an id contributes to a JSON body: its string form, or "" when absent. */
  function IdText(v: IdVal): (s: string)
    ensures v.Text? ==> s == v.s
    ensures v.ObjectIdValue? ==> s == v.hex
    ensures v.Missing? ==> s == ""
  {
    match v
    case Missing => ""
    case Text(s) => s
    case ObjectIdValue(hex) => hex
  }

  /** A user as the client keeps it: both spellings of the id and the account fields. */
  datatype ClientUser = ClientUser(underscoreId: IdVal, id: IdVal, name: string, email: string,
                                   phone: string, address: string, isAdmin: bool)

  /** The text kept under a storage key; `getItem` of a missing key is null, modelled as "". */
  function Item(storage: map<string, string>, key: string): (v: string)
    ensures key !in storage ==> v == ""
    ensures key in storage ==> v == storage[key]
  {
    if key in storage then storage[key] else ""
  }

  /**
    The normalisation `login` applies: a missing `_id` is copied from `id`, otherwise a missing `id` from
    `_id`; then each id that is present is turned into its string form. Nothing else changes.
  */
  function Normalize(u: ClientUser): (n: ClientUser)
    ensures n.(underscoreId := u.underscoreId, id := u.id) == u
    ensures Truthy(n.underscoreId) <==> Truthy(u.underscoreId) || Truthy(u.id)
    ensures Truthy(n.id) <==> Truthy(u.underscoreId) || Truthy(u.id)
    ensures Truthy(n.underscoreId) ==> n.underscoreId.Text?
    ensures Truthy(n.id) ==> n.id.Text?
    ensures Truthy(u.underscoreId) ==> n.underscoreId == ToText(u.underscoreId)
    ensures Truthy(u.id) ==> n.id == ToText(u.id)
    ensures !Truthy(u.underscoreId) && Truthy(u.id) ==> n.underscoreId == n.id
    ensures Truthy(u.underscoreId) && !Truthy(u.id) ==> n.id == n.underscoreId
    ensures !Truthy(u.underscoreId) && !Truthy(u.id) ==> n == u
  {
    var filled :=
      if !Truthy(u.underscoreId) && Truthy(u.id) then u.(underscoreId := u.id)
      else if !Truthy(u.id) && Truthy(u.underscoreId) then u.(id := u.underscoreId)
      else u;
    var withUnderscore :=
      if Truthy(filled.underscoreId) then filled.(underscoreId := ToText(filled.underscoreId)) else filled;
    if Truthy(withUnderscore.id) then withUnderscore.(id := ToText(withUnderscore.id)) else withUnderscore
  }

  /** Normalising twice is normalising once: a user already in context is stored unchanged by a second `login`. */
  lemma NormalizeIdempotent(u: ClientUser)
    ensures Normalize(Normalize(u)) == Normalize(u)
  {
    var n := Normalize(u);
    assert Truthy(n.underscoreId) == Truthy(n.id);
  }

  /** The repair applied to a user read back from storage: only a missing `_id` is taken from `id`. */
  function FillUnderscoreId(u: ClientUser): (f: ClientUser)
    ensures !Truthy(u.underscoreId) && Truthy(u.id) ==> f == u.(underscoreId := u.id)
    ensures Truthy(u.underscoreId) || !Truthy(u.id) ==> f == u
    ensures Truthy(f.underscoreId) <==> Truthy(u.underscoreId) || Truthy(u.id)
  {
    if !Truthy(u.underscoreId) && Truthy(u.id) then u.(underscoreId := u.id) else u
  }

  /**
    What `loadStoredUser` finds: with a token and a stored user that parses, that user with `_id` repaired;
    `None` when there is no token, no stored user, or stored text that does not parse.
  */
  function StoredUser(storage: map<string, string>, parse: string -> Option<ClientUser>): (r: Option<ClientUser>)
    ensures Item(storage, "token") == "" || Item(storage, "user") == "" ==> r.None?
    ensures r.Some? <==> Item(storage, "token") != "" && Item(storage, "user") != "" && parse(Item(storage, "user")).Some?
    ensures r.Some? ==> r.value == FillUnderscoreId(parse(Item(storage, "user")).value)
  {
    var text := Item(storage, "user");
    if Item(storage, "token") == "" || text == "" then None
    else match parse(text)
      case None => None
      case Some(p) => Some(FillUnderscoreId(p))
  }

  /**
    The provider's state: the user in memory (`None` for null), the browser's local storage, and the
    loading flag.
  */
  class AuthContext {
    var user: Option<ClientUser>
    var storage: map<string, string>
    var loading: bool

    /** The provider starts with no user and loading, over whatever the browser has stored. */
    constructor (storage: map<string, string>)
      ensures user.None? && this.storage == storage && loading
    {
      user := None;
      this.storage := storage;
      loading := true;
    }

    /**
      `loadStoredUser`: a stored user that parses becomes the user (with `_id` repaired) when a token is
      present; stored text that does not parse is removed; loading ends on every path.
    */
    method LoadStoredUser(parse: string -> Option<ClientUser>)
      modifies this
      ensures !loading
      ensures StoredUser(old(storage), parse).Some? ==> user == StoredUser(old(storage), parse)
      ensures StoredUser(old(storage), parse).None? ==> user == old(user)
      ensures var text := Item(old(storage), "user");
        if Item(old(storage), "token") != "" && text != "" && parse(text).None?
        then storage == old(storage) - {"user"}
        else storage == old(storage)
    {
      loading := true;
      if Item(storage, "token") == "" {
        loading := false;
        return;
      }
      var text := Item(storage, "user");
      if text != "" {
        var parsed := parse(text);
        if parsed.Some? {
          user := Some(FillUnderscoreId(parsed.value));
        } else {
          storage := storage - {"user"};
        }
      }
      loading := false;
    }

    /**
      `login`: no user data changes nothing; otherwise the normalised user is held in memory and stored,
      as its JSON text, under "user". The token is not touched.
    */
    method Login(userData: Option<ClientUser>, stringify: ClientUser -> string)
      modifies this`user, this`storage
      ensures userData.None? ==> user == old(user) && storage == old(storage)
      ensures userData.Some? ==>
        user == Some(Normalize(userData.value))
        && storage == old(storage)["user" := stringify(Normalize(userData.value))]
    {
      if userData.None? {
        return;
      }
      var normalized := Normalize(userData.value);
      user := Some(normalized);
      storage := storage["user" := stringify(normalized)];
    }

    /** `logout`: no user in memory, and neither the user nor the token in storage; other keys stay. */
    method Logout()
      modifies this`user, this`storage
      ensures user.None?
      ensures storage == old(storage) - {"user", "token"}
      ensures "user" !in storage && "token" !in storage
    {
      user := None;
      storage := storage - {"user", "token"};
    }
  }

  /**
    A reload after `login` brings back the same user, provided a token is stored and parsing reads back what
    stringifying wrote: the normalised user needs no repair.
  */
  lemma ReloadAfterLogin(storage: map<string, string>, u: ClientUser, parse: string -> Option<ClientUser>,
                         stringify: ClientUser -> string)
    requires Item(storage, "token") != "" && stringify(Normalize(u)) != ""
    requires parse(stringify(Normalize(u))) == Some(Normalize(u))
    ensures StoredUser(storage["user" := stringify(Normalize(u))], parse) == Some(Normalize(u))
  {
    var s := storage["user" := stringify(Normalize(u))];
    assert Item(s, "token") == Item(storage, "token");
    assert FillUnderscoreId(Normalize(u)) == Normalize(u);
  }

  /** After `logout` a reload finds no user, whatever was stored. */
  lemma ReloadAfterLogout(storage: map<string, string>, parse: string -> Option<ClientUser>)
    ensures StoredUser(storage - {"user", "token"}, parse).None?
  {
    assert "token" !in storage - {"user", "token"};
  }
}

=== FILE: cart_controller.dfy ===
/**
  The cart handlers (server/controllers/cartController.js): add or replace an entry, read, remove one
  product, clear. Every handler runs the same guard chain before touching the store, then works on the
  cart document of the owner, which it loads, changes in place and saves.
*/
module CartController {
  import opened Common
  import opened Strings
  import opened ProductModel
  import opened CartModel
  import opened Store

  /** The authenticated caller a handler may find attached to the request. */
  datatype Caller = Caller(id: string, isAdmin: bool)

  /** The first guard that refuses a request. */
  datatype GuardFailure = MissingFields | BadUserId | BadProductId | Forbidden

  /** The body of a successful `clearCart`. */
  datatype ClearReply = ClearReply(message: string, cart: Cart)

  function FailureStatus(f: GuardFailure): nat {
    if f == Forbidden then 403 else 400
  }

  /** No caller is attached (the check is skipped), or the caller owns the cart or is an administrator. */
  predicate Authorized(caller: Option<Caller>, userId: string) {
    caller.None? || caller.value.id == userId || caller.value.isAdmin
  }

  /**
    The guard chain shared by the handlers (`productId` is `None` for the handlers without one): missing
    ids, then a malformed owner id, then a malformed product id, then authorization. The first one that
    fails decides the reply.
  */
  function CartGuard(caller: Option<Caller>, userId: string, productId: Option<string>): (r: Option<GuardFailure>)
    ensures r == Some(MissingFields) <==> userId == "" || productId == Some("")
    ensures r == Some(BadUserId) <==> userId != "" && productId != Some("") && !IsObjectId(userId)
    ensures r == Some(BadProductId) <==>
      productId != Some("") && IsObjectId(userId) && productId.Some? && !IsObjectId(productId.value)
    ensures r == Some(Forbidden) <==>
      IsObjectId(userId) && (productId.None? || IsObjectId(productId.value)) && !Authorized(caller, userId)
    ensures r.None? <==>
      IsObjectId(userId) && (productId.None? || IsObjectId(productId.value)) && Authorized(caller, userId)
  {
    if userId == "" || productId == Some("") then Some(MissingFields)
    else if !IsObjectId(userId) then Some(BadUserId)
    else if productId.Some? && !IsObjectId(productId.value) then Some(BadProductId)
    else if !Authorized(caller, userId) then Some(Forbidden)
    else None
  }

  /** The reply of a refused request; `missing` and `forbidden` are the handler's own messages. */
  function GuardReply<T>(f: GuardFailure, missing: string, forbidden: string): (r: Outcome<T>)
    ensures r.Fail? && r.status == FailureStatus(f)
  {
    match f
    case MissingFields => Fail(400, missing)
    case BadUserId => Fail(400, "Invalid userId format")
    case BadProductId => Fail(400, "Invalid productId format")
    case Forbidden => Fail(403, forbidden)
  }

  /** `Math.max(1, quantity || 1)`: a missing, zero or negative quantity becomes 1, any other is kept. */
  function ClampQuantity(q: Option<int>): (r: int)
    ensures r >= 1
    ensures q.Some? && q.value >= 1 ==> r == q.value
    ensures q.None? || q.value < 1 ==> r == 1
  {
    var v := NumOrElse(q, 1);
    if v < 1 then 1 else v
  }

  /** `findIndex` on the string form of the stored product ids: the first match, or -1. */
  function IndexOf(entries: seq<CartEntry>, productId: string): (k: int)
    ensures -1 <= k < |entries|
    ensures k >= 0 ==> entries[k].productId == productId
    ensures k >= 0 ==> forall j :: 0 <= j < k ==> entries[j].productId != productId
    ensures k == -1 ==> forall j :: 0 <= j < |entries| ==> entries[j].productId != productId
  {
    if |entries| == 0 then -1
    else if entries[0].productId == productId then 0
    else
      var k := IndexOf(entries[1..], productId);
      if k == -1 then -1 else k + 1
  }

  /** The search loop of `findIndex`. */
  method FindEntry(entries: seq<CartEntry>, productId: string) returns (k: int)
    ensures k == IndexOf(entries, productId)
  {
    k := 0;
    while k < |entries| && entries[k].productId != productId
      invariant 0 <= k <= |entries|
      invariant forall j :: 0 <= j < k ==> entries[j].productId != productId
      decreases |entries| - k
    {
      k := k + 1;
    }
    if k == |entries| {
      k := -1;
    }
  }

  /** An existing entry after a re-add: the new quantity and the product's current details, same product id. */
  function Refresh(e: CartEntry, p: Product, quantity: int): (r: CartEntry)
    ensures r == Snapshot(p, quantity).(productId := e.productId)
  {
    e.(quantity := quantity, name := p.name, brand := p.brand, category := p.category, price := p.price,
       description := p.description, image := p.image)
  }

  /**
    The entries after adding product `p`, requested as `productId`, with quantity `q`: an entry found for
    the id is refreshed in place, otherwise a snapshot is appended at the end. A new cart is this with no
    entries before.
  */
  function AddEntries(entries: seq<CartEntry>, p: Product, productId: string, q: int): seq<CartEntry> {
    var k := IndexOf(entries, productId);
    if k >= 0 then entries[k := Refresh(entries[k], p, q)] else entries + [Snapshot(p, q)]
  }

  /**
    Re-adding a product replaces the quantity of its entry (no increment) and refreshes its details from
    the product; every other entry stays as it was, at its place.
  */
  lemma AddReplaces(entries: seq<CartEntry>, p: Product, q: int)
    requires IndexOf(entries, p.id) >= 0
    ensures var k := IndexOf(entries, p.id); var r := AddEntries(entries, p, p.id, q);
      |r| == |entries| && r[k].quantity == q && Mirrors(r[k], p)
      && forall j :: 0 <= j < |r| && j != k ==> r[j] == entries[j]
  {
  }

  /** Adding a product that is not in the cart keeps every entry and appends one snapshot at the end. */
  lemma AddAppends(entries: seq<CartEntry>, p: Product, q: int)
    requires IndexOf(entries, p.id) == -1
    ensures var r := AddEntries(entries, p, p.id, q);
      |r| == |entries| + 1 && r[..|entries|] == entries && Mirrors(r[|entries|], p) && r[|entries|].quantity == q
  {
  }

  /** A new cart holds exactly one entry, for the product added. */
  lemma NewCartHasOneEntry(p: Product, productId: string, q: int)
    ensures AddEntries([], p, productId, q) == [Snapshot(p, q)]
  {
  }

  lemma {:induction false} CountForAppend(entries: seq<CartEntry>, e: CartEntry, productId: string)
    ensures CountFor(entries + [e], productId) == CountFor(entries, productId) + (if e.productId == productId then 1 else 0)
    decreases |entries|
  {
    if |entries| > 0 {
      assert (entries + [e])[1..] == entries[1..] + [e];
      CountForAppend(entries[1..], e, productId);
    }
  }

  lemma {:induction false} CountForSameIds(a: seq<CartEntry>, b: seq<CartEntry>, productId: string)
    requires |a| == |b| && forall i :: 0 <= i < |a| ==> a[i].productId == b[i].productId
    ensures CountFor(a, productId) == CountFor(b, productId)
    decreases |a|
  {
    if |a| > 0 {
      CountForSameIds(a[1..], b[1..], productId);
    }
  }

  lemma {:induction false} CountForPresent(entries: seq<CartEntry>, productId: string, k: nat)
    requires k < |entries| && entries[k].productId == productId
    ensures CountFor(entries, productId) >= 1
    decreases k
  {
    if k > 0 {
      CountForPresent(entries[1..], productId, k - 1);
    }
  }

  /**
    Adding a product keeps at most one entry per product id, and afterwards the cart holds exactly one
    entry for the product (when the product id is given as stored, in canonical form).
  */
  lemma AddKeepsOnePerProduct(entries: seq<CartEntry>, p: Product, q: int)
    requires OnePerProduct(entries)
    ensures OnePerProduct(AddEntries(entries, p, p.id, q))
    ensures CountFor(AddEntries(entries, p, p.id, q), p.id) == 1
  {
    var k := IndexOf(entries, p.id);
    var r := AddEntries(entries, p, p.id, q);
    if k >= 0 {
      assert forall i :: 0 <= i < |r| ==> r[i].productId == entries[i].productId;
      CountForSameIds(r, entries, p.id);
      CountForPresent(entries, p.id, k);
      OnePerProductCount(entries, p.id);
    } else {
      CountForAppend(entries, Snapshot(p, q), p.id);
      AbsentCount(entries, p.id);
    }
  }

  /** Both client flows: "add" posts quantity 1, so re-adding an item sets its quantity back to 1. */
  lemma ClientReAddResetsQuantity(entries: seq<CartEntry>, p: Product)
    requires IndexOf(entries, p.id) >= 0
    ensures AddEntries(entries, p, p.id, ClampQuantity(Some(1)))[IndexOf(entries, p.id)].quantity == 1
  {
  }

  /** Decrementing an item of quantity 1 posts 0, which is stored as 1. */
  lemma ClientDecrementBelowOne(entries: seq<CartEntry>, p: Product)
    requires IndexOf(entries, p.id) >= 0
    ensures AddEntries(entries, p, p.id, ClampQuantity(Some(0)))[IndexOf(entries, p.id)].quantity == 1
  {
  }

  // ---------------------------------------------------------------- ids given in upper case

  const SampleId: string := "aaaaaaaaaaaaaaaaaaaaaaaa"
  const SampleIdUpper: string := "AAAAAAAAAAAAAAAAAAAAAAAA"

  /**
    The lookup of the product casts the requested id, but the search for an existing entry compares the
    requested text with the stored (lower-case) id. A product requested with upper-case hex digits is
    found, is not recognised in the cart, and gets a second entry.
  */
  lemma UpperCaseIdDuplicatesEntry(p: Product)
    requires p.id == SampleId
    ensures IsObjectId(SampleIdUpper) && Canon(SampleIdUpper) == p.id
    ensures OnePerProduct([Snapshot(p, 1)])
    ensures !OnePerProduct(AddEntries([Snapshot(p, 1)], p, SampleIdUpper, 1))
  {
    var e := [Snapshot(p, 1)];
    assert e[0].productId != SampleIdUpper by {
      assert e[0].productId[0] == 'a' && SampleIdUpper[0] == 'A';
    }
    assert IndexOf(e, SampleIdUpper) == -1;
    var r := AddEntries(e, p, SampleIdUpper, 1);
    assert r[0].productId == r[1].productId;
  }

  /** The entries after an add that compares canonical ids on both sides. */
  function AddEntriesCanonical(entries: seq<CartEntry>, p: Product, productId: string, q: int): seq<CartEntry> {
    AddEntries(entries, p, Canon(productId), q)
  }

  /** Comparing canonical ids, an add keeps one entry per product whatever the case of the requested id. */
  lemma AddCanonicalKeepsOnePerProduct(entries: seq<CartEntry>, p: Product, productId: string, q: int)
    requires OnePerProduct(entries) && p.id == Canon(productId)
    ensures OnePerProduct(AddEntriesCanonical(entries, p, productId, q))
    ensures CountFor(AddEntriesCanonical(entries, p, productId, q), p.id) == 1
  {
    AddKeepsOnePerProduct(entries, p, q);
  }

  // ---------------------------------------------------------------- removal

  /** `filter` keeping the entries of every other product, in their order. */
  function Without(entries: seq<CartEntry>, productId: string): (r: seq<CartEntry>)
    ensures |r| <= |entries|
    ensures forall i :: 0 <= i < |r| ==> r[i].productId != productId
    ensures forall e :: e in r <==> e in entries && e.productId != productId
  {
    if |entries| == 0 then []
    else if entries[0].productId == productId then Without(entries[1..], productId)
    else [entries[0]] + Without(entries[1..], productId)
  }

  /** Removing a product the cart does not hold changes nothing. */
  lemma {:induction false} WithoutAbsent(entries: seq<CartEntry>, productId: string)
    requires forall i :: 0 <= i < |entries| ==> entries[i].productId != productId
    ensures Without(entries, productId) == entries
  {
    if |entries| > 0 {
      WithoutAbsent(entries[1..], productId);
      assert [entries[0]] + entries[1..] == entries;
    }
  }

  /** The kept entries stay in their order: filtering distributes over concatenation. */
  lemma {:induction false} WithoutAppend(a: seq<CartEntry>, b: seq<CartEntry>, productId: string)
    ensures Without(a + b, productId) == Without(a, productId) + Without(b, productId)
  {
    if |a| > 0 {
      assert (a + b)[1..] == a[1..] + b;
      WithoutAppend(a[1..], b, productId);
    } else {
      assert a + b == b;
    }
  }

  /** The tail of a cart with one entry per product has one entry per product, none of them the head's product. */
  lemma OnePerProductTail(entries: seq<CartEntry>)
    requires |entries| > 0 && OnePerProduct(entries)
    ensures OnePerProduct(entries[1..])
    ensures forall e :: e in entries[1..] ==> e.productId != entries[0].productId
  {
    var rest := entries[1..];
    forall i, j | 0 <= i < j < |rest| ensures rest[i].productId != rest[j].productId {
      assert rest[i] == entries[i + 1] && rest[j] == entries[j + 1];
    }
    forall e | e in rest ensures e.productId != entries[0].productId {
      var m :| 0 <= m < |rest| && rest[m] == e;
      assert rest[m] == entries[m + 1];
    }
  }

  /** An entry of a product the rest does not hold, put in front, keeps one entry per product. */
  lemma OnePerProductCons(e: CartEntry, w: seq<CartEntry>)
    requires OnePerProduct(w)
    requires forall x :: x in w ==> x.productId != e.productId
    ensures OnePerProduct([e] + w)
  {
    var r := [e] + w;
    forall i, j | 0 <= i < j < |r| ensures r[i].productId != r[j].productId {
      assert r[j] == w[j - 1];
      if i > 0 {
        assert r[i] == w[i - 1];
      }
    }
  }

  /** Removing keeps at most one entry per product id. */
  lemma {:induction false} WithoutKeepsOnePerProduct(entries: seq<CartEntry>, productId: string)
    requires OnePerProduct(entries)
    ensures OnePerProduct(Without(entries, productId))
  {
    if |entries| > 0 {
      OnePerProductTail(entries);
      WithoutKeepsOnePerProduct(entries[1..], productId);
      if entries[0].productId != productId {
        OnePerProductCons(entries[0], Without(entries[1..], productId));
      }
    }
  }

  // ---------------------------------------------------------------- clearing

  /** The carts after `clearCart` for the owner key: an existing cart keeps its document with no entries. */
  function Cleared(carts: map<string, Cart>, key: string): (r: map<string, Cart>)
    ensures key in carts ==> key in r && r[key].products == [] && r[key].userId == carts[key].userId
    ensures key !in carts ==> r == carts
    ensures forall k :: k != key ==> (k in r <==> k in carts) && (k in carts ==> r[k] == carts[k])
  {
    if key in carts then carts[key := carts[key].(products := [])] else carts
  }

  /** Clearing twice is clearing once. */
  lemma ClearIdempotent(carts: map<string, Cart>, key: string)
    ensures Cleared(Cleared(carts, key), key) == Cleared(carts, key)
  {
  }

  // ---------------------------------------------------------------- handlers

  /** The cart of the owner key after an add: the loaded cart changed in place, or a new one. */
  function CartAfterAdd(carts: map<string, Cart>, key: string, p: Product, productId: string, q: int): Cart {
    if key in carts then carts[key].(products := AddEntries(carts[key].products, p, productId, q))
    else Cart(key, AddEntries([], p, productId, q))
  }

  /** `addToCart` */
  method AddToCart(db: Db, caller: Option<Caller>, userId: string, productId: string, quantity: Option<int>)
    returns (r: Outcome<Cart>)
    modifies db`carts
    ensures CartGuard(caller, userId, Some(productId)).Some? ==>
      r.Fail? && r.status == FailureStatus(CartGuard(caller, userId, Some(productId)).value)
      && db.carts == old(db.carts)
    ensures CartGuard(caller, userId, Some(productId)).None? && Canon(productId) !in db.products ==>
      r == Fail(404, "Product not found") && db.carts == old(db.carts)
    ensures CartGuard(caller, userId, Some(productId)).None? && Canon(productId) in db.products ==>
      var cart := CartAfterAdd(old(db.carts), Canon(userId), db.products[Canon(productId)], productId,
                               ClampQuantity(quantity));
      db.carts == old(db.carts)[Canon(userId) := cart] && r == Ok(200, cart)
  {
    var g := CartGuard(caller, userId, Some(productId));
    if g.Some? {
      return GuardReply(g.value, "Missing required fields: userId and productId", "Not authorized to modify this cart");
    }
    var q := ClampQuantity(quantity);
    if Canon(productId) !in db.products {
      return Fail(404, "Product not found");
    }
    var p := db.products[Canon(productId)];
    var key := Canon(userId);
    var cart: Cart;
    if key !in db.carts {
      cart := Cart(key, [Snapshot(p, q)]);
      assert [] + [Snapshot(p, q)] == [Snapshot(p, q)];
    } else {
      cart := db.carts[key];
      var k := FindEntry(cart.products, productId);
      if k > -1 {
        cart := cart.(products := cart.products[k := Refresh(cart.products[k], p, q)]);
      } else {
        cart := cart.(products := cart.products + [Snapshot(p, q)]);
      }
    }
    db.carts := db.carts[key := cart];
    r := Ok(200, cart);
  }

  /** `getCart`: a missing cart is reported as an empty one, not as an error. */
  method GetCart(db: Db, caller: Option<Caller>, userId: string) returns (r: Outcome<Cart>)
    ensures CartGuard(caller, userId, None).Some? ==>
      r.Fail? && r.status == FailureStatus(CartGuard(caller, userId, None).value)
    ensures CartGuard(caller, userId, None).None? && Canon(userId) !in db.carts ==> r == Ok(200, Cart(userId, []))
    ensures CartGuard(caller, userId, None).None? && Canon(userId) in db.carts ==>
      r == Ok(200, db.carts[Canon(userId)])
  {
    var g := CartGuard(caller, userId, None);
    if g.Some? {
      return GuardReply(g.value, "Missing userId parameter", "Not authorized to access this cart");
    }
    var key := Canon(userId);
    if key !in db.carts {
      return Ok(200, Cart(userId, []));
    }
    r := Ok(200, db.carts[key]);
  }

  /** `removeItem`: a missing cart is an error here; otherwise every entry of the product is dropped. */
  method RemoveItem(db: Db, caller: Option<Caller>, userId: string, productId: string) returns (r: Outcome<Cart>)
    modifies db`carts
    ensures CartGuard(caller, userId, Some(productId)).Some? ==>
      r.Fail? && r.status == FailureStatus(CartGuard(caller, userId, Some(productId)).value)
      && db.carts == old(db.carts)
    ensures CartGuard(caller, userId, Some(productId)).None? && Canon(userId) !in old(db.carts) ==>
      r == Fail(404, "Cart not found") && db.carts == old(db.carts)
    ensures CartGuard(caller, userId, Some(productId)).None? && Canon(userId) in old(db.carts) ==>
      var old_cart := old(db.carts)[Canon(userId)];
      var cart := old_cart.(products := Without(old_cart.products, productId));
      db.carts == old(db.carts)[Canon(userId) := cart] && r == Ok(200, cart)
  {
    var g := CartGuard(caller, userId, Some(productId));
    if g.Some? {
      return GuardReply(g.value, "Missing required fields: userId and productId", "Not authorized to modify this cart");
    }
    var key := Canon(userId);
    if key !in db.carts {
      return Fail(404, "Cart not found");
    }
    var cart := db.carts[key];
    cart := cart.(products := Without(cart.products, productId));
    db.carts := db.carts[key := cart];
    r := Ok(200, cart);
  }

  /** `clearCart`: a missing cart is reported as already empty; an existing one keeps its document. */
  method ClearCart(db: Db, caller: Option<Caller>, userId: string) returns (r: Outcome<ClearReply>)
    modifies db`carts
    ensures CartGuard(caller, userId, None).Some? ==>
      r.Fail? && r.status == FailureStatus(CartGuard(caller, userId, None).value) && db.carts == old(db.carts)
    ensures CartGuard(caller, userId, None).None? ==> db.carts == Cleared(old(db.carts), Canon(userId))
    ensures CartGuard(caller, userId, None).None? && Canon(userId) !in old(db.carts) ==>
      r == Ok(200, ClearReply("Cart is already empty", Cart(userId, [])))
    ensures CartGuard(caller, userId, None).None? && Canon(userId) in old(db.carts) ==>
      r == Ok(200, ClearReply("Cart cleared", db.carts[Canon(userId)]))
  {
    var g := CartGuard(caller, userId, None);
    if g.Some? {
      return GuardReply(g.value, "Missing required field: userId", "Not authorized to modify this cart");
    }
    var key := Canon(userId);
    if key !in db.carts {
      return Ok(200, ClearReply("Cart is already empty", Cart(userId, [])));
    }
    var cart := db.carts[key].(products := []);
    db.carts := db.carts[key := cart];
    r := Ok(200, ClearReply("Cart cleared", cart));
  }
}

=== FILE: cart_model.dfy ===
/** The cart record (server/models/Cart.js): an owner and a list of product snapshots with quantities. */
module CartModel {
  import opened Common
  import opened Strings
  import opened ProductModel

  /** One line of a cart: the product's id plus copies of six product fields taken at write time. */
  datatype CartEntry = CartEntry(
    productId: string,
    name: string,
    brand: string,
    category: string,
    price: real,
    description: string,
    image: string,
    quantity: int)

  datatype Cart = Cart(userId: string, products: seq<CartEntry>)

  /** The schema requires `userId`, an ObjectId; nothing else is required and no field is unique. */
  predicate SchemaValid(c: Cart) {
    IsObjectId(c.userId)
  }

  /** An entry stored without a quantity gets the schema default of 1. */
  function StoredQuantity(q: Option<int>): (r: int)
    ensures q.None? ==> r == 1
    ensures q.Some? ==> r == q.value
  {
    q.GetOr(1)
  }

  /** The entry's snapshot fields agree with the product's current fields. */
  predicate Mirrors(e: CartEntry, p: Product) {
    e.productId == p.id && e.name == p.name && e.brand == p.brand && e.category == p.category
    && e.price == p.price && e.description == p.description && e.image == p.image
  }

  /** The entry written for a product not yet in the cart. */
  function Snapshot(p: Product, quantity: int): (e: CartEntry)
    ensures Mirrors(e, p) && e.quantity == quantity
  {
    CartEntry(p.id, p.name, p.brand, p.category, p.price, p.description, p.image, quantity)
  }

  /** At most one entry per product id. */
  predicate OnePerProduct(entries: seq<CartEntry>) {
    forall i, j :: 0 <= i < j < |entries| ==> entries[i].productId != entries[j].productId
  }

  /** The number of entries for one product id. */
  function CountFor(entries: seq<CartEntry>, productId: string): (n: nat)
    ensures n <= |entries|
  {
    if |entries| == 0 then 0
    else (if entries[0].productId == productId then 1 else 0) + CountFor(entries[1..], productId)
  }

  /** Under `OnePerProduct`, no product id has more than one entry. */
  lemma {:induction false} OnePerProductCount(entries: seq<CartEntry>, productId: string)
    requires OnePerProduct(entries)
    ensures CountFor(entries, productId) <= 1
  {
    if |entries| > 0 {
      OnePerProductCount(entries[1..], productId);
      if entries[0].productId == productId {
        NoneAfter(entries, productId);
      }
    }
  }

  lemma {:induction false} AbsentCount(entries: seq<CartEntry>, productId: string)
    requires forall i :: 0 <= i < |entries| ==> entries[i].productId != productId
    ensures CountFor(entries, productId) == 0
  {
    if |entries| > 0 {
      AbsentCount(entries[1..], productId);
    }
  }

  lemma NoneAfter(entries: seq<CartEntry>, productId: string)
    requires OnePerProduct(entries) && |entries| > 0 && entries[0].productId == productId
    ensures CountFor(entries[1..], productId) == 0
  {
    var rest := entries[1..];
    forall i | 0 <= i < |rest| ensures rest[i].productId != productId {
      assert rest[i] == entries[i + 1];
    }
    AbsentCount(rest, productId);
  }

  /**
    The schema alone does not keep one entry per product: a valid cart may hold the same product twice.
    Only the cart controller's lookup before insertion keeps the entries distinct.
  */
  lemma SchemaAllowsDuplicates(p: Product)
    ensures exists c :: SchemaValid(c) && !OnePerProduct(c.products)
  {
    var owner := seq(24, i => '0');
    var c := Cart(owner, [Snapshot(p, 1), Snapshot(p, 2)]);
    assert c.products[0].productId == c.products[1].productId;
    assert SchemaValid(c) && !OnePerProduct(c.products);
  }
}

=== FILE: chatbot.dfy ===
/**
  The support chat widget (client/src/components/Chatbot.jsx): a query is lower-cased and trimmed, matched
  against groups of key phrases tried in a fixed order, and answered with a canned reply; the window keeps
  the conversation as a list of messages.
*/
module Chatbot {
  import opened Strings

  /** `query.toLowerCase().trim()` */
  function Normalized(query: string): (s: string)
    ensures Trimmed(s)
  {
    TrimIsTrimmed(ToLower(query));
    Trim(ToLower(query))
  }

  /** `trim()` keeps a contiguous part of its input. */
  lemma TrimShape(s: string) returns (a: nat)
    ensures a + |Trim(s)| <= |s| && Trim(s) == s[a..a + |Trim(s)|]
  {
    TrimStartShape(s);
    var t := TrimStart(s);
    TrimEndShape(t);
    a := |s| - |t|;
  }

  /** Normalising a normalised query changes nothing, so `matchesPattern` sees what `processUserQuery` computed. */
  lemma NormalizedIdempotent(query: string)
    ensures Normalized(Normalized(query)) == Normalized(query)
  {
    var low := ToLower(query);
    var n := Trim(low);
    var a := TrimShape(low);
    assert ToLower(n) == n by {
      forall i | 0 <= i < |n| ensures LowerChar(n[i]) == n[i] {
        assert n[i] == low[a + i] == LowerChar(query[a + i]);
      }
    }
    TrimIsTrimmed(low);
    TrimOfTrimmed(n);
  }

  /** `w` is a field of `s.split(/\s+/)` starting at `i`: a maximal run without whitespace. */
  predicate IsWordAt(s: string, w: string, i: nat) {
    && OccursAt(s, w, i)
    && (|w| > 0 || |s| == 0)
    && (forall k :: 0 <= k < |w| ==> !IsSpace(w[k]))
    && (i == 0 || IsSpace(s[i - 1]))
    && (i + |w| == |s| || IsSpace(s[i + |w|]))
  }

  /**
    `matchesPattern`: some phrase occurs in the normalised query, or equals one of its whitespace-separated
    words.
  */
  predicate MatchesPattern(query: string, patterns: seq<string>) {
    var q := Normalized(query);
    exists k :: 0 <= k < |patterns| && (Contains(q, patterns[k]) || exists i :: 0 <= i <= |q| && IsWordAt(q, patterns[k], i))
  }

  /** The word test adds nothing: a query matches exactly when one of the phrases is a substring of it. */
  lemma MatchesIsSubstring(query: string, patterns: seq<string>)
    ensures MatchesPattern(query, patterns) <==>
      exists k :: 0 <= k < |patterns| && Contains(Normalized(query), patterns[k])
  {
  }

  // ---------------------------------------------------------------- phrase groups, in the order tried

  const Greetings: seq<string> := ["hi", "hello", "hey", "howdy", "good morning", "good afternoon", "good evening", "what's up"]
  const ShippingPhrases: seq<string> := ["shipping", "delivery", "ship", "deliver", "when will", "how long", "shipping cost", "arrive"]
  const ReturnPhrases: seq<string> := ["return", "refund", "money back", "send back", "exchange", "warranty"]
  const PaymentPhrases: seq<string> := ["payment", "pay", "credit card", "debit card", "paypal", "apple pay", "method"]
  const DiscountPhrases: seq<string> := ["discount", "coupon", "promo", "offer", "sale", "deal", "code", "percentage off"]
  const TrackingPhrases: seq<string> := ["track", "order status", "where is", "package", "shipping status", "delivery status"]
  const SizePhrases: seq<string> := ["size", "sizing", "fit", "measurement", "small", "medium", "large", "xl", "too big", "too small"]
  const ProductPhrases: seq<string> := ["product", "item", "buy", "purchase", "goods", "merchandise", "stock", "available"]
  const PricePhrases: seq<string> := ["price", "cost", "how much", "expensive", "cheap", "affordable", "dollars", "$"]
  const AccountPhrases: seq<string> := ["account", "login", "sign in", "register", "sign up", "profile", "password"]
  const ContactPhrases: seq<string> := ["contact", "help", "support", "phone", "email", "chat", "customer service", "talk to"]
  const ThankPhrases: seq<string> := ["thank", "thanks", "appreciate", "grateful", "thx"]

  /** The topic groups after the greeting and length checks, in the order they are tried. */
  const Intents: seq<seq<string>> := [ShippingPhrases, ReturnPhrases, PaymentPhrases, DiscountPhrases,
                                      TrackingPhrases, SizePhrases, ProductPhrases, PricePhrases,
                                      AccountPhrases, ContactPhrases, ThankPhrases]

  /** Which branch of `processUserQuery` answers: `Intent(k)` is the `k`-th group of `Intents`. */
  datatype Topic = Greeting | TooShort | Intent(k: nat) | Fallback

  /** The first group at or after `from` that the query matches, or `|Intents|` when none does. */
  function FirstIntent(q: string, from: nat): (r: nat)
    requires from <= |Intents|
    ensures from <= r <= |Intents|
    ensures r < |Intents| ==> MatchesPattern(q, Intents[r])
    ensures forall j :: from <= j < r ==> !MatchesPattern(q, Intents[j])
    decreases |Intents| - from
  {
    if from == |Intents| then |Intents|
    else if MatchesPattern(q, Intents[from]) then from
    else FirstIntent(q, from + 1)
  }

  /**
    The branch taken for a normalised query: greetings first, then queries shorter than three characters,
    then the first group that matches, and the fallback when none does.
  */
  function Classify(q: string): (t: Topic)
    ensures t == Greeting <==> MatchesPattern(q, Greetings)
    ensures t == TooShort <==> !MatchesPattern(q, Greetings) && Utf16Length(q) < 3
    ensures t.Intent? ==>
      && !MatchesPattern(q, Greetings) && Utf16Length(q) >= 3 && t.k < |Intents|
      && MatchesPattern(q, Intents[t.k]) && forall j :: 0 <= j < t.k ==> !MatchesPattern(q, Intents[j])
    ensures t == Fallback <==>
      !MatchesPattern(q, Greetings) && Utf16Length(q) >= 3 && forall j :: 0 <= j < |Intents| ==> !MatchesPattern(q, Intents[j])
  {
    if MatchesPattern(q, Greetings) then Greeting
    else if Utf16Length(q) < 3 then TooShort
    else
      var k := FirstIntent(q, 0);
      if k < |Intents| then Intent(k) else Fallback
  }

  // ---------------------------------------------------------------- replies

  const GreetingReply: string := "Hello there! How can I assist you with your shopping today?"
  const MoreDetailsReply: string := "Please provide more details so I can help you better."
  const FallbackReply: string := "I'm not sure I understand your question. Could you please rephrase or try asking about shipping, returns, payment methods, products, or contact information?"

  /** Whether the normalised query contains any of the words. */
  predicate Mentions(q: string, words: seq<string>) {
    exists k :: 0 <= k < |words| && Contains(q, words[k])
  }

  /** The reply within each group, chosen by further words of the query. */
  function Reply(t: Topic, q: string): string {
    match t
    case Greeting => GreetingReply
    case TooShort => MoreDetailsReply
    case Fallback => FallbackReply
    case Intent(k) =>
      if k == 0 then
        if Mentions(q, ["free", "cost"]) then "We offer free shipping on orders over $50. Standard shipping costs $4.99 for orders below $50."
        else if Mentions(q, ["time", "long", "when"]) then "Standard delivery takes 3-5 business days. Express shipping (2-day) is available for an additional $9.99."
        else if Mentions(q, ["international", "worldwide", "country"]) then "Yes, we ship internationally! International shipping typically takes 7-14 business days depending on the destination."
        else "We offer free shipping on orders over $50. Standard delivery takes 3-5 business days."
      else if k == 1 then
        if Mentions(q, ["how", "process"]) then "To return an item, go to your order history, select the order, and click \"Return Item\". You'll receive a return shipping label to print."
        else if Mentions(q, ["time", "long", "days"]) then "You can return items within 30 days of delivery for a full refund."
        else if Mentions(q, ["money", "refund"]) then "Refunds are processed within 3-5 business days after we receive your return."
        else "You can return items within 30 days of delivery for a full refund. Please check our Returns Policy for more details."
      else if k == 2 then
        if Mentions(q, ["credit", "card"]) then "We accept all major credit cards including Visa, Mastercard, American Express, and Discover."
        else if Mentions(q, ["paypal"]) then "Yes, we accept PayPal as a payment method."
        else if Mentions(q, ["apple"]) then "Yes, Apple Pay is accepted on our website and mobile app."
        else "We accept all major credit cards, PayPal, Apple Pay, and Google Pay."
      else if k == 3 then
        if Mentions(q, ["code", "enter"]) then "You can enter discount codes on the shopping cart page before proceeding to checkout."
        else if Mentions(q, ["current", "available"]) then "Check our homepage for current promotions, or sign up for our newsletter to receive exclusive offers!"
        else "You can apply discount codes during checkout. Sign up for our newsletter to receive exclusive offers!"
      else if k == 4 then
        if Mentions(q, ["how"]) then "To track your order, go to \"My Orders\" in your account and click on the order you want to track. You'll see the current status and tracking number."
        else "You can track your order in the \"My Orders\" section after logging in to your account."
      else if k == 5 then
        if Mentions(q, ["chart", "guide"]) then "You can find our detailed size charts on each product page under the \"Size Guide\" tab."
        else if Mentions(q, ["fit", "true"]) then "Our clothing generally fits true to size. If you're between sizes, we recommend sizing up for a more comfortable fit."
        else "We provide detailed size guides on each product page. If you're between sizes, we generally recommend sizing up."
      else if k == 6 then
        if Mentions(q, ["quality", "material"]) then "All our products are made with high-quality materials and undergo strict quality control before shipping."
        else if Mentions(q, ["new", "latest"]) then "Check our \"New Arrivals\" section for our latest products."
        else if Mentions(q, ["available", "stock"]) then "Product availability is shown on each product page. If an item is out of stock, you can sign up to be notified when it's back."
        else "We offer a wide range of products. You can browse categories from the navigation menu or use the search function to find specific items."
      else if k == 7 then
        if Mentions(q, ["range", "average"]) then "Our products range from $15 for accessories to $150 for premium items. Most popular items are in the $30-60 range."
        else if Mentions(q, ["match", "beat"]) then "We offer price matching for identical products from authorized retailers. Contact customer support with details."
        else "Product prices are clearly displayed on each product page. We regularly offer sales and promotions to provide the best value."
      else if k == 8 then
        if Mentions(q, ["create", "register", "sign up"]) then "To create an account, click on the \"Sign Up\" button in the top right corner and follow the instructions."
        else if Mentions(q, ["forgot", "reset", "password"]) then "If you forgot your password, click on \"Login\" and then \"Forgot Password\" to reset it via email."
        else if Mentions(q, ["delete", "remove"]) then "To delete your account, go to your Profile settings and select \"Delete Account\". Note that this action cannot be undone."
        else "You can manage your account settings, including address, payment methods, and preferences from your Profile page."
      else if k == 9 then
        if Mentions(q, ["phone", "call"]) then "Our customer support phone number is (123) 456-7890. We're available Monday-Friday, 9 AM to 6 PM EST."
        else if Mentions(q, ["email"]) then "You can email our support team at support@example.com. We typically respond within 24 hours."
        else if Mentions(q, ["chat", "live"]) then "Our live chat support is available during business hours. You're using it right now!"
        else "You can reach our customer support team at support@example.com or call us at (123) 456-7890."
      else "You're welcome! Feel free to ask if you have any other questions."
  }

  /** `processUserQuery`: the one reply to a query. */
  function Respond(query: string): (r: string)
    ensures MatchesPattern(Normalized(query), Greetings) ==> r == GreetingReply
    ensures !MatchesPattern(Normalized(query), Greetings) && Utf16Length(Normalized(query)) < 3 ==> r == MoreDetailsReply
    ensures Classify(Normalized(query)) == Fallback ==> r == FallbackReply
  {
    var q := Normalized(query);
    Reply(Classify(q), q)
  }

  /** Any query containing "hi" is taken for a greeting, whatever else it asks. */
  lemma HiIsAGreeting(query: string)
    requires Contains(Normalized(query), "hi")
    ensures Respond(query) == GreetingReply
  {
    NormalizedIdempotent(query);
    assert Greetings[0] == "hi";
  }

  /** So a question about shipping never reaches the shipping replies: "shipping" contains "hi". */
  lemma ShippingQuestionGetsGreeting(query: string)
    requires Contains(Normalized(query), "shipping")
    ensures Respond(query) == GreetingReply
  {
    var q := Normalized(query);
    var i :| 0 <= i <= |q| && OccursAt(q, "shipping", i);
    assert OccursAt("shipping", "hi", 1);
    ContainsWithin(q, "shipping", "hi", i);
    HiIsAGreeting(query);
  }

  /** A query of at most one character after trimming matches no greeting and asks for more details. */
  lemma OneCharacterAsksForDetails(query: string)
    requires |Normalized(query)| <= 1
    ensures Respond(query) == MoreDetailsReply
  {
    var q := Normalized(query);
    NormalizedIdempotent(query);
    MatchesIsSubstring(q, Greetings);
    forall k | 0 <= k < |Greetings| ensures !Contains(q, Greetings[k]) {
      assert |Greetings[k]| >= 2;
    }
  }

  /**
    The length test counts UTF-16 code units, as `length` does: two emoji are four units, so the query is
    not too short, although it has only two characters.
  */
  lemma TwoEmojiAreNotTooShort()
    ensures Utf16Length("\U{1F600}\U{1F600}") == 4
    ensures Classify("\U{1F600}\U{1F600}") != TooShort
  {
    assert Utf16Length("\U{1F600}") == 2;
  }

  // ---------------------------------------------------------------- the chat window

  datatype Sender = User | Bot

  datatype Message = Message(text: string, sender: Sender)

  const Welcome: string := "Hello! How can I help you today?"

  class ChatWindow {
    var isOpen: bool
    var messages: seq<Message>
    var inputText: string

    /** The window starts closed, with the bot's welcome as the only message. */
    constructor ()
      ensures !isOpen && messages == [Message("Hello! How can I help you today?", Bot)] && inputText == ""
    {
      isOpen := false;
      messages := [Message(Welcome, Bot)];
      inputText := "";
    }

    /** `toggleChat` */
    method Toggle()
      modifies this`isOpen
      ensures isOpen == !old(isOpen)
    {
      isOpen := !isOpen;
    }

    /**
      `handleSendMessage` followed by its delayed `processUserQuery`: blank input adds nothing; otherwise
      the text typed is added as the user's message, the input is cleared, and exactly one reply follows.
    */
    method SendMessage()
      modifies this`messages, this`inputText
      ensures Trim(old(inputText)) == "" ==> messages == old(messages) && inputText == old(inputText)
      ensures Trim(old(inputText)) != "" ==>
        messages == old(messages) + [Message(old(inputText), User), Message(Respond(old(inputText)), Bot)]
        && inputText == ""
    {
      if Trim(inputText) == "" {
        return;
      }
      var text := inputText;
      messages := messages + [Message(text, User)];
      inputText := "";
      messages := messages + [Message(Respond(text), Bot)];
    }
  }
}

=== FILE: checkout.dfy ===
/**
  The checkout page (client/src/pages/Checkout.jsx): the address form prefilled from the signed-in user,
  the cart total, the one-line address sent with an order, and the checks and request of `handleCheckout`.
  `JSON.parse`, the order request and the cart-clearing request are parameters.
*/
module Checkout {
  import opened Common
  import opened Strings
  import opened JsonValue
  import opened ProfileAddress
  import opened AuthState
  import OrderController

  /** The form: the six address parts (the street is the form's `address` input), phone and email. */
  datatype CheckoutForm = CheckoutForm(address: AddressFields, phone: string, email: string)

  const BlankAddress: AddressFields := AddressFields("", "", "", "", "", "")

  /** A cart line as the client holds it; `price` and `quantity` are `None` where they do not parse as numbers. */
  datatype ClientCartItem = ClientCartItem(productId: string, underscoreId: string, name: string,
                                           price: Option<real>, quantity: Option<int>)

  /** One line of the order request. */
  datatype PayloadLine = PayloadLine(productId: string, quantity: Option<int>, price: Option<real>, name: string)

  /** The order request body. */
  datatype OrderPayload = OrderPayload(userId: string, products: seq<PayloadLine>, amount: real, address: string,
                                       paymentMode: string, paymentStatus: string, contactPhone: string,
                                       contactEmail: string)

  /** How a request ended: accepted, or failed with the server's message ("" when the reply had none). */
  datatype Reply = Accepted | Refused(message: string)

  // ---------------------------------------------------------------- prefill

  /** The parts read from a parsed address object; a missing or empty part is "". */
  function FieldsOf(j: Json): (a: AddressFields)
    requires !j.JNull?
    ensures j.JOther? ==> a == BlankAddress
    ensures forall b :: j == JObject(AddressObject(b)) ==> a == b
  {
    AddressFields(Field(j, "street"), Field(j, "area"), Field(j, "city"), Field(j, "state"),
                  Field(j, "country"), Field(j, "pincode"))
  }

  /**
    The prefill effect for a signed-in user: no stored address leaves every part empty; an address that does
    not start with "{" becomes the street alone; one that does is parsed, and its parts fill the form. When
    parsing throws (or yields null, whose parts cannot be read) the previous form is kept apart from the
    street, which takes the whole address text. Phone and email come from the user in every case.
  */
  function Prefill(prev: CheckoutForm, user: ClientUser, parse: string -> Option<Json>): (f: CheckoutForm)
    ensures f.phone == user.phone && f.email == user.email
    ensures user.address == "" ==> f.address == BlankAddress
    ensures user.address != "" && !StartsWith(user.address, "{") ==>
      f.address == BlankAddress.(street := user.address)
    ensures user.address != "" && StartsWith(user.address, "{") ==>
      var p := parse(user.address);
      && (p.None? || p == Some(JNull) ==> f.address == prev.address.(street := user.address))
      && (p.Some? && !p.value.JNull? ==> f.address == FieldsOf(p.value))
  {
    var a := user.address;
    if a == "" then CheckoutForm(BlankAddress, user.phone, user.email)
    else if !StartsWith(a, "{") then CheckoutForm(BlankAddress.(street := a), user.phone, user.email)
    else match parse(a)
      case None => CheckoutForm(prev.address.(street := a), user.phone, user.email)
      case Some(JNull) => CheckoutForm(prev.address.(street := a), user.phone, user.email)
      case Some(j) => CheckoutForm(FieldsOf(j), user.phone, user.email)
  }

  /**
    Checkout reads back what the profile page stores: an address composed from six parts, when the codec
    round-trips it and its text starts with "{", prefills the form with exactly those parts.
  */
  lemma PrefillReadsProfileAddress(prev: CheckoutForm, user: ClientUser, a: AddressFields,
                                   parse: string -> Option<Json>, stringify: map<string, string> -> string)
    requires user.address == ComposeAddress(a, stringify) && StartsWith(user.address, "{")
    requires parse(stringify(AddressObject(a))) == Some(JObject(AddressObject(a)))
    ensures Prefill(prev, user, parse).address == a
    ensures Prefill(prev, user, parse).phone == user.phone && Prefill(prev, user, parse).email == user.email
  {
    var j := JObject(AddressObject(a));
    assert FieldsOf(j) == a;
  }

  // ---------------------------------------------------------------- total

  /** What one line adds to the total: price times quantity, or nothing when either does not parse. */
  function LineTotal(item: ClientCartItem): real {
    if item.price.Some? && item.quantity.Some? then item.price.value * item.quantity.value as real else 0.0
  }

  /** The cart total: the sum of the line totals in cart order. */
  function CartTotal(cart: seq<ClientCartItem>): (t: real)
    ensures |cart| == 0 ==> t == 0.0
    ensures (forall i :: 0 <= i < |cart| ==> LineTotal(cart[i]) >= 0.0) ==> t >= 0.0
  {
    if |cart| == 0 then 0.0 else CartTotal(cart[..|cart| - 1]) + LineTotal(cart[|cart| - 1])
  }

  /** The total of two carts together is the sum of their totals; a line that does not parse adds nothing. */
  lemma {:induction false} CartTotalConcat(a: seq<ClientCartItem>, b: seq<ClientCartItem>)
    ensures CartTotal(a + b) == CartTotal(a) + CartTotal(b)
    decreases |b|
  {
    if |b| > 0 {
      var c := a + b;
      assert c[..|c| - 1] == a + b[..|b| - 1];
      assert c[|c| - 1] == b[|b| - 1];
      CartTotalConcat(a, b[..|b| - 1]);
    } else {
      assert a + b == a;
    }
  }

  // ---------------------------------------------------------------- the order request

  /**
    `getFormattedAddress`: the non-empty parts joined by ", " in the order street, area, city, state,
    postal code, country (the postal code comes before the country here, unlike on the profile page).
  */
  function FormattedAddress(a: AddressFields): (s: string)
    ensures s == "" <==> a == BlankAddress
  {
    var parts := [a.street, a.area, a.city, a.state, a.pincode, a.country];
    assert JoinNonEmpty(parts) == "" <==> a == BlankAddress by {
      JoinNonEmptyBlank(parts);
      assert parts[0] == a.street && parts[1] == a.area && parts[2] == a.city;
      assert parts[3] == a.state && parts[4] == a.pincode && parts[5] == a.country;
    }
    JoinNonEmpty(parts)
  }

  /** Four empty parts in front add nothing to the joined text, and two non-empty parts are joined by ", ". */
  lemma JoinAfterFourBlanks(x: string, y: string)
    requires x != "" && y != ""
    ensures JoinNonEmpty(["", "", "", "", x, y]) == x + ", " + y
  {
    var t := [x, y];
    var p3 := [""] + t;
    var p2 := [""] + p3;
    var p1 := [""] + p2;
    var p := [""] + p1;
    assert p == ["", "", "", "", x, y];
    assert p[1..] == p1 && p1[1..] == p2 && p2[1..] == p3 && p3[1..] == t;
    assert NonEmpty(p) == NonEmpty(p1) == NonEmpty(p2) == NonEmpty(p3) == NonEmpty(t);
    assert t[1..] == [y] && [y][1..] == [];
    assert NonEmpty([y]) == [y] + NonEmpty([]) == [y];
    assert NonEmpty(t) == [x] + NonEmpty([y]) == t;
    assert Join(t, ", ") == x + ", " + Join([y], ", ");
  }

  /** The same address reads differently here and on the profile page when both a country and a postal code are set. */
  lemma FormattedAddressOrderDiffers()
    ensures FormattedAddress(AddressFields("", "", "", "", "India", "110001")) == "110001, India"
    ensures JoinNonEmpty(["", "", "", "", "India", "110001"]) == "India, 110001"
  {
    JoinAfterFourBlanks("110001", "India");
    JoinAfterFourBlanks("India", "110001");
  }

  /** The order lines: each cart line's product id (`productId`, else `_id`), quantity, price and name. */
  function PayloadLines(cart: seq<ClientCartItem>): (r: seq<PayloadLine>)
    ensures |r| == |cart|
    ensures forall i :: 0 <= i < |cart| ==>
      r[i] == PayloadLine(OrElse(cart[i].productId, cart[i].underscoreId), cart[i].quantity, cart[i].price, cart[i].name)
  {
    if |cart| == 0 then []
    else PayloadLines(cart[..|cart| - 1])
         + [PayloadLine(OrElse(cart[|cart| - 1].productId, cart[|cart| - 1].underscoreId),
                        cart[|cart| - 1].quantity, cart[|cart| - 1].price, cart[|cart| - 1].name)]
  }

  /** The request body built from the page's state. */
  function Payload(user: ClientUser, cart: seq<ClientCartItem>, form: CheckoutForm, paymentMethod: string): (p: OrderPayload)
    ensures p.userId == IdText(user.underscoreId)
    ensures p.products == PayloadLines(cart) && p.amount == CartTotal(cart)
    ensures p.address == FormattedAddress(form.address)
    ensures p.paymentMode == paymentMethod
    ensures p.paymentStatus == "Pending" <==> paymentMethod == "online"
    ensures p.paymentStatus == "Paid" <==> paymentMethod != "online"
    ensures p.contactPhone == form.phone && p.contactEmail == form.email
  {
    OrderPayload(IdText(user.underscoreId), PayloadLines(cart), CartTotal(cart), FormattedAddress(form.address),
                 paymentMethod, OrderController.PaymentStatusFor(paymentMethod), form.phone, form.email)
  }

  const CheckoutFailed: string := "Error during checkout. Please try again."

  /**
    The page's state: the cart, the form, the chosen payment method, the messages shown, the loading flag,
    and the order requests sent so far.
  */
  class CheckoutPage {
    var cart: seq<ClientCartItem>
    var form: CheckoutForm
    var paymentMethod: string
    var error: string
    var success: string
    var loading: bool
    var sent: seq<OrderPayload>

    /** The page opens with an empty form, cash on delivery, no messages and no request sent. */
    constructor (cart: seq<ClientCartItem>)
      ensures this.cart == cart && form == CheckoutForm(BlankAddress, "", "") && paymentMethod == "COD"
      ensures error == "" && success == "" && !loading && sent == []
    {
      this.cart := cart;
      form := CheckoutForm(BlankAddress, "", "");
      paymentMethod := "COD";
      error := "";
      success := "";
      loading := false;
      sent := [];
    }

    /**
      `handleCheckout`: refuses, sending nothing, when no user is signed in, when the cart is empty, when
      no phone is given and when no token is stored, in that order. Otherwise one order request is sent;
      when it succeeds the success message is shown and the cart is cleared (if the clearing request
      succeeds too); when it fails the server's message, or a fixed one, is shown and the cart is kept.
      Loading ends on every path.
    */
    method HandleCheckout(user: Option<ClientUser>, token: string, post: OrderPayload -> Reply, clearAccepted: bool)
      modifies this`error, this`success, this`loading, this`cart, this`sent
      ensures !loading
      ensures user.None? ==>
        error == "Please log in to proceed with the checkout" && success == "" && cart == old(cart) && sent == old(sent)
      ensures user.Some? && old(cart) == [] ==>
        error == "Your cart is empty" && success == "" && cart == old(cart) && sent == old(sent)
      ensures user.Some? && old(cart) != [] && form.phone == "" ==>
        error == "Please provide a contact phone number" && success == "" && cart == old(cart) && sent == old(sent)
      ensures user.Some? && old(cart) != [] && form.phone != "" && token == "" ==>
        error == "Authentication token missing. Please login again." && success == "" && cart == old(cart)
        && sent == old(sent)
      ensures user.Some? && old(cart) != [] && form.phone != "" && token != "" ==>
        var p := Payload(user.value, old(cart), form, paymentMethod);
        && sent == old(sent) + [p]
        && (post(p).Accepted? ==>
              success == "Order placed successfully!" && error == ""
              && cart == (if clearAccepted then [] else old(cart)))
        && (post(p).Refused? ==>
              error == OrElse(post(p).message, "Error during checkout. Please try again.") && success == ""
              && cart == old(cart))
      ensures cart != old(cart) ==> cart == [] && |sent| == |old(sent)| + 1 && post(sent[|sent| - 1]).Accepted?
    {
      loading := true;
      error := "";
      success := "";
      if user.None? {
        error := "Please log in to proceed with the checkout";
        loading := false;
        return;
      }
      if cart == [] {
        error := "Your cart is empty";
        loading := false;
        return;
      }
      if form.phone == "" {
        error := "Please provide a contact phone number";
        loading := false;
        return;
      }
      if token == "" {
        error := "Authentication token missing. Please login again.";
        loading := false;
        return;
      }
      var order := Payload(user.value, cart, form, paymentMethod);
      sent := sent + [order];
      var reply := post(order);
      if reply.Accepted? {
        success := "Order placed successfully!";
        if clearAccepted {
          cart := [];
        }
      } else {
        error := OrElse(reply.message, CheckoutFailed);
      }
      loading := false;
    }
  }
}

=== FILE: cloudinary_upload.dfy ===
/**
  Image uploads (server/utils/cloudinaryUpload.js): the upload middleware's name filter, size limit and
  temporary file name, and the shaping of the result of handing the file to the image host. The host's
  answer and the configuration flag are parameters; the temporary directory is the set of file paths
  it holds.
*/
module CloudinaryUpload {
  import opened Common
  import opened Strings

  /** The extensions the name filter accepts, each with its leading dot; the match is case-sensitive. */
  const ImageExtensions: seq<string> := [".jpg", ".jpeg", ".png", ".gif"]

  /** The size limit of one upload: 5 MiB. */
  const MaxFileSize: nat := 5 * 1024 * 1024

  const RejectMessage: string := "Only image files are allowed!"

  datatype Verdict = Accept | Reject(message: string)

  /** The name ends in one of the four image extensions. */
  predicate IsImageName(name: string) {
    exists i :: 0 <= i < |ImageExtensions| && EndsWith(name, ImageExtensions[i])
  }

  /** `fileFilter`: accept exactly the image names, refuse any other with the fixed message. */
  function FileFilter(originalName: string): (v: Verdict)
    ensures v.Accept? <==> IsImageName(originalName)
    ensures v.Reject? ==> v.message == "Only image files are allowed!"
  {
    assert ImageExtensions[0] == ".jpg" && ImageExtensions[1] == ".jpeg";
    assert ImageExtensions[2] == ".png" && ImageExtensions[3] == ".gif";
    if EndsWith(originalName, ".jpg") || EndsWith(originalName, ".jpeg") || EndsWith(originalName, ".png")
       || EndsWith(originalName, ".gif")
    then Accept
    else Reject(RejectMessage)
  }

  /** The check is on the exact characters: an upper-case extension is refused. */
  lemma UpperCaseExtensionRejected()
    ensures FileFilter("photo.jpg").Accept?
    ensures FileFilter("photo.JPG").Reject?
  {
    assert EndsWith("photo.jpg", ".jpg") by {
      assert "photo.jpg"[5..] == ".jpg";
    }
    var n := "photo.JPG";
    assert n[5..] != ".jpg" && n[4..] != ".jpeg" && n[5..] != ".png" && n[5..] != ".gif" by {
      assert n[6] == 'J' && n[5] == '.' && n[4] == 'o';
    }
  }

  /** A file of `size` bytes is within the limit. */
  predicate WithinLimit(size: nat) {
    size <= MaxFileSize
  }

  /** The temporary file name: the upload time in milliseconds, a dash, and the client's file name. */
  function TempFilename(now: nat, originalName: string): (f: string)
    ensures |f| == |DecimalString(now)| + 1 + |originalName|
    ensures f[..|DecimalString(now)|] == DecimalString(now) && f[|DecimalString(now)|] == '-'
    ensures f[|DecimalString(now)| + 1..] == originalName
  {
    DecimalString(now) + "-" + originalName
  }

  /**
    Renaming does not change the filter's verdict: the stored name ends in an image extension exactly when
    the client's name does, because every extension starts with a dot and the character before the
    client's name is a dash.
  */
  lemma TempFilenameKeepsVerdict(now: nat, originalName: string)
    ensures IsImageName(TempFilename(now, originalName)) <==> IsImageName(originalName)
  {
    var f := TempFilename(now, originalName);
    var p := |DecimalString(now)| + 1;
    forall i | 0 <= i < |ImageExtensions|
      ensures EndsWith(f, ImageExtensions[i]) <==> EndsWith(originalName, ImageExtensions[i])
    {
      var e := ImageExtensions[i];
      assert e[0] == '.';
      if EndsWith(originalName, e) {
        assert f[|f| - |e|..] == originalName[|originalName| - |e|..];
      }
      if EndsWith(f, e) {
        if |e| > |originalName| {
          var j := |f| - |e|;
          assert j < p;
          assert f[j..][p - 1 - j] == f[p - 1] == '-';
          assert e[p - 1 - j] == '-';
          ExtensionsHaveOneDot(i, p - 1 - j);
        } else {
          assert originalName[|originalName| - |e|..] == f[|f| - |e|..];
        }
      }
    }
  }

  /** No extension contains a dash. */
  lemma ExtensionsHaveOneDot(i: nat, k: nat)
    requires i < |ImageExtensions| && k < |ImageExtensions[i]|
    ensures ImageExtensions[i][k] != '-'
  {
  }

  /** `path.basename`: the last `/`-separated segment, once trailing slashes are dropped. */
  function Basename(path: string): (b: string)
    ensures Free(b, '/')
  {
    LastSegment(StripTrailingSlashes(path))
  }

  function StripTrailingSlashes(p: string): (r: string)
    ensures |r| <= |p| && r == p[..|r|]
    ensures |r| > 0 ==> r[|r| - 1] != '/'
  {
    if |p| > 0 && p[|p| - 1] == '/' then StripTrailingSlashes(p[..|p| - 1]) else p
  }

  function LastSegment(p: string): (r: string)
    ensures Free(r, '/') && EndsWith(p, r)
  {
    if |p| == 0 || p[|p| - 1] == '/' then "" else LastSegment(p[..|p| - 1]) + [p[|p| - 1]]
  }

  /** The base name of a file in a directory is the file's own name. */
  lemma {:induction false} BasenameOfJoin(dir: string, name: string)
    requires name != "" && Free(name, '/')
    ensures Basename(dir + "/" + name) == name
  {
    var p := dir + "/" + name;
    assert StripTrailingSlashes(p) == p;
    LastSegmentAfterSlash(dir, name);
  }

  lemma {:induction false} LastSegmentAfterSlash(dir: string, name: string)
    requires Free(name, '/')
    ensures LastSegment(dir + "/" + name) == name
    decreases |name|
  {
    var p := dir + "/" + name;
    if |name| == 0 {
      assert p[|p| - 1] == '/';
    } else {
      var shorter := name[..|name| - 1];
      assert p[..|p| - 1] == dir + "/" + shorter;
      LastSegmentAfterSlash(dir, shorter);
      assert shorter + [name[|name| - 1]] == name;
    }
  }

  /** The local address of a stored upload. */
  function LocalUrl(filePath: string): string {
    "/uploads/" + Basename(filePath)
  }

  /** A file the middleware stored in the upload directory is served under its temporary name. */
  lemma LocalUrlOfStoredFile(uploadDir: string, now: nat, originalName: string)
    requires Free(originalName, '/')
    ensures LocalUrl(uploadDir + "/" + TempFilename(now, originalName)) == "/uploads/" + TempFilename(now, originalName)
  {
    var f := TempFilename(now, originalName);
    forall i | 0 <= i < |f| ensures f[i] != '/' {
      if i < |DecimalString(now)| {
        assert f[i] == DecimalString(now)[i];
      } else if i > |DecimalString(now)| {
        assert f[i] == originalName[i - |DecimalString(now)| - 1];
      }
    }
    BasenameOfJoin(uploadDir, f);
  }

  /** What the image host answered: the stored image, or an error. */
  datatype HostReply = Uploaded(secureUrl: string, publicId: string) | HostError(message: string)

  /** The result object; `publicId` and `cloudinaryError` are `None` where the object has null or lacks the key. */
  datatype UploadResult = UploadResult(url: string, publicId: Option<string>, success: bool, local: bool,
                                       cloudinaryError: Option<string>)

  /** The temporary upload directory, as the set of file paths it holds. */
  class TempDir {
    var files: set<string>

    constructor (files: set<string>)
      ensures this.files == files
    {
      this.files := files;
    }
  }

  /**
    `uploadToCloudinary`: without configuration the local copy is served; with it, a stored image is
    served from the host and the temporary file is deleted; a host error falls back to the local copy and
    carries the error text. The result always reports success.
  */
  method UploadToCloudinary(dir: TempDir, filePath: string, configured: bool, reply: HostReply)
    returns (r: UploadResult)
    modifies dir
    ensures r.success
    ensures !configured ==> r == UploadResult(LocalUrl(filePath), None, true, true, None) && dir.files == old(dir.files)
    ensures configured && reply.Uploaded? ==>
      r == UploadResult(reply.secureUrl, Some(reply.publicId), true, false, None)
      && dir.files == old(dir.files) - {filePath}
    ensures configured && reply.HostError? ==>
      r == UploadResult(LocalUrl(filePath), None, true, true, Some(reply.message)) && dir.files == old(dir.files)
    ensures r.local <==> r.publicId.None?
    ensures r.local ==> r.url == "/uploads/" + Basename(filePath) && dir.files == old(dir.files)
  {
    if !configured {
      return UploadResult(LocalUrl(filePath), None, true, true, None);
    }
    match reply
    case Uploaded(secureUrl, publicId) =>
      dir.files := dir.files - {filePath};
      r := UploadResult(secureUrl, Some(publicId), true, false, None);
    case HostError(message) =>
      r := UploadResult(LocalUrl(filePath), None, true, true, Some(message));
  }
}

=== FILE: common.dfy ===
/** Values shared by every handler: optional values, HTTP-style replies and JavaScript truthiness. */
module Common {

  datatype Option<T> = None | Some(value: T) {
    function GetOr(default: T): T {
      if Some? then value else default
    }
  }

  /** The reply of a request handler: a success status with its body, or an error status with its message. */
  datatype Outcome<T> = Ok(status: nat, value: T) | Fail(status: nat, message: string)

  /** JavaScript `a || b` on strings. Missing, null and empty strings are all modelled as "". */
  function OrElse(a: string, b: string): string {
    if a != "" then a else b
  }

  /** JavaScript `n || d` on an optional number: undefined and 0 are falsy. */
  function NumOrElse(n: Option<int>, d: int): int {
    if n.Some? && n.value != 0 then n.value else d
  }

  /**
    The order of a listing sorted on `createdAt` descending: the store keeps records in insertion order,
    so the newest record comes first when that order is reversed.
  */
  function NewestFirst<T>(s: seq<T>): (r: seq<T>)
    ensures |r| == |s|
    ensures forall i :: 0 <= i < |s| ==> r[i] == s[|s| - 1 - i]
  {
    if |s| == 0 then [] else [s[|s| - 1]] + NewestFirst(s[..|s| - 1])
  }

  /** The i-th record of a newest-first listing is the i-th from the end of the store. */
  lemma NewestFirstAt<T>(s: seq<T>, i: nat)
    requires i < |s|
    ensures NewestFirst(s)[i] == s[|s| - 1 - i]
  {
  }

  /** Milliseconds in one day; dates are modelled as millisecond timestamps. */
  const DayMillis: int := 24 * 60 * 60 * 1000
}

=== FILE: contact_routes.dfy ===
/** The contact form endpoints (server/routes/contactRoutes.js): submit a message, list all messages. */
module ContactRoutes {
  import opened Common
  import opened Records
  import opened Store

  const DefaultSubject: string := "General Inquiry"
  const Received: string := "Your message has been received. We will contact you soon."

  /** The reply to a stored submission. */
  datatype Receipt = Receipt(success: bool, message: string, contactId: string)

  /** The stored submission: a missing subject becomes "General Inquiry". */
  function Submission(id: string, name: string, email: string, subject: string, message: string, now: int): (c: Contact)
    ensures c.id == id && c.name == name && c.email == email && c.message == message && c.createdAt == now
    ensures subject != "" ==> c.subject == subject
    ensures subject == "" ==> c.subject == "General Inquiry"
  {
    Contact(id, name, email, OrElse(subject, DefaultSubject), message, now)
  }

  /** `POST /`: name, email and message are required (400 and nothing stored); otherwise 201 with the new id. */
  method Submit(db: Db, name: string, email: string, subject: string, message: string, now: int, newId: string)
    returns (r: Outcome<Receipt>)
    modifies db`contacts
    ensures name == "" || email == "" || message == "" ==>
      r == Fail(400, "Please provide name, email, and message") && db.contacts == old(db.contacts)
    ensures name != "" && email != "" && message != "" ==>
      db.contacts == old(db.contacts) + [Submission(newId, name, email, subject, message, now)]
      && r == Ok(201, Receipt(true, "Your message has been received. We will contact you soon.", newId))
  {
    if name == "" || email == "" || message == "" {
      return Fail(400, "Please provide name, email, and message");
    }
    var c := Submission(newId, name, email, subject, message, now);
    db.contacts := db.contacts + [c];
    r := Ok(201, Receipt(true, Received, c.id));
  }

  /** `GET /`: every submission, newest first; the one just stored heads the list. */
  method ListContacts(db: Db) returns (r: Outcome<seq<Contact>>)
    ensures r == Ok(200, NewestFirst(db.contacts))
    ensures |db.contacts| > 0 ==> r.value[0] == db.contacts[|db.contacts| - 1]
    ensures forall c :: c in r.value <==> c in db.contacts
  {
    r := Ok(200, NewestFirst(db.contacts));
    assert forall i :: 0 <= i < |db.contacts| ==> r.value[|db.contacts| - 1 - i] == db.contacts[i];
  }
}

=== FILE: image_utils.dfy ===
/** Image addresses in the storefront (client/src/utils/imageUtils.js). */
module ImageUtils {
  import opened Strings

  /** The address of the API server that serves uploaded images. */
  const ServerBaseUrl: string := "http://localhost:5000"

  /**
    `getImageUrl`: an empty path gives "", an absolute address is kept, a root-relative path is served
    from the API server, and any other path is kept as it is. The result is never root-relative.
  */
  function GetImageUrl(path: string): (url: string)
    ensures path == "" ==> url == ""
    ensures StartsWith(path, "http") ==> url == path
    ensures path != "" && !StartsWith(path, "http") && StartsWith(path, "/") ==> url == ServerBaseUrl + path
    ensures !StartsWith(path, "http") && !StartsWith(path, "/") ==> url == path
    ensures !StartsWith(url, "/")
  {
    if path == "" then ""
    else if StartsWith(path, "http") then
      assert path[0] == path[..4][0] == 'h';
      path
    else if StartsWith(path, "/") then
      assert (ServerBaseUrl + path)[..1] == "h";
      ServerBaseUrl + path
    else path
  }

  /** Applying the function to its own result changes nothing. */
  lemma GetImageUrlIdempotent(path: string)
    ensures GetImageUrl(GetImageUrl(path)) == GetImageUrl(path)
  {
    var url := GetImageUrl(path);
    if path != "" && !StartsWith(path, "http") && StartsWith(path, "/") {
      assert url[..4] == "http";
    }
  }
}

=== FILE: json_value.dfy ===
/**
  The values `JSON.parse` can yield, as far as the address helpers look at them: an object whose fields
  are given as the text a template or `join` would show for them ("" for a falsy field), `null`, or any
  other value (a number, a string, an array, a boolean), on which every field reads as undefined.
  Parsing itself is a parameter of the helpers: `None` stands for a `SyntaxError`.
*/
module JsonValue {
  datatype Json = JObject(fields: map<string, string>) | JNull | JOther

  /** `value.key || ''` on a value that is not null. */
  function Field(j: Json, key: string): (r: string)
    requires !j.JNull?
    ensures j.JObject? && key in j.fields ==> r == j.fields[key]
    ensures j.JOther? || key !in j.fields ==> r == ""
  {
    if j.JObject? && key in j.fields then j.fields[key] else ""
  }
}

=== FILE: order_controller.dfy ===
/**
  The order handlers (server/controllers/orderController.js): place an order, list a user's orders,
  cancel an order, read its tracking state. None of them checks who the caller is.
*/
module OrderController {
  import opened Common
  import opened Strings
  import opened OrderModel
  import opened Store

  /** The request body of `placeOrder`; `products` is `None` when the body has no such key. */
  datatype PlaceOrderBody = PlaceOrderBody(
    userId: string,
    products: Option<seq<LineItem>>,
    address: string,
    paymentMode: string,
    amount: Option<real>,
    contactPhone: string,
    contactEmail: string)

  /** The delivery date of the tracking reply, or the text "In process" when the order has none. */
  datatype Estimate = At(millis: int) | InProcess

  datatype TrackingView = TrackingView(status: string, estimatedDelivery: Estimate)

  /** An amount is truthy when present and not 0. */
  predicate AmountGiven(a: Option<real>) {
    a.Some? && a.value != 0.0
  }

  /** The first guard of `placeOrder`: every one of the five fields is truthy (an empty product list is). */
  predicate BodyComplete(b: PlaceOrderBody) {
    b.userId != "" && b.products.Some? && b.address != "" && b.paymentMode != "" && AmountGiven(b.amount)
  }

  /** The payment status chosen from the payment mode: only the exact text "online" leaves it pending. */
  function PaymentStatusFor(mode: string): (s: string)
    ensures s == "Pending" <==> mode == "online"
    ensures s == "Paid" <==> mode != "online"
    ensures s in PaymentStatuses
  {
    if mode == "online" then "Pending" else "Paid"
  }

  /**
    The value an ObjectId path holds after the document is built: a valid id in canonical form, or the
    text as given, which validation then refuses.
  */
  function CastId(s: string): (r: string)
    ensures IsObjectId(r) <==> IsObjectId(s)
  {
    if IsObjectId(s) then CanonObjectId(s); Canon(s) else s
  }

  /**
    The paths `placeOrder` passes to the document as written: the amount goes under `totalPrice`, which
    the schema does not know and drops, and neither the payment mode nor the contact fields are passed.
  */
  function AsWrittenFields(b: PlaceOrderBody): OrderFields
    requires b.products.Some?
  {
    OrderFields(CastId(b.userId), b.products.value, None, b.address, "", "", Some("Placed"),
                Some(PaymentStatusFor(b.paymentMode)), None)
  }

  /** The paths with the amount passed under the schema's own key, `amount`. */
  function IntendedFields(b: PlaceOrderBody): OrderFields
    requires b.products.Some?
  {
    AsWrittenFields(b).(amount := b.amount)
  }

  /**
    Building and saving a new order document: validation first, then the save hook, then the insert.
    A document that fails validation is not stored and the handler answers 500.
  */
  method CreateOrder(db: Db, id: string, fields: OrderFields, now: int, offset: nat) returns (r: Outcome<Order>)
    requires offset < 900000
    modifies db`orders
    ensures !SchemaValid(NewOrder(id, fields, now, offset)) ==>
      r.Fail? && r.status == 500 && db.orders == old(db.orders)
    ensures SchemaValid(NewOrder(id, fields, now, offset)) ==>
      var saved := WithHookEntry(NewOrder(id, fields, now, offset), now);
      db.orders == old(db.orders) + [saved] && r == Ok(201, saved)
  {
    var doc := new OrderDocument.Create(NewOrder(id, fields, now, offset));
    if !SchemaValid(doc.data) {
      return Fail(500, "Order validation failed");
    }
    doc.PreSave(now);
    db.orders := db.orders + [doc.data];
    r := Ok(201, doc.data);
  }

  /**
    `placeOrder` as written: a complete body passes the guard, but the document it builds has no amount,
    a required path, so every save fails and nothing is ever stored.
  */
  method PlaceOrder(db: Db, body: PlaceOrderBody, id: string, now: int, offset: nat) returns (r: Outcome<Order>)
    requires offset < 900000
    modifies db`orders
    ensures !BodyComplete(body) ==> r == Fail(400, "Missing required order fields")
    ensures BodyComplete(body) ==> r.Fail? && r.status == 500
    ensures db.orders == old(db.orders)
  {
    if !BodyComplete(body) {
      return Fail(400, "Missing required order fields");
    }
    PlaceOrderNeverValid(body, id, now, offset);
    r := CreateOrder(db, id, AsWrittenFields(body), now, offset);
  }

  /** No body, however complete, yields an order that passes validation. */
  lemma PlaceOrderNeverValid(body: PlaceOrderBody, id: string, now: int, offset: nat)
    requires offset < 900000 && body.products.Some?
    ensures !SchemaValid(NewOrder(id, AsWrittenFields(body), now, offset))
  {
  }

  /**
    With the amount passed under `amount`, a complete body whose user id is an ObjectId and whose lines
    all carry a quantity and an absent or ObjectId product id yields a valid order.
  */
  lemma IntendedOrderValid(body: PlaceOrderBody, id: string, now: int, offset: nat)
    requires offset < 900000 && BodyComplete(body) && IsObjectId(body.userId)
    requires forall i :: 0 <= i < |body.products.value| ==>
      body.products.value[i].productId == "" || IsObjectId(body.products.value[i].productId)
    requires forall i :: 0 <= i < |body.products.value| ==> body.products.value[i].quantity.Some?
    ensures SchemaValid(NewOrder(id, IntendedFields(body), now, offset))
  {
    CanonObjectId(body.userId);
  }

  /** A line whose product id is neither absent nor an ObjectId fails the cast, so even the intended body is refused. */
  lemma MalformedLineIdRejected(body: PlaceOrderBody, id: string, now: int, offset: nat, i: nat)
    requires offset < 900000 && body.products.Some? && i < |body.products.value|
    requires body.products.value[i].productId != "" && !IsObjectId(body.products.value[i].productId)
    ensures !SchemaValid(NewOrder(id, IntendedFields(body), now, offset))
  {
    assert NewOrder(id, IntendedFields(body), now, offset).products[i] == body.products.value[i];
  }

  /**
    `placeOrder` with the amount passed under its schema key: a valid order is stored with status
    "Placed", the payment status of its mode, payment mode "COD" and one tracking entry for "Placed".
  */
  method PlaceOrderCorrected(db: Db, body: PlaceOrderBody, id: string, now: int, offset: nat)
    returns (r: Outcome<Order>)
    requires offset < 900000
    modifies db`orders
    ensures !BodyComplete(body) ==> r == Fail(400, "Missing required order fields") && db.orders == old(db.orders)
    ensures BodyComplete(body) && !SchemaValid(NewOrder(id, IntendedFields(body), now, offset)) ==>
      r.Fail? && r.status == 500 && db.orders == old(db.orders)
    ensures BodyComplete(body) && SchemaValid(NewOrder(id, IntendedFields(body), now, offset)) ==>
      r.Ok? && db.orders == old(db.orders) + [r.value]
      && r.value.amount == body.amount && r.value.status == "Placed" && r.value.paymentMode == "COD"
      && r.value.paymentStatus == PaymentStatusFor(body.paymentMode)
      && r.value.trackingDetails == [HookEntry("Placed", now)]
  {
    if !BodyComplete(body) {
      return Fail(400, "Missing required order fields");
    }
    r := CreateOrder(db, id, IntendedFields(body), now, offset);
  }

  // ---------------------------------------------------------------- listing

  /** The orders of one user, in store order. */
  function OrdersOf(os: seq<Order>, userId: string): (r: seq<Order>)
    ensures |r| <= |os|
    ensures forall i :: 0 <= i < |r| ==> r[i].userId == userId
    ensures forall o :: o in r <==> o in os && o.userId == userId
  {
    if |os| == 0 then []
    else if os[0].userId == userId then [os[0]] + OrdersOf(os[1..], userId)
    else OrdersOf(os[1..], userId)
  }

  lemma {:induction false} OrdersOfAppend(os: seq<Order>, o: Order, userId: string)
    ensures OrdersOf(os + [o], userId) == OrdersOf(os, userId) + (if o.userId == userId then [o] else [])
    decreases |os|
  {
    if |os| == 0 {
      assert os + [o] == [o];
    } else {
      assert (os + [o])[1..] == os[1..] + [o];
      OrdersOfAppend(os[1..], o, userId);
    }
  }

  /** A new order of the user heads that user's listing; other users' listings do not change. */
  lemma NewOrderListedFirst(os: seq<Order>, o: Order, userId: string)
    ensures o.userId == userId ==>
      NewestFirst(OrdersOf(os + [o], userId)) == [o] + NewestFirst(OrdersOf(os, userId))
    ensures o.userId != userId ==> NewestFirst(OrdersOf(os + [o], userId)) == NewestFirst(OrdersOf(os, userId))
  {
    OrdersOfAppend(os, o, userId);
    if o.userId == userId {
      var s := OrdersOf(os, userId) + [o];
      assert s[..|s| - 1] == OrdersOf(os, userId);
    } else {
      assert OrdersOf(os, userId) + [] == OrdersOf(os, userId);
    }
  }

  /** Orders stored with non-decreasing creation times. */
  predicate Chronological(os: seq<Order>) {
    forall i, j :: 0 <= i < j < |os| ==> os[i].createdAt <= os[j].createdAt
  }

  /** The listing of a chronological store is sorted on creation time, newest first. */
  lemma ListingNewestFirst(os: seq<Order>, userId: string)
    requires Chronological(os)
    ensures var l := NewestFirst(OrdersOf(os, userId));
      forall i, j :: 0 <= i < j < |l| ==> l[i].createdAt >= l[j].createdAt
  {
    var f := OrdersOf(os, userId);
    FilterChronological(os, userId);
    var l := NewestFirst(f);
    forall i, j | 0 <= i < j < |l| ensures l[i].createdAt >= l[j].createdAt {
      NewestFirstAt(f, i);
      NewestFirstAt(f, j);
    }
  }

  /** The tail of a chronological store is chronological, and no order in it is older than the head. */
  lemma ChronologicalTail(os: seq<Order>)
    requires |os| > 0 && Chronological(os)
    ensures Chronological(os[1..])
    ensures forall o :: o in os[1..] ==> os[0].createdAt <= o.createdAt
  {
    var rest := os[1..];
    forall i, j | 0 <= i < j < |rest| ensures rest[i].createdAt <= rest[j].createdAt {
      assert rest[i] == os[i + 1] && rest[j] == os[j + 1];
    }
    forall o | o in rest ensures os[0].createdAt <= o.createdAt {
      var m :| 0 <= m < |rest| && rest[m] == o;
      assert rest[m] == os[m + 1];
    }
  }

  /** Putting an order no later than any of a chronological sequence in front of it keeps it chronological. */
  lemma ChronologicalCons(o: Order, f: seq<Order>)
    requires Chronological(f)
    requires forall x :: x in f ==> o.createdAt <= x.createdAt
    ensures Chronological([o] + f)
  {
    var r := [o] + f;
    forall i, j | 0 <= i < j < |r| ensures r[i].createdAt <= r[j].createdAt {
      assert r[j] == f[j - 1];
      if i > 0 {
        assert r[i] == f[i - 1];
      }
    }
  }

  lemma {:induction false} FilterChronological(os: seq<Order>, userId: string)
    requires Chronological(os)
    ensures Chronological(OrdersOf(os, userId))
    decreases |os|
  {
    if |os| > 0 {
      ChronologicalTail(os);
      FilterChronological(os[1..], userId);
      if os[0].userId == userId {
        ChronologicalCons(os[0], OrdersOf(os[1..], userId));
      }
    }
  }

  /** `getOrdersByUser`: exactly the user's orders, newest first; a malformed id fails the query's cast. */
  method GetOrdersByUser(db: Db, userId: string) returns (r: Outcome<seq<Order>>)
    ensures !IsObjectId(userId) ==> r.Fail? && r.status == 500
    ensures IsObjectId(userId) ==> r == Ok(200, NewestFirst(OrdersOf(db.orders, Canon(userId))))
  {
    if !IsObjectId(userId) {
      return Fail(500, "Cast to ObjectId failed");
    }
    r := Ok(200, NewestFirst(OrdersOf(db.orders, Canon(userId))));
  }

  // ---------------------------------------------------------------- cancel and track

  /**
    `cancelOrder`: an unknown order is 404, a delivered one is refused with 400; any other is set to
    "Cancelled" and saved, which pushes a tracking entry unless it was cancelled already. Nobody's
    ownership is checked.
  */
  method CancelOrder(db: Db, orderId: string, now: int) returns (r: Outcome<string>)
    modifies db`orders
    ensures !IsObjectId(orderId) ==> r == Fail(500, "Server error") && db.orders == old(db.orders)
    ensures IsObjectId(orderId) && FindOrder(old(db.orders), Canon(orderId)) == |old(db.orders)| ==>
      r == Fail(404, "Order not found") && db.orders == old(db.orders)
    ensures IsObjectId(orderId) && FindOrder(old(db.orders), Canon(orderId)) < |old(db.orders)| ==>
      var k := FindOrder(old(db.orders), Canon(orderId));
      var o := old(db.orders)[k];
      (o.status == "Delivered" ==> r == Fail(400, "Cannot cancel a delivered order") && db.orders == old(db.orders))
      && (o.status != "Delivered" && !SchemaValid(o.(status := "Cancelled")) ==>
            r == Fail(500, "Server error") && db.orders == old(db.orders))
      && (o.status != "Delivered" && SchemaValid(o.(status := "Cancelled")) ==>
            r == Ok(200, "Order cancelled successfully")
            && db.orders == old(db.orders)[k := StatusSaved(o, "Cancelled", now)])
  {
    if !IsObjectId(orderId) {
      return Fail(500, "Server error");
    }
    var k := FindOrder(db.orders, Canon(orderId));
    if k == |db.orders| {
      return Fail(404, "Order not found");
    }
    if db.orders[k].status == "Delivered" {
      return Fail(400, "Cannot cancel a delivered order");
    }
    var doc := new OrderDocument.Load(db.orders[k]);
    doc.data := doc.data.(status := "Cancelled");
    if !SchemaValid(doc.data) {
      return Fail(500, "Server error");
    }
    doc.PreSave(now);
    db.orders := db.orders[k := doc.data];
    r := Ok(200, "Order cancelled successfully");
  }

  /** A cancelled order is never delivered, and cancelling it again pushes no further tracking entry. */
  lemma CancelSettles(o: Order, t1: int, t2: int)
    requires o.status != "Delivered"
    ensures StatusSaved(o, "Cancelled", t1).status == "Cancelled"
    ensures StatusSaved(StatusSaved(o, "Cancelled", t1), "Cancelled", t2) == StatusSaved(o, "Cancelled", t1)
  {
    StatusSavedTwice(o, "Cancelled", t1, t2);
  }

  /** The tracking reply: only the status and the delivery estimate of the stored order. */
  function Tracking(o: Order): (v: TrackingView)
    ensures v.status == o.status
    ensures o.estimatedDelivery.Some? ==> v.estimatedDelivery == At(o.estimatedDelivery.value)
    ensures o.estimatedDelivery.None? <==> v.estimatedDelivery == InProcess
  {
    TrackingView(o.status, if o.estimatedDelivery.Some? then At(o.estimatedDelivery.value) else InProcess)
  }

  /** `trackOrder` reads one order and changes nothing. */
  method TrackOrder(db: Db, orderId: string) returns (r: Outcome<TrackingView>)
    ensures !IsObjectId(orderId) ==> r == Fail(500, "Error tracking order")
    ensures IsObjectId(orderId) && FindOrder(db.orders, Canon(orderId)) == |db.orders| ==>
      r == Fail(404, "Order not found")
    ensures IsObjectId(orderId) && FindOrder(db.orders, Canon(orderId)) < |db.orders| ==>
      r == Ok(200, Tracking(db.orders[FindOrder(db.orders, Canon(orderId))]))
  {
    if !IsObjectId(orderId) {
      return Fail(500, "Error tracking order");
    }
    var k := FindOrder(db.orders, Canon(orderId));
    if k == |db.orders| {
      return Fail(404, "Order not found");
    }
    r := Ok(200, Tracking(db.orders[k]));
  }
}

=== FILE: order_model.dfy ===
/**
  The order record (server/models/Order.js): its enumerations and defaults, the schema validation that
  runs before every `save`, and the document object whose `pre('save')` hook appends to the tracking log.
*/
module OrderModel {
  import opened Common
  import opened Strings

  const Statuses: seq<string> := ["Placed", "Processing", "Shipped", "Out for Delivery", "Delivered", "Cancelled"]
  const PaymentStatuses: seq<string> := ["Paid", "Pending", "Failed", "Refunded"]
  const PaymentModes: seq<string> := ["COD", "Online", "Card", "UPI"]

  const DefaultStatus: string := "Placed"
  const DefaultPaymentStatus: string := "Pending"
  const DefaultPaymentMode: string := "COD"
  const DefaultPartner: string := "FastShip"
  const HookLocation: string := "Warehouse"

  /** One ordered product; `quantity` is required by the schema, the rest is optional. */
  datatype LineItem = LineItem(productId: string, name: string, price: real, quantity: Option<int>)

  datatype TrackingEntry = TrackingEntry(status: string, location: string, timestamp: int, description: string)

  /** A stored order. `amount` is `None` when the document lacks it; dates are millisecond timestamps. */
  datatype Order = Order(
    id: string,
    userId: string,
    products: seq<LineItem>,
    amount: Option<real>,
    address: string,
    contactPhone: string,
    contactEmail: string,
    status: string,
    paymentStatus: string,
    paymentMode: string,
    estimatedDelivery: Option<int>,
    trackingDetails: seq<TrackingEntry>,
    trackingNumber: string,
    deliveryPartner: string,
    createdAt: int)

  /** The paths a handler passes to `new Order(...)`; `None` and "" are paths it leaves out. */
  datatype OrderFields = OrderFields(
    userId: string,
    products: seq<LineItem>,
    amount: Option<real>,
    address: string,
    contactPhone: string,
    contactEmail: string,
    status: Option<string>,
    paymentStatus: Option<string>,
    paymentMode: Option<string>)

  /** `getStatusDescription`: the fixed sentence of each of the six statuses, "Status updated" otherwise. */
  function StatusDescription(status: string): (d: string)
    ensures status !in Statuses ==> d == "Status updated"
    ensures status in Statuses ==> d != "Status updated"
  {
    match status
    case "Placed" => "Order has been placed successfully"
    case "Processing" => "Order is being processed at our warehouse"
    case "Shipped" => "Order has been shipped and is on the way"
    case "Out for Delivery" => "Order is out for delivery and will be delivered today"
    case "Delivered" => "Order has been delivered successfully"
    case "Cancelled" => "Order has been cancelled"
    case _ => "Status updated"
  }

  /** Different statuses of the enumeration are described by different sentences. */
  lemma StatusDescriptionInjective(a: string, b: string)
    requires a in Statuses && b in Statuses
    requires StatusDescription(a) == StatusDescription(b)
    ensures a == b
  {
    // the six sentences have six different lengths
    var n := |StatusDescription(b)|;
    assert b == "Placed" ==> n == 34;
    assert b == "Processing" ==> n == 41;
    assert b == "Shipped" ==> n == 40;
    assert b == "Out for Delivery" ==> n == 53;
    assert b == "Delivered" ==> n == 37;
    assert b == "Cancelled" ==> n == 24;
  }

  /** The entry the save hook appends for a status. */
  function HookEntry(status: string, now: int): (e: TrackingEntry)
    ensures e.status == status && e.location == "Warehouse" && e.timestamp == now
    ensures e.description == StatusDescription(status)
  {
    TrackingEntry(status, HookLocation, now, StatusDescription(status))
  }

  /** The default tracking number: "TRK" followed by `floor(100000 + random * 900000)`, given as an offset. */
  function TrackingNumber(offset: nat): string
    requires offset < 900000
  {
    "TRK" + DecimalString(100000 + offset)
  }

  /** Every default tracking number is "TRK" followed by six digits, i.e. a number in [100000, 999999]. */
  lemma TrackingNumberFormat(offset: nat)
    requires offset < 900000
    ensures |TrackingNumber(offset)| == 9 && StartsWith(TrackingNumber(offset), "TRK")
    ensures forall i :: 3 <= i < 9 ==> IsDigit(TrackingNumber(offset)[i])
  {
    assert Pow10(1) == 10 && Pow10(2) == 100 && Pow10(3) == 1000;
    assert Pow10(4) == 10000 && Pow10(5) == 100000 && Pow10(6) == 1000000;
    var n := 100000 + offset;
    DecimalStringShape(n, 6);
    var t := TrackingNumber(offset);
    assert t[..3] == "TRK";
    forall i | 3 <= i < 9 ensures IsDigit(t[i]) {
      assert t[i] == DecimalString(n)[i - 3];
    }
  }

  /**
    `new Order(fields)` at time `now`: the defaults of the schema fill every path the caller left out
    (status "Placed", payment status "Pending", payment mode "COD", delivery estimate now + 5 days,
    a random tracking number, partner "FastShip", an empty tracking log).
  */
  function NewOrder(id: string, fields: OrderFields, now: int, offset: nat): (o: Order)
    requires offset < 900000
    ensures o.status == fields.status.GetOr("Placed")
    ensures o.paymentStatus == fields.paymentStatus.GetOr("Pending")
    ensures o.paymentMode == fields.paymentMode.GetOr("COD")
    ensures o.estimatedDelivery == Some(now + 5 * DayMillis)
    ensures o.deliveryPartner == "FastShip" && o.trackingDetails == [] && o.createdAt == now
    ensures o.amount == fields.amount && o.userId == fields.userId && o.address == fields.address
  {
    Order(id, fields.userId, fields.products, fields.amount, fields.address, fields.contactPhone,
          fields.contactEmail, fields.status.GetOr(DefaultStatus), fields.paymentStatus.GetOr(DefaultPaymentStatus),
          fields.paymentMode.GetOr(DefaultPaymentMode), Some(now + 5 * DayMillis), [], TrackingNumber(offset),
          DefaultPartner, now)
  }

  /** The order with the hook's entry for its current status pushed onto its tracking log. */
  function WithHookEntry(o: Order, now: int): Order {
    o.(trackingDetails := o.trackingDetails + [HookEntry(o.status, now)])
  }

  /**
    The hook only pushes: the log grows by exactly one entry, which carries the current status, location
    "Warehouse" and the status's description; earlier entries and every other field are kept.
  */
  lemma HookOnlyPushes(o: Order, now: int)
    ensures var h := WithHookEntry(o, now);
      |h.trackingDetails| == |o.trackingDetails| + 1
      && h.trackingDetails[..|o.trackingDetails|] == o.trackingDetails
      && h.trackingDetails[|o.trackingDetails|] == TrackingEntry(o.status, "Warehouse", now, StatusDescription(o.status))
      && h.(trackingDetails := o.trackingDetails) == o
  {
  }

  /**
    The order a stored order becomes when a handler loads it, sets its status to `s` and saves it (once
    validation has passed): the hook fires exactly when the status differs from the loaded one.
  */
  function StatusSaved(o: Order, s: string, now: int): Order {
    var c := o.(status := s);
    if s != o.status then WithHookEntry(c, now) else c
  }

  /** Setting the same status again and saving leaves the tracking log as it was. */
  lemma StatusSavedTwice(o: Order, s: string, t1: int, t2: int)
    ensures StatusSaved(StatusSaved(o, s, t1), s, t2) == StatusSaved(o, s, t1)
    ensures |StatusSaved(o, s, t1).trackingDetails| == |o.trackingDetails| + (if s != o.status then 1 else 0)
  {
  }

  /**
    The schema validation that `save` runs before the hooks: `userId` must be an ObjectId, every line's
    `productId` is absent ("") or casts to an ObjectId, `amount`, `address` and every line's `quantity` are
    required, the three enumerations hold, and every tracking entry has a status.
  */
  predicate SchemaValid(o: Order) {
    && IsObjectId(o.userId)
    && o.amount.Some?
    && o.address != ""
    && (forall i :: 0 <= i < |o.products| ==> o.products[i].productId == "" || IsObjectId(o.products[i].productId))
    && (forall i :: 0 <= i < |o.products| ==> o.products[i].quantity.Some?)
    && o.status in Statuses
    && o.paymentStatus in PaymentStatuses
    && o.paymentMode in PaymentModes
    && (forall i :: 0 <= i < |o.trackingDetails| ==> o.trackingDetails[i].status != "")
  }

  /**
    A document in memory. `isNew` holds for one built by `new Order(...)`; `loadedStatus` is the status it
    had when it was read from the store, against which `isModified('status')` is judged (the document store
    does not mark a path modified when it is set to the value it already has).
  */
  class OrderDocument {
    var data: Order
    const isNew: bool
    const loadedStatus: string

    constructor Create(o: Order)
      ensures data == o && isNew
    {
      data := o;
      isNew := true;
      loadedStatus := o.status;
    }

    constructor Load(o: Order)
      ensures data == o && !isNew && loadedStatus == o.status
    {
      data := o;
      isNew := false;
      loadedStatus := o.status;
    }

    predicate StatusModified()
      reads this
    {
      data.status != loadedStatus
    }

    /**
      The `pre('save')` hook: when the document is new or its status changed, the entry of the current
      status is pushed onto the tracking log; otherwise the document is left as it is.
    */
    method PreSave(now: int)
      modifies this
      ensures data == if old(isNew || StatusModified()) then WithHookEntry(old(data), now) else old(data)
    {
      if isNew || StatusModified() {
        var entry := TrackingEntry(data.status, HookLocation, now, StatusDescription(data.status));
        data := data.(trackingDetails := data.trackingDetails + [entry]);
      }
    }
  }
}

=== FILE: product_model.dfy ===
/** The product record of the catalogue (server/models/Product.js). */
module ProductModel {
  import opened Common

  /** A stored product. Numbers of the document are modelled as `real` (price, rating) or `int` (counts). */
  datatype Product = Product(
    id: string,
    name: string,
    brand: string,
    category: string,
    price: real,
    description: string,
    image: string,
    cloudinaryId: string,
    countInStock: int,
    rating: real,
    numReviews: int)

  /** The fields a caller supplies when a product document is created; `None` and "" are absent fields. */
  datatype ProductInput = ProductInput(
    name: string,
    brand: string,
    category: string,
    price: Option<real>,
    description: string,
    image: string,
    cloudinaryId: string,
    countInStock: Option<int>,
    rating: Option<real>,
    numReviews: Option<int>)

  /**
    Creating a product document: `name` (a non-empty string) and `price` are required, and the stock
    count, the rating and the review count default to 0.
  */
  function NewProduct(id: string, input: ProductInput): (r: Option<Product>)
    ensures r.Some? <==> input.name != "" && input.price.Some?
    ensures r.Some? ==> r.value.id == id && r.value.name == input.name && r.value.price == input.price.value
    ensures r.Some? ==> r.value.countInStock == input.countInStock.GetOr(0)
    ensures r.Some? ==> r.value.rating == input.rating.GetOr(0.0) && r.value.numReviews == input.numReviews.GetOr(0)
  {
    if input.name == "" || input.price.None? then None
    else Some(Product(id, input.name, input.brand, input.category, input.price.value, input.description,
                      input.image, input.cloudinaryId, input.countInStock.GetOr(0),
                      input.rating.GetOr(0.0), input.numReviews.GetOr(0)))
  }

  /** A product created with only its required fields starts with no stock, rating 0 and no reviews. */
  lemma NewProductDefaults(id: string, name: string, price: real)
    requires name != ""
    ensures var r := NewProduct(id, ProductInput(name, "", "", Some(price), "", "", "", None, None, None));
      r.Some? && r.value.countInStock == 0 && r.value.rating == 0.0 && r.value.numReviews == 0
  {
  }
}

=== FILE: profile_address.dfy ===
/**
  The address helpers of the profile page (client/src/pages/Profile.jsx). The profile stores an address as
  the JSON text of six named parts; older or hand-typed addresses are free text, which `parseAddress`
  splits on commas and searches for a six-digit postal code. `parse` and `stringify` stand for
  `JSON.parse` and `JSON.stringify`.
*/
module ProfileAddress {
  import opened Common
  import opened Strings
  import opened JsonValue

  /** The six parts of an address, as the profile form holds them ("" for an empty input). */
  datatype AddressFields = AddressFields(street: string, area: string, city: string, state: string,
                                         country: string, pincode: string)

  /** What free-text parsing finds; `street` is always set, the other parts only when found. */
  datatype AddressParts = AddressParts(street: string, area: Option<string>, city: Option<string>,
                                       state: Option<string>, country: Option<string>, pincode: Option<string>)

  /** The result of `parseAddress`: the parsed JSON value as it is, or the parts found in free text. */
  datatype ParsedAddress = Parsed(value: Json) | Manual(parts: AddressParts)

  // ---------------------------------------------------------------- the postal code

  /** A character of the regular-expression class `\w`. */
  predicate IsWordChar(c: char) {
    'a' <= c <= 'z' || 'A' <= c <= 'Z' || IsDigit(c) || c == '_'
  }

  /** `\b(\d{6})\b` matches at position `i`: six digits with a word boundary on both sides. */
  predicate PincodeAt(s: string, i: nat) {
    && i + 6 <= |s|
    && (forall k :: i <= k < i + 6 ==> IsDigit(s[k]))
    && (i == 0 || !IsWordChar(s[i - 1]))
    && (i + 6 == |s| || !IsWordChar(s[i + 6]))
  }

  /** The leftmost match at or after `from`, or `|s|` when there is none. */
  function FindPincode(s: string, from: nat): (k: nat)
    requires from <= |s|
    ensures from <= k <= |s|
    ensures k < |s| ==> PincodeAt(s, k)
    ensures forall j :: from <= j < k ==> !PincodeAt(s, j)
    decreases |s| - from
  {
    if from == |s| then |s| else if PincodeAt(s, from) then from else FindPincode(s, from + 1)
  }

  /** The first six-digit run delimited by word boundaries, if any. */
  function Pincode(s: string): (r: Option<string>)
    ensures r.Some? <==> exists i :: 0 <= i < |s| && PincodeAt(s, i)
    ensures r.Some? ==> |r.value| == 6 && forall k :: 0 <= k < 6 ==> IsDigit(r.value[k])
    ensures r.Some? ==> exists i :: 0 <= i < |s| && PincodeAt(s, i) && r.value == s[i..i + 6]
                                    && forall j :: 0 <= j < i ==> !PincodeAt(s, j)
  {
    var k := FindPincode(s, 0);
    if k < |s| then Some(s[k..k + 6]) else None
  }

  /** A run of seven digits holds no postal code: there is no word boundary inside it. */
  lemma SevenDigitsNoPincode()
    ensures Pincode("1234567").None?
  {
    var s := "1234567";
    forall i | 0 <= i < |s| ensures !PincodeAt(s, i) {
      if i == 0 {
        assert IsWordChar(s[6]);
      } else {
        assert IsWordChar(s[i - 1]);
      }
    }
  }

  // ---------------------------------------------------------------- parseAddress

  function TrimAll(ss: seq<string>): (r: seq<string>)
    ensures |r| == |ss|
    ensures forall i :: 0 <= i < |ss| ==> r[i] == Trim(ss[i])
  {
    if |ss| == 0 then [] else [Trim(ss[0])] + TrimAll(ss[1..])
  }

  /**
    The free-text branch: with a comma and at least three trimmed segments, the first three are street,
    area and city, a fourth is the state and a fifth the country; otherwise the street is the whole,
    untrimmed input. The postal code is searched in the whole input either way.
  */
  function ManualParts(s: string): (p: AddressParts)
    ensures p.pincode == Pincode(s)
    ensures var segs := TrimAll(Split(s, ','));
      if Contains(s, ",") && |segs| >= 3 then
        && p.street == segs[0] && p.area == Some(segs[1]) && p.city == Some(segs[2])
        && (p.state.Some? <==> |segs| >= 4) && (p.state.Some? ==> p.state.value == segs[3])
        && (p.country.Some? <==> |segs| >= 5) && (p.country.Some? ==> p.country.value == segs[4])
      else
        p == AddressParts(s, None, None, None, None, Pincode(s))
  {
    var pin := Pincode(s);
    var segs := TrimAll(Split(s, ','));
    if Contains(s, ",") && |segs| >= 3 then
      AddressParts(segs[0], Some(segs[1]), Some(segs[2]),
                   if |segs| >= 4 then Some(segs[3]) else None,
                   if |segs| >= 5 then Some(segs[4]) else None,
                   pin)
    else
      AddressParts(s, None, None, None, None, pin)
  }

  /** `parseAddress`: whatever parses as JSON is returned as parsed; anything else is split by hand. */
  function ParseAddress(s: string, parse: string -> Option<Json>): (r: ParsedAddress)
    ensures parse(s).Some? ==> r == Parsed(parse(s).value)
    ensures parse(s).None? ==> r == Manual(ManualParts(s))
  {
    match parse(s)
    case Some(j) => Parsed(j)
    case None => Manual(ManualParts(s))
  }

  /**
    Free text of three comma-free, already trimmed parts joined by commas (and not valid JSON) is read back
    as street, area and city, with no state or country.
  */
  lemma ManualThreeParts(x: string, y: string, z: string, parse: string -> Option<Json>)
    requires Free(x, ',') && Free(y, ',') && Free(z, ',')
    requires Trimmed(x) && Trimmed(y) && Trimmed(z)
    requires parse(Join([x, y, z], ",")).None?
    ensures var p := ParseAddress(Join([x, y, z], ","), parse).parts;
      p.street == x && p.area == Some(y) && p.city == Some(z) && p.state.None? && p.country.None?
  {
    var s := Join([x, y, z], ",");
    var parts := [x, y, z];
    assert [x, y, z][1..] == [y, z] && [y, z][1..] == [z];
    assert Join([y, z], ",") == y + "," + z;
    assert s == x + "," + (y + "," + z);
    SplitJoin(parts, ',');
    assert Join(parts, [',']) == s;
    ContainsInside(x, ",", y + "," + z);
    TrimOfTrimmed(x);
    TrimOfTrimmed(y);
    TrimOfTrimmed(z);
  }

  // ---------------------------------------------------------------- composeAddress and display

  /** The object `composeAddress` serialises: exactly the six keys. */
  function AddressObject(a: AddressFields): (m: map<string, string>)
    ensures m.Keys == {"street", "area", "city", "state", "country", "pincode"}
    ensures m["street"] == a.street && m["area"] == a.area && m["city"] == a.city
    ensures m["state"] == a.state && m["country"] == a.country && m["pincode"] == a.pincode
  {
    map["street" := a.street, "area" := a.area, "city" := a.city, "state" := a.state,
        "country" := a.country, "pincode" := a.pincode]
  }

  /** `composeAddress`: the JSON text of the six parts. */
  function ComposeAddress(a: AddressFields, stringify: map<string, string> -> string): string {
    stringify(AddressObject(a))
  }

  /**
    `formatAddressForDisplay`: a parsed object shows its non-empty parts joined by ", " in the order street,
    area, city, state, country, postal code; any other parsed value shows nothing; text that does not parse
    (or parses to null, whose fields cannot be read) is shown as it is, or as "Not set" when empty.
  */
  function FormatAddressForDisplay(s: string, parse: string -> Option<Json>): (r: string)
    ensures parse(s).None? || parse(s) == Some(JNull) ==> r == (if s != "" then s else "Not set")
    ensures parse(s).Some? && parse(s).value.JObject? ==>
      var j := parse(s).value;
      r == JoinNonEmpty([Field(j, "street"), Field(j, "area"), Field(j, "city"), Field(j, "state"),
                         Field(j, "country"), Field(j, "pincode")])
    ensures parse(s) == Some(JOther) ==> r == ""
  {
    match parse(s)
    case None => OrElse(s, "Not set")
    case Some(JNull) => OrElse(s, "Not set")
    case Some(j) =>
      var parts := [Field(j, "street"), Field(j, "area"), Field(j, "city"), Field(j, "state"),
                    Field(j, "country"), Field(j, "pincode")];
      assert j.JOther? ==> NonEmpty(parts) == [] by {
        if j.JOther? {
          JoinNonEmptyBlank(parts);
        }
      }
      JoinNonEmpty(parts)
  }

  /**
    When `parse` reads back what `stringify` wrote, a composed address is shown as its non-empty parts in
    display order, and parsing it yields the six-key object unchanged.
  */
  lemma ComposeRoundTrip(a: AddressFields, parse: string -> Option<Json>, stringify: map<string, string> -> string)
    requires parse(stringify(AddressObject(a))) == Some(JObject(AddressObject(a)))
    ensures FormatAddressForDisplay(ComposeAddress(a, stringify), parse)
         == JoinNonEmpty([a.street, a.area, a.city, a.state, a.country, a.pincode])
    ensures ParseAddress(ComposeAddress(a, stringify), parse) == Parsed(JObject(AddressObject(a)))
  {
    var j := JObject(AddressObject(a));
    assert Field(j, "street") == a.street && Field(j, "area") == a.area && Field(j, "city") == a.city;
    assert Field(j, "state") == a.state && Field(j, "country") == a.country && Field(j, "pincode") == a.pincode;
  }

  /** The address line of the profile view: the formatted address, or "Not set" when that is empty. */
  function ShownAddress(s: string, parse: string -> Option<Json>): (r: string)
    ensures r != ""
    ensures FormatAddressForDisplay(s, parse) != "" ==> r == FormatAddressForDisplay(s, parse)
    ensures FormatAddressForDisplay(s, parse) == "" ==> r == "Not set"
  {
    var f := FormatAddressForDisplay(s, parse);
    if f == "" then "Not set" else f
  }

  /**
    A blank address that round-trips formats as "", and the profile view then shows "Not set" for it, as it
    does for an account with no address at all.
  */
  lemma BlankComposedShowsNothing(parse: string -> Option<Json>, stringify: map<string, string> -> string)
    requires var a := AddressFields("", "", "", "", "", "");
      parse(stringify(AddressObject(a))) == Some(JObject(AddressObject(a)))
    ensures FormatAddressForDisplay(ComposeAddress(AddressFields("", "", "", "", "", ""), stringify), parse) == ""
    ensures ShownAddress(ComposeAddress(AddressFields("", "", "", "", "", ""), stringify), parse) == "Not set"
    ensures parse("").None? ==> ShownAddress("", parse) == "Not set"
  {
    ComposeRoundTrip(AddressFields("", "", "", "", "", ""), parse, stringify);
    JoinNonEmptyBlank(["", "", "", "", "", ""]);
  }
}

=== FILE: records.dfy ===
/**
  The user and contact-message records. Their schema files (server/models/User.js and
  server/models/Contact.js) are not part of this model: the fields below are the ones the handlers read
  and write, and their defaults are the ones the handlers rely on.
*/
module Records {

  /**
    A registered account. `password` holds the stored hash. `role` is a path the review handlers
    read; an account without it has the empty string there.
  */
  datatype User = User(
    id: string,
    name: string,
    email: string,
    password: string,
    phone: string,
    address: string,
    isAdmin: bool,
    role: string)

  /** A submission of the contact form. */
  datatype Contact = Contact(
    id: string,
    name: string,
    email: string,
    subject: string,
    message: string,
    createdAt: int)

  /** No two accounts share an email address. */
  predicate UniqueEmails(users: seq<User>) {
    forall i, j :: 0 <= i < j < |users| ==> users[i].email != users[j].email
  }

  /** Some account uses the address. */
  predicate EmailTaken(users: seq<User>, email: string) {
    exists i :: 0 <= i < |users| && users[i].email == email
  }

  /** Appending an account whose address is not taken keeps the addresses distinct. */
  lemma AppendKeepsUniqueEmails(users: seq<User>, u: User)
    requires UniqueEmails(users) && !EmailTaken(users, u.email)
    ensures UniqueEmails(users + [u])
  {
    var s := users + [u];
    forall i, j | 0 <= i < j < |s| ensures s[i].email != s[j].email {
      if j == |users| {
        assert s[i] == users[i];
      }
    }
  }

  /**
    Replacing one account by one whose address is either its old one or one no account uses keeps the
    addresses distinct.
  */
  lemma ReplaceKeepsUniqueEmails(users: seq<User>, k: nat, u: User)
    requires k < |users| && UniqueEmails(users)
    requires u.email == users[k].email || !EmailTaken(users, u.email)
    ensures UniqueEmails(users[k := u])
  {
    var s := users[k := u];
    forall i, j | 0 <= i < j < |s| ensures s[i].email != s[j].email {
      if i == k {
        assert s[j] == users[j];
      } else if j == k {
        assert s[i] == users[i];
      }
    }
  }
}

=== FILE: review_model.dfy ===
/** The review record (server/models/Review.js): one rating and comment per reviewer and product. */
module ReviewModel {
  import opened Strings

  /** A stored review; `rating` is a number, dates are millisecond timestamps. */
  datatype Review = Review(
    id: string,
    user: string,
    product: string,
    rating: real,
    comment: string,
    userName: string,
    createdAt: int,
    updatedAt: int)

  /** The rating bounds of the schema. */
  const MinRating: real := 1.0
  const MaxRating: real := 5.0

  predicate RatingInRange(r: real) {
    MinRating <= r <= MaxRating
  }

  /**
    What `save` checks: both references are ObjectIds, the rating lies in [1, 5], and `comment` and
    `userName` are present (a required string path refuses the empty string).
  */
  predicate SchemaValid(r: Review) {
    IsObjectId(r.user) && IsObjectId(r.product) && RatingInRange(r.rating) && r.comment != "" && r.userName != ""
  }

  /** The unique compound index: no two reviews share a `(user, product)` pair. */
  predicate UniquePairs(rs: seq<Review>) {
    forall i, j :: 0 <= i < j < |rs| ==> rs[i].user != rs[j].user || rs[i].product != rs[j].product
  }

  /** Some review of `user` for `product` is stored. */
  predicate HasPair(rs: seq<Review>, user: string, product: string) {
    exists i :: 0 <= i < |rs| && rs[i].user == user && rs[i].product == product
  }

  /** Inserting a review whose pair is not yet present keeps the pairs unique. */
  lemma AppendKeepsUniquePairs(rs: seq<Review>, r: Review)
    requires UniquePairs(rs) && !HasPair(rs, r.user, r.product)
    ensures UniquePairs(rs + [r])
  {
    var s := rs + [r];
    forall i, j | 0 <= i < j < |s| ensures s[i].user != s[j].user || s[i].product != s[j].product {
      if j == |rs| {
        assert s[i] == rs[i];
      }
    }
  }

  /** Removing one review keeps the pairs unique. */
  lemma RemoveKeepsUniquePairs(rs: seq<Review>, k: nat)
    requires k < |rs| && UniquePairs(rs)
    ensures UniquePairs(rs[..k] + rs[k + 1..])
  {
    var s := rs[..k] + rs[k + 1..];
    forall i, j | 0 <= i < j < |s| ensures s[i].user != s[j].user || s[i].product != s[j].product {
      var i' := if i < k then i else i + 1;
      var j' := if j < k then j else j + 1;
      assert s[i] == rs[i'] && s[j] == rs[j'];
    }
  }

  /** Changing a review's rating or comment keeps the pairs unique. */
  lemma EditKeepsUniquePairs(rs: seq<Review>, k: nat, r: Review)
    requires k < |rs| && UniquePairs(rs) && r.user == rs[k].user && r.product == rs[k].product
    ensures UniquePairs(rs[k := r])
  {
  }
}

=== FILE: review_routes.dfy ===
/**
  The review endpoints (server/routes/reviewRoutes.js): three public reads per product, and create, edit
  and delete for a signed-in caller. Every change to the reviews recomputes the product's review count and
  average rating from the reviews then stored.
*/
module ReviewRoutes {
  import opened Common
  import opened Strings
  import opened ProductModel
  import opened ReviewModel
  import opened Records
  import opened Store

  // ---------------------------------------------------------------- the reviews of a product

  /** The stored reviews of a product, in store order (the query `find({ product })`). */
  function ReviewsFor(rs: seq<Review>, product: string): (r: seq<Review>)
    ensures |r| <= |rs|
    ensures forall i :: 0 <= i < |r| ==> r[i].product == product
    ensures forall x :: x in r <==> x in rs && x.product == product
  {
    if |rs| == 0 then []
    else if rs[0].product == product then [rs[0]] + ReviewsFor(rs[1..], product)
    else ReviewsFor(rs[1..], product)
  }

  /** The filter distributes over concatenation. */
  lemma {:induction false} ReviewsForConcat(a: seq<Review>, b: seq<Review>, product: string)
    ensures ReviewsFor(a + b, product) == ReviewsFor(a, product) + ReviewsFor(b, product)
    decreases |a|
  {
    if |a| == 0 {
      assert a + b == b;
    } else {
      assert (a + b)[1..] == a[1..] + b;
      ReviewsForConcat(a[1..], b, product);
    }
  }

  /** Storing a review of the product adds one to its count; a review of another product leaves it. */
  lemma CountAfterAppend(rs: seq<Review>, r: Review, product: string)
    ensures |ReviewsFor(rs + [r], product)| == |ReviewsFor(rs, product)| + (if r.product == product then 1 else 0)
  {
    ReviewsForConcat(rs, [r], product);
    assert ReviewsFor([r], product) == (if r.product == product then [r] else []) by {
      assert [r][1..] == [];
    }
  }

  /** Removing one review of the product takes one from its count; removing another leaves it. */
  lemma CountAfterRemove(rs: seq<Review>, k: nat, product: string)
    requires k < |rs|
    ensures |ReviewsFor(rs[..k] + rs[k + 1..], product)|
      == |ReviewsFor(rs, product)| - (if rs[k].product == product then 1 else 0)
  {
    assert rs == rs[..k] + ([rs[k]] + rs[k + 1..]);
    ReviewsForConcat(rs[..k], [rs[k]] + rs[k + 1..], product);
    ReviewsForConcat([rs[k]], rs[k + 1..], product);
    ReviewsForConcat(rs[..k], rs[k + 1..], product);
    assert ReviewsFor([rs[k]], product) == (if rs[k].product == product then [rs[k]] else []) by {
      assert [rs[k]][1..] == [];
    }
  }

  /** The sum of the ratings (the `reduce` of `updateProductRatings`). */
  function RatingSum(rs: seq<Review>): real {
    if |rs| == 0 then 0.0 else rs[0].rating + RatingSum(rs[1..])
  }

  /** The average rating, 0 when there is no review. */
  function Average(rs: seq<Review>): real {
    if |rs| == 0 then 0.0 else RatingSum(rs) / (|rs| as real)
  }

  /** Every stored review passed validation, so its rating lies in [1, 5]. */
  predicate AllValid(rs: seq<Review>) {
    forall i :: 0 <= i < |rs| ==> SchemaValid(rs[i])
  }

  lemma {:induction false} RatingSumBounds(rs: seq<Review>)
    requires forall i :: 0 <= i < |rs| ==> RatingInRange(rs[i].rating)
    ensures MinRating * (|rs| as real) <= RatingSum(rs) <= MaxRating * (|rs| as real)
    decreases |rs|
  {
    if |rs| > 0 {
      assert forall i :: 0 <= i < |rs[1..]| ==> rs[1..][i] == rs[i + 1];
      RatingSumBounds(rs[1..]);
      assert RatingInRange(rs[0].rating);
    }
  }

  /** When every rating lies in [1, 5] and there is at least one, the average lies in [1, 5] as well. */
  lemma AverageInRange(rs: seq<Review>)
    requires |rs| > 0
    requires forall i :: 0 <= i < |rs| ==> RatingInRange(rs[i].rating)
    ensures RatingInRange(Average(rs))
  {
    RatingSumBounds(rs);
    var n := |rs| as real;
    var s := RatingSum(rs);
    assert Average(rs) == s / n;
    assert (s / n) * n == s;
  }

  /** The product with the figures of the given reviews: their count and their average rating. */
  function Aggregated(p: Product, mine: seq<Review>): (r: Product)
    ensures r.numReviews == |mine| && r.rating == Average(mine)
    ensures r.(numReviews := p.numReviews, rating := p.rating) == p
  {
    p.(numReviews := |mine|, rating := Average(mine))
  }

  /**
    `updateProductRatings(key)`: the product stored under `key` gets the figures of the reviews that refer
    to `key`; the update by id changes nothing when there is no such product.
  */
  function Recomputed(products: map<string, Product>, rs: seq<Review>, key: string): (r: map<string, Product>)
    ensures r.Keys == products.Keys
    ensures forall k :: k in products && k != key ==> r[k] == products[k]
  {
    if key in products then products[key := Aggregated(products[key], ReviewsFor(rs, key))] else products
  }

  /** The product stored under `key` has the count and the average rating of the reviews that refer to it. */
  predicate RatingsConsistent(products: map<string, Product>, rs: seq<Review>, key: string) {
    key in products ==>
      products[key].numReviews == |ReviewsFor(rs, key)| && products[key].rating == Average(ReviewsFor(rs, key))
  }

  /**
    After the recomputation the product's figures agree with the reviews, and when all reviews passed
    validation a reviewed product's rating lies in [1, 5].
  */
  lemma RecomputedConsistent(products: map<string, Product>, rs: seq<Review>, key: string)
    requires AllValid(rs)
    ensures RatingsConsistent(Recomputed(products, rs, key), rs, key)
    ensures key in products && |ReviewsFor(rs, key)| > 0 ==> RatingInRange(Recomputed(products, rs, key)[key].rating)
  {
    if key in products && |ReviewsFor(rs, key)| > 0 {
      var mine := ReviewsFor(rs, key);
      forall i | 0 <= i < |mine| ensures RatingInRange(mine[i].rating) {
        assert mine[i] in rs;
      }
      AverageInRange(mine);
    }
  }

  /** Every stored product has the count and the average rating of the reviews that refer to it. */
  predicate AllConsistent(products: map<string, Product>, rs: seq<Review>) {
    forall key :: key in products ==> RatingsConsistent(products, rs, key)
  }

  /** A review of another product, wherever it stands, does not change a product's reviews. */
  lemma ReviewsForSkip(a: seq<Review>, x: Review, b: seq<Review>, product: string)
    requires x.product != product
    ensures ReviewsFor(a + [x] + b, product) == ReviewsFor(a + b, product)
  {
    var ax := a + [x];
    ReviewsForConcat(ax, b, product);
    ReviewsForConcat(a, [x], product);
    ReviewsForConcat(a, b, product);
    assert ReviewsFor([x], product) == ReviewsFor([x][1..], product);
    assert [x][1..] == [];
    calc {
      ReviewsFor(a + [x] + b, product);
      ReviewsFor(ax, product) + ReviewsFor(b, product);
      ReviewsFor(a, product) + [] + ReviewsFor(b, product);
      { assert ReviewsFor(a, product) + [] == ReviewsFor(a, product); }
      ReviewsFor(a + b, product);
    }
  }

  /**
    Recomputing one product keeps the whole store consistent, provided the change to the reviews touched
    that product's reviews only.
  */
  lemma RecomputedKeepsConsistent(products: map<string, Product>, rs: seq<Review>, rs': seq<Review>, key: string)
    requires AllConsistent(products, rs)
    requires forall p :: p in products && p != key ==> ReviewsFor(rs', p) == ReviewsFor(rs, p)
    ensures AllConsistent(Recomputed(products, rs', key), rs')
  {
    var q := Recomputed(products, rs', key);
    forall p | p in q
      ensures RatingsConsistent(q, rs', p)
    {
      if p != key {
        assert RatingsConsistent(products, rs, p);
      }
    }
  }

  /** Storing a review and recomputing its product keeps every product's figures in agreement with the reviews. */
  lemma AppendKeepsConsistent(products: map<string, Product>, rs: seq<Review>, r: Review)
    requires AllConsistent(products, rs)
    ensures AllConsistent(Recomputed(products, rs + [r], r.product), rs + [r])
  {
    forall p | p in products && p != r.product
      ensures ReviewsFor(rs + [r], p) == ReviewsFor(rs, p)
    {
      ReviewsForSkip(rs, r, [], p);
      assert rs + [r] + [] == rs + [r] && rs + [] == rs;
    }
    RecomputedKeepsConsistent(products, rs, rs + [r], r.product);
  }

  /** Replacing one review of another product by another one of another product leaves a product's reviews. */
  lemma ReviewsForReplaced(rs: seq<Review>, k: nat, x: Review, product: string)
    requires k < |rs| && rs[k].product != product && x.product != product
    ensures ReviewsFor(rs[k := x], product) == ReviewsFor(rs, product)
  {
    var pre, post := rs[..k], rs[k + 1..];
    assert rs[k := x] == pre + [x] + post;
    assert rs == pre + [rs[k]] + post;
    ReviewsForSkip(pre, x, post, product);
    ReviewsForSkip(pre, rs[k], post, product);
  }

  /** Removing a review of another product leaves a product's reviews. */
  lemma ReviewsForRemoved(rs: seq<Review>, k: nat, product: string)
    requires k < |rs| && rs[k].product != product
    ensures ReviewsFor(rs[..k] + rs[k + 1..], product) == ReviewsFor(rs, product)
  {
    var pre, post := rs[..k], rs[k + 1..];
    assert rs == pre + [rs[k]] + post;
    ReviewsForSkip(pre, rs[k], post, product);
  }

  /** Replacing a review by an edit of the same product and recomputing that product keeps the store consistent. */
  lemma EditKeepsConsistent(products: map<string, Product>, rs: seq<Review>, k: nat, e: Review)
    requires k < |rs| && e.product == rs[k].product
    requires AllConsistent(products, rs)
    ensures AllConsistent(Recomputed(products, rs[k := e], e.product), rs[k := e])
  {
    forall p | p in products && p != e.product
      ensures ReviewsFor(rs[k := e], p) == ReviewsFor(rs, p)
    {
      ReviewsForReplaced(rs, k, e, p);
    }
    RecomputedKeepsConsistent(products, rs, rs[k := e], e.product);
  }

  /** Removing a review and recomputing its product keeps the store consistent. */
  lemma RemoveKeepsConsistent(products: map<string, Product>, rs: seq<Review>, k: nat)
    requires k < |rs| && AllConsistent(products, rs)
    ensures AllConsistent(Recomputed(products, rs[..k] + rs[k + 1..], rs[k].product), rs[..k] + rs[k + 1..])
  {
    forall p | p in products && p != rs[k].product
      ensures ReviewsFor(rs[..k] + rs[k + 1..], p) == ReviewsFor(rs, p)
    {
      ReviewsForRemoved(rs, k, p);
    }
    RecomputedKeepsConsistent(products, rs, rs[..k] + rs[k + 1..], rs[k].product);
  }

  // ---------------------------------------------------------------- the public reads

  /** `GET /product/:productId`: the product's reviews, newest first; an id that cannot be cast fails. */
  method ListReviews(db: Db, productId: string) returns (r: Outcome<seq<Review>>)
    ensures !IsObjectId(productId) ==> r == Fail(500, "Server error")
    ensures IsObjectId(productId) ==> r == Ok(200, NewestFirst(ReviewsFor(db.reviews, Canon(productId))))
  {
    if !IsObjectId(productId) {
      return Fail(500, "Server error");
    }
    r := Ok(200, NewestFirst(ReviewsFor(db.reviews, Canon(productId))));
  }

  /** `GET /count/:productId`: the number of the product's reviews. */
  method CountReviews(db: Db, productId: string) returns (r: Outcome<nat>)
    ensures !IsObjectId(productId) ==> r == Fail(500, "Server error")
    ensures IsObjectId(productId) ==> r == Ok(200, |ReviewsFor(db.reviews, Canon(productId))|)
  {
    if !IsObjectId(productId) {
      return Fail(500, "Server error");
    }
    r := Ok(200, |ReviewsFor(db.reviews, Canon(productId))|);
  }

  /**
    `GET /rating/:productId`: the average rating, 0 without reviews. The aggregation pipeline does not cast,
    so an id that is no ObjectId matches nothing and also answers 0 rather than failing.
  */
  method AverageRating(db: Db, productId: string) returns (r: Outcome<real>)
    ensures r.Ok? && r.status == 200
    ensures !IsObjectId(productId) ==> r.value == 0.0
    ensures IsObjectId(productId) ==> r.value == Average(ReviewsFor(db.reviews, Canon(productId)))
  {
    if !IsObjectId(productId) {
      return Ok(200, 0.0);
    }
    r := Ok(200, Average(ReviewsFor(db.reviews, Canon(productId))));
  }

  // ---------------------------------------------------------------- create, edit, delete

  /** The review `POST /` builds for the caller. */
  function Drafted(id: string, caller: User, product: string, rating: real, comment: string, now: int): (r: Review)
    ensures r.user == caller.id && r.product == product && r.rating == rating && r.comment == comment
    ensures r.userName == (if caller.name != "" then caller.name else "Anonymous")
    ensures r.createdAt == now && r.updatedAt == now
  {
    Review(id, caller.id, product, rating, comment, OrElse(caller.name, "Anonymous"), now, now)
  }

  /** Whether the user has written any review at all. */
  predicate HasReviewBy(rs: seq<Review>, user: string) {
    exists i :: 0 <= i < |rs| && rs[i].user == user
  }

  /**
    `POST /`: a caller may review a product once. The duplicate check comes before the product lookup. A
    body without `productId` leaves the product out of the duplicate query, so any review by the caller
    makes it a 400; otherwise the lookup of no id finds nothing: 404. An id that is present but no
    ObjectId, the empty text included, fails the cast: 500. A review that fails validation (missing or
    out-of-range rating, empty comment) is refused with 500. On success the review is stored and the
    product's figures recomputed.
  */
  method CreateReview(db: Db, caller: User, productId: Option<string>, rating: Option<real>, comment: string,
                      now: int, newId: string) returns (r: Outcome<Review>)
    modifies db`reviews, db`products
    ensures productId.None? && HasReviewBy(old(db.reviews), caller.id) ==>
      r == Fail(400, "You have already reviewed this product")
    ensures productId.None? && !HasReviewBy(old(db.reviews), caller.id) ==>
      r == Fail(404, "Product not found")
    ensures productId.Some? && !IsObjectId(productId.value) ==>
      r == Fail(500, "Server error") && db.reviews == old(db.reviews) && db.products == old(db.products)
    ensures productId.Some? && IsObjectId(productId.value)
            && HasPair(old(db.reviews), caller.id, Canon(productId.value)) ==>
      r == Fail(400, "You have already reviewed this product")
      && db.reviews == old(db.reviews) && db.products == old(db.products)
    ensures productId.Some? && IsObjectId(productId.value)
            && !HasPair(old(db.reviews), caller.id, Canon(productId.value))
            && Canon(productId.value) !in old(db.products) ==>
      r == Fail(404, "Product not found") && db.reviews == old(db.reviews) && db.products == old(db.products)
    ensures r.Ok? ==>
      productId.Some? && IsObjectId(productId.value) && rating.Some? && Canon(productId.value) in old(db.products)
      && !HasPair(old(db.reviews), caller.id, Canon(productId.value))
      && r == Ok(200, Drafted(newId, caller, Canon(productId.value), rating.value, comment, now))
      && SchemaValid(r.value)
      && db.reviews == old(db.reviews) + [r.value]
      && db.products == Recomputed(old(db.products), db.reviews, Canon(productId.value))
    ensures r.Fail? ==> db.reviews == old(db.reviews) && db.products == old(db.products)
    ensures productId.Some? && IsObjectId(productId.value)
            && !HasPair(old(db.reviews), caller.id, Canon(productId.value))
            && Canon(productId.value) in old(db.products) && r.Fail? ==>
      r.status == 500
      && (rating.None? || !SchemaValid(Drafted(newId, caller, Canon(productId.value), rating.value, comment, now)))
    ensures UniquePairs(old(db.reviews)) ==> UniquePairs(db.reviews)
    ensures AllValid(old(db.reviews)) ==> AllValid(db.reviews)
    ensures AllConsistent(old(db.products), old(db.reviews)) ==> AllConsistent(db.products, db.reviews)
  {
    if productId.None? {
      if HasReviewBy(db.reviews, caller.id) {
        return Fail(400, "You have already reviewed this product");
      }
      return Fail(404, "Product not found");
    }
    if !IsObjectId(productId.value) {
      return Fail(500, "Server error");
    }
    var key := Canon(productId.value);
    if HasPair(db.reviews, caller.id, key) {
      return Fail(400, "You have already reviewed this product");
    }
    if key !in db.products {
      return Fail(404, "Product not found");
    }
    if rating.None? {
      return Fail(500, "Server error");
    }
    var review := Drafted(newId, caller, key, rating.value, comment, now);
    if !SchemaValid(review) {
      return Fail(500, "Server error");
    }
    if UniquePairs(db.reviews) {
      AppendKeepsUniquePairs(db.reviews, review);
    }
    if AllConsistent(db.products, db.reviews) {
      AppendKeepsConsistent(db.products, db.reviews, review);
    }
    db.reviews := db.reviews + [review];
    db.products := Recomputed(db.products, db.reviews, key);
    r := Ok(200, review);
  }

  /** The review after `PUT /:id`: a truthy rating and a non-empty comment replace the stored ones. */
  function Edited(rev: Review, rating: Option<real>, comment: string, now: int): (r: Review)
    ensures r.rating == (if rating.Some? && rating.value != 0.0 then rating.value else rev.rating)
    ensures r.comment == (if comment != "" then comment else rev.comment)
    ensures r.(rating := rev.rating, comment := rev.comment, updatedAt := rev.updatedAt) == rev
    ensures r.updatedAt == (if r.rating != rev.rating || r.comment != rev.comment then now else rev.updatedAt)
  {
    var newRating := if rating.Some? && rating.value != 0.0 then rating.value else rev.rating;
    var e := rev.(rating := newRating, comment := OrElse(comment, rev.comment));
    if e.rating != rev.rating || e.comment != rev.comment then e.(updatedAt := now) else e
  }

  /** An edit with neither a rating nor a comment leaves the review exactly as it was. */
  lemma EmptyEditIsNoChange(rev: Review, now: int)
    ensures Edited(rev, None, "", now) == rev
    ensures Edited(rev, Some(0.0), "", now) == rev
  {
  }

  /**
    `PUT /:id`: only the review's author may edit it (401 otherwise). The edited review is validated again,
    so a rating outside [1, 5] is refused with 500. The product's figures are recomputed afterwards.
  */
  method UpdateReview(db: Db, caller: User, id: string, rating: Option<real>, comment: string, now: int)
    returns (r: Outcome<Review>)
    modifies db`reviews, db`products
    ensures !IsObjectId(id) ==> r == Fail(500, "Server error")
    ensures IsObjectId(id) && FindReview(old(db.reviews), Canon(id)) == |old(db.reviews)| ==>
      r == Fail(404, "Review not found")
    ensures IsObjectId(id) && FindReview(old(db.reviews), Canon(id)) < |old(db.reviews)| ==>
      var k := FindReview(old(db.reviews), Canon(id));
      var e := Edited(old(db.reviews)[k], rating, comment, now);
      && (old(db.reviews)[k].user != caller.id ==> r == Fail(401, "Not authorized to update this review"))
      && (old(db.reviews)[k].user == caller.id && !SchemaValid(e) ==> r == Fail(500, "Server error"))
      && (old(db.reviews)[k].user == caller.id && SchemaValid(e) ==>
            r == Ok(200, e) && db.reviews == old(db.reviews)[k := e]
            && db.products == Recomputed(old(db.products), db.reviews, e.product))
    ensures r.Fail? ==> db.reviews == old(db.reviews) && db.products == old(db.products)
    ensures UniquePairs(old(db.reviews)) ==> UniquePairs(db.reviews)
    ensures AllValid(old(db.reviews)) ==> AllValid(db.reviews)
    ensures AllConsistent(old(db.products), old(db.reviews)) ==> AllConsistent(db.products, db.reviews)
  {
    if !IsObjectId(id) {
      return Fail(500, "Server error");
    }
    var k := FindReview(db.reviews, Canon(id));
    if k == |db.reviews| {
      return Fail(404, "Review not found");
    }
    var rev := db.reviews[k];
    if rev.user != caller.id {
      return Fail(401, "Not authorized to update this review");
    }
    var e := Edited(rev, rating, comment, now);
    if !SchemaValid(e) {
      return Fail(500, "Server error");
    }
    if UniquePairs(db.reviews) {
      EditKeepsUniquePairs(db.reviews, k, e);
    }
    if AllConsistent(db.products, db.reviews) {
      EditKeepsConsistent(db.products, db.reviews, k, e);
    }
    db.reviews := db.reviews[k := e];
    db.products := Recomputed(db.products, db.reviews, e.product);
    r := Ok(200, e);
  }

  /** Removing one review keeps every remaining one valid. */
  lemma RemoveKeepsAllValid(rs: seq<Review>, k: nat)
    requires k < |rs| && AllValid(rs)
    ensures AllValid(rs[..k] + rs[k + 1..])
  {
    var s := rs[..k] + rs[k + 1..];
    forall i | 0 <= i < |s| ensures SchemaValid(s[i]) {
      assert s[i] == rs[if i < k then i else i + 1];
    }
  }

  /** Who may delete a review: its author or a caller whose `role` is "admin". */
  predicate MayDelete(caller: User, rev: Review) {
    rev.user == caller.id || caller.role == "admin"
  }

  /** `DELETE /:id`: the review is removed and its product's figures recomputed. */
  method DeleteReview(db: Db, caller: User, id: string) returns (r: Outcome<string>)
    modifies db`reviews, db`products
    ensures !IsObjectId(id) ==> r == Fail(500, "Server error")
    ensures IsObjectId(id) && FindReview(old(db.reviews), Canon(id)) == |old(db.reviews)| ==>
      r == Fail(404, "Review not found")
    ensures IsObjectId(id) && FindReview(old(db.reviews), Canon(id)) < |old(db.reviews)| ==>
      var k := FindReview(old(db.reviews), Canon(id));
      var rev := old(db.reviews)[k];
      && (!MayDelete(caller, rev) ==> r == Fail(401, "Not authorized to delete this review"))
      && (MayDelete(caller, rev) ==>
            r == Ok(200, "Review removed") && db.reviews == old(db.reviews)[..k] + old(db.reviews)[k + 1..]
            && |ReviewsFor(db.reviews, rev.product)| == |ReviewsFor(old(db.reviews), rev.product)| - 1
            && db.products == Recomputed(old(db.products), db.reviews, rev.product))
    ensures r.Fail? ==> db.reviews == old(db.reviews) && db.products == old(db.products)
    ensures UniquePairs(old(db.reviews)) ==> UniquePairs(db.reviews)
    ensures AllValid(old(db.reviews)) ==> AllValid(db.reviews)
    ensures AllConsistent(old(db.products), old(db.reviews)) ==> AllConsistent(db.products, db.reviews)
  {
    if !IsObjectId(id) {
      return Fail(500, "Server error");
    }
    var k := FindReview(db.reviews, Canon(id));
    if k == |db.reviews| {
      return Fail(404, "Review not found");
    }
    var rev := db.reviews[k];
    if !MayDelete(caller, rev) {
      return Fail(401, "Not authorized to delete this review");
    }
    var rest := db.reviews[..k] + db.reviews[k + 1..];
    CountAfterRemove(db.reviews, k, rev.product);
    if UniquePairs(db.reviews) {
      RemoveKeepsUniquePairs(db.reviews, k);
    }
    if AllValid(db.reviews) {
      RemoveKeepsAllValid(db.reviews, k);
    }
    if AllConsistent(db.products, db.reviews) {
      RemoveKeepsConsistent(db.products, db.reviews, k);
    }
    db.reviews := rest;
    db.products := Recomputed(db.products, db.reviews, rev.product);
    r := Ok(200, "Review removed");
  }
}

=== FILE: store.dfy ===
/**
  The document store the server handlers work on. Products and carts are keyed by their canonical id
  (a cart by its owner's id); the other collections keep their documents in insertion order, which is
  also the order of their `createdAt` timestamps.
*/
module Store {
  import opened ProductModel
  import opened CartModel
  import opened OrderModel
  import opened ReviewModel
  import opened WishlistModel
  import opened Records

  class Db {
    var products: map<string, Product>
    var carts: map<string, Cart>
    var orders: seq<Order>
    var reviews: seq<Review>
    var wishlist: seq<WishlistItem>
    var users: seq<User>
    var contacts: seq<Contact>

    /** An empty database. */
    constructor ()
      ensures products == map[] && carts == map[] && orders == [] && reviews == []
      ensures wishlist == [] && users == [] && contacts == []
    {
      products := map[];
      carts := map[];
      orders := [];
      reviews := [];
      wishlist := [];
      users := [];
      contacts := [];
    }
  }

  /**
    The index of the first document whose key (as `key` projects it) is `v`, or `|s|` when there is none:
    the first-match search behind `findById` and `findOne`.
  */
  function FindFirst<T>(s: seq<T>, key: T -> string, v: string): (k: nat)
    ensures k <= |s|
    ensures k < |s| ==> key(s[k]) == v
    ensures forall i :: 0 <= i < k ==> key(s[i]) != v
  {
    if |s| == 0 then 0 else if key(s[0]) == v then 0 else 1 + FindFirst(s[1..], key, v)
  }

  /** The first order with the id, or `|os|` when there is none (the query `findById`). */
  function FindOrder(os: seq<Order>, id: string): (k: nat)
    ensures k <= |os|
    ensures k < |os| ==> os[k].id == id
    ensures forall i :: 0 <= i < k ==> os[i].id != id
  {
    FindFirst(os, (o: Order) => o.id, id)
  }

  /** The first review with the id, or `|rs|` when there is none. */
  function FindReview(rs: seq<Review>, id: string): (k: nat)
    ensures k <= |rs|
    ensures k < |rs| ==> rs[k].id == id
    ensures forall i :: 0 <= i < k ==> rs[i].id != id
  {
    FindFirst(rs, (r: Review) => r.id, id)
  }

  /** The first user with the id, or `|us|` when there is none. */
  function FindUser(us: seq<User>, id: string): (k: nat)
    ensures k <= |us|
    ensures k < |us| ==> us[k].id == id
    ensures forall i :: 0 <= i < k ==> us[i].id != id
  {
    FindFirst(us, (u: User) => u.id, id)
  }

  /** The first user with the email address, or `|us|` when there is none (the query `findOne({ email })`). */
  function FindByEmail(us: seq<User>, email: string): (k: nat)
    ensures k <= |us|
    ensures k < |us| ==> us[k].email == email
    ensures k == |us| <==> !EmailTaken(us, email)
    ensures forall i :: 0 <= i < k ==> us[i].email != email
  {
    FindFirst(us, (u: User) => u.email, email)
  }
}

=== FILE: strings.dfy ===
/**
  The string operations of the JavaScript runtime that the core relies on: prefix and suffix tests,
  substring search, ASCII lower-casing, Unicode whitespace trimming, `split` on one character, `join`,
  decimal rendering of numbers, and the ObjectId format test of the document store.
*/
module Strings {

  predicate StartsWith(s: string, prefix: string) {
    |prefix| <= |s| && s[..|prefix|] == prefix
  }

  predicate EndsWith(s: string, suffix: string) {
    |suffix| <= |s| && s[|s| - |suffix|..] == suffix
  }

  predicate OccursAt(s: string, sub: string, i: nat) {
    i + |sub| <= |s| && s[i..i + |sub|] == sub
  }

  /** `s.includes(sub)` */
  predicate Contains(s: string, sub: string) {
    exists i | 0 <= i <= |s| :: OccursAt(s, sub, i)
  }

  lemma ContainsInside(a: string, sub: string, b: string)
    ensures Contains(a + sub + b, sub)
  {
    var s := a + sub + b;
    assert s[|a|..|a| + |sub|] == sub;
    assert OccursAt(s, sub, |a|);
  }

  lemma ContainsWithin(s: string, t: string, sub: string, k: nat)
    requires OccursAt(s, t, k)
    requires Contains(t, sub)
    ensures Contains(s, sub)
  {
    var i :| 0 <= i <= |t| && OccursAt(t, sub, i);
    assert s[k..k + |t|] == t;
    var u := s[k + i..k + i + |sub|];
    forall j | 0 <= j < |sub|
      ensures u[j] == sub[j]
    {
      assert s[k + i + j] == s[k..k + |t|][i + j];
    }
    assert OccursAt(s, sub, k + i);
  }

  // ---------------------------------------------------------------- case

  function LowerChar(c: char): char {
    if 'A' <= c <= 'Z' then (c as int + 32) as char else c
  }

  /** `toLowerCase()`, restricted to ASCII letters. */
  function ToLower(s: string): (r: string)
    ensures |r| == |s|
    ensures forall i :: 0 <= i < |s| ==> r[i] == LowerChar(s[i])
  {
    seq(|s|, i requires 0 <= i < |s| => LowerChar(s[i]))
  }

  /**
    `s.length`: the number of UTF-16 code units, two for each character outside the Basic Multilingual
    Plane (a surrogate pair) and one for every other.
  */
  function Utf16Length(s: string): (n: nat)
    ensures |s| <= n <= 2 * |s|
  {
    if |s| == 0 then 0 else (if s[0] as int > 0xFFFF then 2 else 1) + Utf16Length(s[1..])
  }

  // ---------------------------------------------------------------- whitespace

  /**
    The characters that `trim()` removes and that `\s` matches: tab, vertical tab, form feed, space, no-break
    space, the byte-order mark, the other space separators of Unicode, and the four line terminators.
  */
  predicate IsSpace(c: char) {
    || c == '\t' || c == '\U{000B}' || c == '\U{000C}' || c == ' ' || c == '\U{00A0}' || c == '\U{FEFF}'
    || c == '\U{1680}' || '\U{2000}' <= c <= '\U{200A}' || c == '\U{202F}' || c == '\U{205F}' || c == '\U{3000}'
    || c == '\n' || c == '\r' || c == '\U{2028}' || c == '\U{2029}'
  }

  function TrimStart(s: string): string
    decreases |s|
  {
    if |s| > 0 && IsSpace(s[0]) then TrimStart(s[1..]) else s
  }

  function TrimEnd(s: string): string
    decreases |s|
  {
    if |s| > 0 && IsSpace(s[|s| - 1]) then TrimEnd(s[..|s| - 1]) else s
  }

  /** `trim()` */
  function Trim(s: string): string {
    TrimEnd(TrimStart(s))
  }

  predicate Trimmed(s: string) {
    s == [] || (!IsSpace(s[0]) && !IsSpace(s[|s| - 1]))
  }

  lemma {:induction false} TrimStartShape(s: string)
    ensures |TrimStart(s)| <= |s|
    ensures TrimStart(s) == s[|s| - |TrimStart(s)|..]
    ensures TrimStart(s) == [] || !IsSpace(TrimStart(s)[0])
    decreases |s|
  {
    if |s| > 0 && IsSpace(s[0]) {
      TrimStartShape(s[1..]);
    }
  }

  lemma {:induction false} TrimEndShape(s: string)
    ensures |TrimEnd(s)| <= |s|
    ensures TrimEnd(s) == s[..|TrimEnd(s)|]
    ensures TrimEnd(s) == [] || !IsSpace(TrimEnd(s)[|TrimEnd(s)| - 1])
    decreases |s|
  {
    if |s| > 0 && IsSpace(s[|s| - 1]) {
      TrimEndShape(s[..|s| - 1]);
    }
  }

  /** The result of `trim()` neither starts nor ends with whitespace. */
  lemma TrimIsTrimmed(s: string)
    ensures Trimmed(Trim(s))
  {
    var t := TrimStart(s);
    TrimStartShape(s);
    TrimEndShape(t);
    if TrimEnd(t) != [] {
      assert TrimEnd(t)[0] == t[0];
    }
  }

  /** No-break and ideographic spaces are trimmed like ASCII spaces. */
  lemma UnicodeSpacesTrimAway()
    ensures Trim(['\U{00A0}', ' ', '\U{3000}']) == ""
    ensures Trim(['\U{00A0}', 'x', '\U{2028}']) == "x"
  {
  }

  /** `trim()` leaves a string that is already trimmed as it is. */
  lemma TrimOfTrimmed(s: string)
    requires Trimmed(s)
    ensures Trim(s) == s
  {
  }

  /** Lower-casing neither creates nor removes whitespace at either end. */
  lemma LowerKeepsTrimmed(s: string)
    requires Trimmed(s)
    ensures Trimmed(ToLower(s))
  {
  }

  // ---------------------------------------------------------------- split and join

  /** `s.split(sep)` for a one-character separator. */
  function Split(s: string, sep: char): (r: seq<string>)
    ensures |r| >= 1
    decreases |s|
  {
    if |s| == 0 then [""]
    else if s[0] == sep then [""] + Split(s[1..], sep)
    else
      var rest := Split(s[1..], sep);
      [[s[0]] + rest[0]] + rest[1..]
  }

  /** `parts.join(sep)` */
  function Join(parts: seq<string>, sep: string): string
    decreases |parts|
  {
    if |parts| == 0 then ""
    else if |parts| == 1 then parts[0]
    else parts[0] + sep + Join(parts[1..], sep)
  }

  function NonEmpty(parts: seq<string>): (r: seq<string>)
    ensures forall i :: 0 <= i < |r| ==> r[i] != ""
  {
    if |parts| == 0 then []
    else if parts[0] == "" then NonEmpty(parts[1..])
    else [parts[0]] + NonEmpty(parts[1..])
  }

  /** `parts.filter(Boolean).join(", ")` */
  function JoinNonEmpty(parts: seq<string>): string {
    Join(NonEmpty(parts), ", ")
  }

  /** `parts.filter(Boolean).join(", ")` is empty exactly when every part is. */
  lemma {:induction false} JoinNonEmptyBlank(parts: seq<string>)
    ensures NonEmpty(parts) == [] <==> forall i :: 0 <= i < |parts| ==> parts[i] == ""
    ensures JoinNonEmpty(parts) == "" <==> forall i :: 0 <= i < |parts| ==> parts[i] == ""
    decreases |parts|
  {
    if |parts| > 0 {
      JoinNonEmptyBlank(parts[1..]);
      assert forall i :: 1 <= i < |parts| ==> parts[i] == parts[1..][i - 1];
    }
    var r := NonEmpty(parts);
    if |r| > 0 {
      assert |Join(r, ", ")| >= |r[0]| > 0;
    }
  }

  predicate Free(s: string, sep: char) {
    forall i :: 0 <= i < |s| ==> s[i] != sep
  }

  lemma {:induction false} SplitFree(x: string, sep: char)
    requires Free(x, sep)
    ensures Split(x, sep) == [x]
    decreases |x|
  {
    if |x| > 0 {
      SplitFree(x[1..], sep);
      assert [x[0]] + x[1..] == x;
    }
  }

  lemma {:induction false} SplitAfterFree(x: string, sep: char, y: string)
    requires Free(x, sep)
    ensures Split(x + [sep] + y, sep) == [x] + Split(y, sep)
    decreases |x|
  {
    if |x| == 0 {
      assert x + [sep] + y == [sep] + y;
      assert ([sep] + y)[1..] == y;
    } else {
      SplitAfterFree(x[1..], sep, y);
      assert (x + [sep] + y)[1..] == x[1..] + [sep] + y;
      assert [x[0]] + x[1..] == x;
    }
  }

  /** Splitting on a separator that occurs in none of the parts recovers the parts that were joined with it. */
  lemma {:induction false} SplitJoin(parts: seq<string>, sep: char)
    requires |parts| >= 1
    requires forall i :: 0 <= i < |parts| ==> Free(parts[i], sep)
    ensures Split(Join(parts, [sep]), sep) == parts
    decreases |parts|
  {
    if |parts| == 1 {
      SplitFree(parts[0], sep);
    } else {
      SplitJoin(parts[1..], sep);
      SplitAfterFree(parts[0], sep, Join(parts[1..], [sep]));
      assert [parts[0]] + parts[1..] == parts;
    }
  }

  // ---------------------------------------------------------------- numbers

  predicate IsDigit(c: char) {
    '0' <= c <= '9'
  }

  function DigitChar(d: nat): (c: char)
    requires d < 10
    ensures IsDigit(c)
  {
    (48 + d) as char
  }

  /** `String(n)` for a non-negative integer. */
  function DecimalString(n: nat): (r: string)
    ensures |r| >= 1
    ensures forall i :: 0 <= i < |r| ==> IsDigit(r[i])
    decreases n
  {
    if n < 10 then [DigitChar(n)] else DecimalString(n / 10) + [DigitChar(n % 10)]
  }

  function Pow10(k: nat): nat {
    if k == 0 then 1 else 10 * Pow10(k - 1)
  }

  /** The decimal rendering of a number with k digits consists of exactly k digit characters. */
  lemma {:induction false} DecimalStringShape(n: nat, k: nat)
    requires k >= 1 && (k == 1 || Pow10(k - 1) <= n) && n < Pow10(k)
    ensures |DecimalString(n)| == k
    ensures forall i :: 0 <= i < |DecimalString(n)| ==> IsDigit(DecimalString(n)[i])
  {
    if n >= 10 {
      assert Pow10(1) == 10;
      assert k >= 2;
      assert Pow10(k) == 10 * Pow10(k - 1);
      if k - 1 >= 2 {
        assert Pow10(k - 1) == 10 * Pow10(k - 2);
      }
      DecimalStringShape(n / 10, k - 1);
    }
  }

  // ---------------------------------------------------------------- document ids

  predicate IsHexDigit(c: char) {
    IsDigit(c) || 'a' <= c <= 'f' || 'A' <= c <= 'F'
  }

  /** `mongoose.Types.ObjectId.isValid` on a string: exactly 24 hexadecimal digits. */
  predicate IsObjectId(s: string) {
    |s| == 24 && forall i :: 0 <= i < |s| ==> IsHexDigit(s[i])
  }

  /** The form in which the store keeps an id and in which `toString()` renders it: lower-case hex. */
  function Canon(s: string): string {
    ToLower(s)
  }

  predicate IsCanonical(s: string) {
    Canon(s) == s
  }

  /** Casting a valid id and rendering it again yields a valid id in canonical form. */
  lemma CanonObjectId(s: string)
    requires IsObjectId(s)
    ensures IsObjectId(Canon(s)) && IsCanonical(Canon(s))
  {
    var c := Canon(s);
    forall i | 0 <= i < |c| ensures LowerChar(c[i]) == c[i] {
    }
  }
}

=== FILE: toast_queue.dfy ===
/**
  The notification queue (client/src/context/ToastContext.jsx): toasts are shown in the order they were
  added and removed by id. Ids come from a random generator and are a parameter; nothing makes them unique.
*/
module ToastQueue {
  import opened Common

  datatype Toast = Toast(id: string, message: string, kind: string, duration: int)

  const DefaultKind: string := "info"
  const DefaultDuration: int := 3000

  /** The shorthand helpers, each `addToast` with a fixed type. */
  datatype Shorthand = Success | Error | Info | Warning | Cart

  function KindOf(s: Shorthand): (k: string)
    ensures s == Success ==> k == "success"
    ensures s == Error ==> k == "error"
    ensures s == Info ==> k == "info"
    ensures s == Warning ==> k == "warning"
    ensures s == Cart ==> k == "cart"
  {
    match s
    case Success => "success"
    case Error => "error"
    case Info => "info"
    case Warning => "warning"
    case Cart => "cart"
  }

  /** The toasts without those carrying `id`, the others in their order. */
  function Without(toasts: seq<Toast>, id: string): (r: seq<Toast>)
    ensures |r| <= |toasts|
    ensures forall i :: 0 <= i < |r| ==> r[i].id != id
  {
    if |toasts| == 0 then []
    else if toasts[|toasts| - 1].id == id then Without(toasts[..|toasts| - 1], id)
    else Without(toasts[..|toasts| - 1], id) + [toasts[|toasts| - 1]]
  }

  /** Exactly the toasts with another id are kept, and an id no toast carries changes nothing. */
  lemma {:induction false} WithoutKeepsOthers(toasts: seq<Toast>, id: string)
    ensures forall t :: t in Without(toasts, id) <==> t in toasts && t.id != id
    ensures (forall i :: 0 <= i < |toasts| ==> toasts[i].id != id) ==> Without(toasts, id) == toasts
    decreases |toasts|
  {
    if |toasts| > 0 {
      var init := toasts[..|toasts| - 1];
      WithoutKeepsOthers(init, id);
      assert toasts == init + [toasts[|toasts| - 1]];
    }
  }

  /** Removing by id distributes over the parts of the queue, so the relative order of the rest is kept. */
  lemma {:induction false} WithoutConcat(a: seq<Toast>, b: seq<Toast>, id: string)
    ensures Without(a + b, id) == Without(a, id) + Without(b, id)
    decreases |b|
  {
    if |b| == 0 {
      assert a + b == a;
    } else {
      var c := a + b;
      assert c[..|c| - 1] == a + b[..|b| - 1];
      assert c[|c| - 1] == b[|b| - 1];
      WithoutConcat(a, b[..|b| - 1], id);
    }
  }

  /**
    Closing a toast just added removes it, and with it any older toast that drew the same id: ids are not
    unique, so one close can take away two notifications.
  */
  lemma RemoveAfterAdd(toasts: seq<Toast>, t: Toast)
    ensures Without(toasts + [t], t.id) == Without(toasts, t.id)
    ensures (exists i :: 0 <= i < |toasts| && toasts[i].id == t.id) ==> |Without(toasts + [t], t.id)| < |toasts|
  {
    WithoutConcat(toasts, [t], t.id);
    if exists i :: 0 <= i < |toasts| && toasts[i].id == t.id {
      var i :| 0 <= i < |toasts| && toasts[i].id == t.id;
      WithoutShorter(toasts, t.id, i);
    }
  }

  /** A queue holding a toast with the id loses at least one entry. */
  lemma {:induction false} WithoutShorter(toasts: seq<Toast>, id: string, i: nat)
    requires i < |toasts| && toasts[i].id == id
    ensures |Without(toasts, id)| < |toasts|
    decreases |toasts|
  {
    var n := |toasts|;
    if i < n - 1 {
      WithoutShorter(toasts[..n - 1], id, i);
    }
  }

  /** The provider's state: the toasts on screen, oldest first. */
  class ToastProvider {
    var toasts: seq<Toast>

    constructor ()
      ensures toasts == []
    {
      toasts := [];
    }

    /**
      `addToast`: appends exactly one toast, with type "info" and duration 3000 when those arguments are
      omitted, and returns its id.
    */
    method AddToast(message: string, kind: Option<string>, duration: Option<int>, newId: string) returns (id: string)
      modifies this
      ensures id == newId
      ensures toasts == old(toasts) + [Toast(newId, message, kind.GetOr("info"), duration.GetOr(3000))]
    {
      toasts := toasts + [Toast(newId, message, kind.GetOr(DefaultKind), duration.GetOr(DefaultDuration))];
      id := newId;
    }

    /** `removeToast`: every toast with the id goes, the others stay in order; an unknown id changes nothing. */
    method RemoveToast(id: string)
      modifies this
      ensures toasts == Without(old(toasts), id)
    {
      toasts := Without(toasts, id);
    }

    /** `showSuccess`, `showError`, `showInfo`, `showWarning` and `showCartNotification`. */
    method Show(s: Shorthand, message: string, duration: Option<int>, newId: string) returns (id: string)
      modifies this
      ensures id == newId
      ensures toasts == old(toasts) + [Toast(newId, message, KindOf(s), duration.GetOr(3000))]
    {
      id := AddToast(message, Some(KindOf(s)), duration, newId);
    }
  }
}

=== FILE: user_controller.dfy ===
/**
  The profile handlers (server/controllers/userController.js), all behind the sign-in check. A caller may
  act on its own account, or on any account when it is an administrator; the own-account test compares the
  caller's rendered id with the id of the path exactly as given.
*/
module UserController {
  import opened Common
  import opened Strings
  import opened OrderModel
  import opened Records
  import opened Store
  import opened OrderController

  /** The profile fields of an update body; "" is a field the body leaves out. */
  datatype ProfileUpdate = ProfileUpdate(name: string, email: string, phone: string, address: string)

  /** The reply of an update: exactly these six fields, the password hash never among them. */
  datatype ProfileReply = ProfileReply(id: string, name: string, email: string, phone: string, address: string, isAdmin: bool)

  /** An account as `select("-password")` loads it. */
  datatype PublicUser = PublicUser(id: string, name: string, email: string, phone: string, address: string, isAdmin: bool, role: string)

  /** The caller is the account of the path, or an administrator. */
  predicate MayActOn(caller: User, id: string) {
    caller.id == id || caller.isAdmin
  }

  function PublicView(u: User): (p: PublicUser)
    ensures p.id == u.id && p.name == u.name && p.email == u.email && p.phone == u.phone
    ensures p.address == u.address && p.isAdmin == u.isAdmin && p.role == u.role
  {
    PublicUser(u.id, u.name, u.email, u.phone, u.address, u.isAdmin, u.role)
  }

  /**
    The update refuses the new address exactly when one is given, differs from the account's own and some
    account already uses it.
  */
  predicate EmailClash(users: seq<User>, u: User, email: string) {
    email != "" && email != u.email && EmailTaken(users, email)
  }

  /**
    `updateUser`: 404 for an unknown account (checked before authorization), 401 for a caller who may not
    act on it, 400 when the new address belongs to someone; otherwise each supplied field replaces the
    stored one and the reply holds the six public fields.
  */
  method UpdateUser(db: Db, caller: User, id: string, body: ProfileUpdate) returns (r: Outcome<ProfileReply>)
    modifies db`users
    ensures !IsObjectId(id) ==> r.Fail? && r.status == 500
    ensures IsObjectId(id) && FindUser(old(db.users), Canon(id)) == |old(db.users)| ==> r == Fail(404, "User not found")
    ensures IsObjectId(id) && FindUser(old(db.users), Canon(id)) < |old(db.users)| ==>
      var k := FindUser(old(db.users), Canon(id));
      var u := old(db.users)[k];
      && (!MayActOn(caller, id) ==> r == Fail(401, "Not authorized to update this profile"))
      && (MayActOn(caller, id) && EmailClash(old(db.users), u, body.email) ==> r == Fail(400, "Email already in use"))
      && (MayActOn(caller, id) && !EmailClash(old(db.users), u, body.email) ==>
            var n := u.(name := OrElse(body.name, u.name), email := OrElse(body.email, u.email),
                        phone := OrElse(body.phone, u.phone), address := OrElse(body.address, u.address));
            db.users == old(db.users)[k := n]
            && r == Ok(200, ProfileReply(n.id, n.name, n.email, n.phone, n.address, n.isAdmin)))
    ensures r.Fail? ==> db.users == old(db.users)
    ensures UniqueEmails(old(db.users)) ==> UniqueEmails(db.users)
  {
    if !IsObjectId(id) {
      return Fail(500, "Server error: Cast to ObjectId failed");
    }
    var k := FindUser(db.users, Canon(id));
    if k == |db.users| {
      return Fail(404, "User not found");
    }
    var user := db.users[k];
    if !MayActOn(caller, id) {
      return Fail(401, "Not authorized to update this profile");
    }
    if body.email != "" && body.email != user.email {
      if FindByEmail(db.users, body.email) < |db.users| {
        return Fail(400, "Email already in use");
      }
    }
    user := user.(name := OrElse(body.name, user.name));
    user := user.(email := OrElse(body.email, user.email));
    user := user.(phone := OrElse(body.phone, user.phone));
    user := user.(address := OrElse(body.address, user.address));
    if UniqueEmails(db.users) {
      ReplaceKeepsUniqueEmails(db.users, k, user);
    }
    db.users := db.users[k := user];
    r := Ok(200, ProfileReply(user.id, user.name, user.email, user.phone, user.address, user.isAdmin));
  }

  /** `getUserDetails`: 404 for an unknown account, 401 for a caller who may not view it, else the account without its hash. */
  method GetUserDetails(db: Db, caller: User, id: string) returns (r: Outcome<PublicUser>)
    ensures !IsObjectId(id) ==> r == Fail(500, "Server error")
    ensures IsObjectId(id) && FindUser(db.users, Canon(id)) == |db.users| ==> r == Fail(404, "User not found")
    ensures IsObjectId(id) && FindUser(db.users, Canon(id)) < |db.users| ==>
      var u := db.users[FindUser(db.users, Canon(id))];
      && (!MayActOn(caller, id) ==> r == Fail(401, "Not authorized to view this profile"))
      && (MayActOn(caller, id) ==> r == Ok(200, PublicView(u)) && u.id == Canon(id))
  {
    if !IsObjectId(id) {
      return Fail(500, "Server error");
    }
    var k := FindUser(db.users, Canon(id));
    if k == |db.users| {
      return Fail(404, "User not found");
    }
    if !MayActOn(caller, id) {
      return Fail(401, "Not authorized to view this profile");
    }
    r := Ok(200, PublicView(db.users[k]));
  }

  /**
    `getUserOrders`: authorization comes first (401), then the account's orders, newest first; a path id
    that cannot be cast fails the query.
  */
  method GetUserOrders(db: Db, caller: User, id: string) returns (r: Outcome<seq<Order>>)
    ensures !MayActOn(caller, id) ==> r == Fail(401, "Not authorized to view these orders")
    ensures MayActOn(caller, id) && !IsObjectId(id) ==> r == Fail(500, "Server error")
    ensures MayActOn(caller, id) && IsObjectId(id) ==> r == Ok(200, NewestFirst(OrdersOf(db.orders, Canon(id))))
    ensures r.Ok? ==> forall i :: 0 <= i < |r.value| ==> r.value[i] in db.orders && r.value[i].userId == Canon(id)
  {
    if !MayActOn(caller, id) {
      return Fail(401, "Not authorized to view these orders");
    }
    if !IsObjectId(id) {
      return Fail(500, "Server error");
    }
    var mine := OrdersOf(db.orders, Canon(id));
    r := Ok(200, NewestFirst(mine));
    assert forall i :: 0 <= i < |r.value| ==> r.value[i] in mine;
  }
}

=== FILE: wishlist_cache.dfy ===
/**
  The client's copy of the wishlist (client/src/context/WishlistContext.jsx): a throttled fetch from the
  server, and local updates after an add or a remove instead of a fetch. The clock, the stored token and
  the server's replies are parameters; the error and success notices shown are collected in `notices`.
*/
module WishlistCache {
  import opened Common

  /**
    The `product` of a cached item: a populated product (with its id), null (a populated item whose product
    was deleted), or a bare product id, the unpopulated form that `item.product?._id || item.product` also
    accepts; the server's list and add replies are populated, so a bare id reaches the cache only from a
    reply that was not.
  */
  datatype ProductRef = PopulatedProduct(productId: string) | BareId(id: string) | NullProduct

  datatype CachedItem = CachedItem(id: string, product: ProductRef)

  /** `item.product?._id || item.product`; `None` stands for null. */
  function ItemProductId(item: CachedItem): (r: Option<string>)
    ensures item.product.NullProduct? <==> r.None?
  {
    match item.product
    case PopulatedProduct(pid) => Some(pid)
    case BareId(pid) => Some(pid)
    case NullProduct => None
  }

  /** Loose equality of an item's product id with a route id: null equals no string. */
  predicate RefersTo(item: CachedItem, productId: string) {
    ItemProductId(item) == Some(productId)
  }

  /** The items that do not refer to the product, in their order. */
  function Unlisted(items: seq<CachedItem>, productId: string): (r: seq<CachedItem>)
    ensures |r| <= |items|
    ensures forall i :: 0 <= i < |r| ==> !RefersTo(r[i], productId)
  {
    if |items| == 0 then []
    else if RefersTo(items[|items| - 1], productId) then Unlisted(items[..|items| - 1], productId)
    else Unlisted(items[..|items| - 1], productId) + [items[|items| - 1]]
  }

  /** Exactly the items that refer to another product are kept; with none referring to it, nothing changes. */
  lemma {:induction false} UnlistedKeepsOthers(items: seq<CachedItem>, productId: string)
    ensures forall x :: x in Unlisted(items, productId) <==> x in items && !RefersTo(x, productId)
    ensures (forall i :: 0 <= i < |items| ==> !RefersTo(items[i], productId)) ==> Unlisted(items, productId) == items
    decreases |items|
  {
    if |items| > 0 {
      var init, last := items[..|items| - 1], items[|items| - 1];
      UnlistedKeepsOthers(init, productId);
      assert items == init + [last];
      assert forall x :: x in items <==> x in init || x == last;
      assert Unlisted(items, productId) == if RefersTo(last, productId) then Unlisted(init, productId)
                                           else Unlisted(init, productId) + [last];
    }
  }

  /** A fetch that is not forced is skipped while one is running or within 2000 ms of the last good one. */
  predicate Throttled(isFetching: bool, lastFetchTime: int, now: int, force: bool) {
    !force && (isFetching || now - lastFetchTime < 2000)
  }

  /** The reply to a fetch: a list, an empty body, or a failed request. */
  datatype FetchReply = Items(items: seq<CachedItem>) | EmptyBody | FetchFailed

  /** The reply to an add: the stored item, an empty body, or a failure with the server's message ("" if none). */
  datatype AddReply = Added(item: CachedItem) | NoBody | AddFailed(message: string)

  class WishlistProvider {
    var wishlist: seq<CachedItem>
    var loading: bool
    var isFetching: bool
    var lastFetchTime: int
    var notices: seq<string>

    constructor ()
      ensures wishlist == [] && !loading && !isFetching && lastFetchTime == 0 && notices == []
    {
      wishlist := [];
      loading := false;
      isFetching := false;
      lastFetchTime := 0;
      notices := [];
    }

    /**
      `fetchWishlist`: a throttled call changes nothing. Otherwise the list becomes the server's list, or
      empty when there is no token, the body is empty or the request fails; only a reply from the server
      moves the time of the last fetch, and the in-progress and loading flags are cleared on every path.
    */
    method FetchWishlist(force: bool, now: int, token: string, reply: FetchReply)
      modifies this
      ensures Throttled(old(isFetching), old(lastFetchTime), now, force) ==>
        wishlist == old(wishlist) && lastFetchTime == old(lastFetchTime) && isFetching == old(isFetching)
        && loading == old(loading) && notices == old(notices)
      ensures !Throttled(old(isFetching), old(lastFetchTime), now, force) ==>
        && !isFetching && !loading
        && (token == "" ==> wishlist == [] && lastFetchTime == old(lastFetchTime) && notices == old(notices))
        && (token != "" && reply.Items? ==> wishlist == reply.items && lastFetchTime == now && notices == old(notices))
        && (token != "" && reply.EmptyBody? ==> wishlist == [] && lastFetchTime == now && notices == old(notices))
        && (token != "" && reply.FetchFailed? ==>
              wishlist == [] && lastFetchTime == old(lastFetchTime) && notices == old(notices) + ["Failed to load wishlist"])
    {
      if isFetching && !force {
        return;
      }
      if now - lastFetchTime < 2000 && !force {
        return;
      }
      isFetching := true;
      loading := true;
      if token == "" {
        wishlist := [];
      } else {
        match reply
        case Items(items) =>
          wishlist := items;
          lastFetchTime := now;
        case EmptyBody =>
          wishlist := [];
          lastFetchTime := now;
        case FetchFailed =>
          wishlist := [];
          notices := notices + ["Failed to load wishlist"];
      }
      loading := false;
      isFetching := false;
    }

    /** `refreshWishlist`: a forced fetch, never throttled. */
    method RefreshWishlist(now: int, token: string, reply: FetchReply)
      modifies this
      ensures !isFetching && !loading
      ensures token != "" && reply.Items? ==> wishlist == reply.items && lastFetchTime == now
    {
      FetchWishlist(true, now, token, reply);
    }

    /**
      `addToWishlist`: `Some(false)` with a notice and nothing changed when signed out or when the request
      fails; the stored item appended at the end and `Some(true)` on success; `None` (the function returns
      undefined) and nothing changed when the reply has no body.
    */
    method AddToWishlist(token: string, reply: AddReply) returns (r: Option<bool>)
      modifies this`wishlist, this`notices
      ensures token == "" ==>
        r == Some(false) && wishlist == old(wishlist) && notices == old(notices) + ["Please log in to add items to your wishlist"]
      ensures token != "" && reply.Added? ==>
        r == Some(true) && wishlist == old(wishlist) + [reply.item] && notices == old(notices) + ["Added to your wishlist!"]
      ensures token != "" && reply.NoBody? ==> r.None? && wishlist == old(wishlist) && notices == old(notices)
      ensures token != "" && reply.AddFailed? ==>
        r == Some(false) && wishlist == old(wishlist)
        && notices == old(notices) + [OrElse(reply.message, "Failed to add to wishlist")]
      ensures r == Some(true) <==> wishlist != old(wishlist)
    {
      if token == "" {
        notices := notices + ["Please log in to add items to your wishlist"];
        return Some(false);
      }
      match reply
      case Added(item) =>
        wishlist := wishlist + [item];
        notices := notices + ["Added to your wishlist!"];
        r := Some(true);
      case NoBody =>
        r := None;
      case AddFailed(message) =>
        notices := notices + [OrElse(message, "Failed to add to wishlist")];
        r := Some(false);
    }

    /**
      `removeFromWishlist`: when the request succeeds, every item referring to the product goes and the rest
      stay in order; when it fails, the list is unchanged and a notice is shown.
    */
    method RemoveFromWishlist(productId: string, accepted: bool) returns (r: bool)
      modifies this`wishlist, this`notices
      ensures r == accepted
      ensures accepted ==> wishlist == Unlisted(old(wishlist), productId) && notices == old(notices)
      ensures accepted ==> !IsInWishlist(productId)
      ensures !accepted ==> wishlist == old(wishlist) && notices == old(notices) + ["Failed to remove from wishlist"]
    {
      if !accepted {
        notices := notices + ["Failed to remove from wishlist"];
        return false;
      }
      wishlist := Unlisted(wishlist, productId);
      r := true;
    }

    /** `isInWishlist`: false for an empty id or list, else whether some item refers to the product. */
    predicate IsInWishlist(productId: string)
      reads this
      ensures IsInWishlist(productId) <==>
        productId != "" && exists i :: 0 <= i < |wishlist| && RefersTo(wishlist[i], productId)
      ensures wishlist == [] ==> !IsInWishlist(productId)
    {
      if productId == "" || |wishlist| == 0 then false
      else exists i :: 0 <= i < |wishlist| && RefersTo(wishlist[i], productId)
    }
  }
}

=== FILE: wishlist_model.dfy ===
/** The wishlist record (server/models/Wishlist.js): one membership of a product in a user's list. */
module WishlistModel {
  import opened Strings

  datatype WishlistItem = WishlistItem(id: string, user: string, product: string, dateAdded: int)

  /** What `save` checks: both references are present ObjectIds. */
  predicate SchemaValid(w: WishlistItem) {
    IsObjectId(w.user) && IsObjectId(w.product)
  }

  /** A new entry; `dateAdded` defaults to the time of insertion. */
  function NewItem(id: string, user: string, product: string, now: int): (w: WishlistItem)
    ensures w.user == user && w.product == product && w.dateAdded == now && w.id == id
  {
    WishlistItem(id, user, product, now)
  }

  /** The unique compound index: each product appears at most once in each user's list. */
  predicate UniquePairs(ws: seq<WishlistItem>) {
    forall i, j :: 0 <= i < j < |ws| ==> ws[i].user != ws[j].user || ws[i].product != ws[j].product
  }

  predicate HasPair(ws: seq<WishlistItem>, user: string, product: string) {
    exists i :: 0 <= i < |ws| && ws[i].user == user && ws[i].product == product
  }

  /** The first entry of the pair, or `|ws|` when there is none (the query `findOne`). */
  function FindPair(ws: seq<WishlistItem>, user: string, product: string): (k: nat)
    ensures k <= |ws|
    ensures k < |ws| ==> ws[k].user == user && ws[k].product == product
    ensures forall i :: 0 <= i < k ==> ws[i].user != user || ws[i].product != product
  {
    if |ws| == 0 then 0
    else if ws[0].user == user && ws[0].product == product then 0
    else 1 + FindPair(ws[1..], user, product)
  }

  lemma FindPairIffHasPair(ws: seq<WishlistItem>, user: string, product: string)
    ensures FindPair(ws, user, product) < |ws| <==> HasPair(ws, user, product)
  {
  }

  /** Inserting an entry whose pair is absent keeps membership a set. */
  lemma AppendKeepsUniquePairs(ws: seq<WishlistItem>, w: WishlistItem)
    requires UniquePairs(ws) && !HasPair(ws, w.user, w.product)
    ensures UniquePairs(ws + [w])
  {
    var s := ws + [w];
    forall i, j | 0 <= i < j < |s| ensures s[i].user != s[j].user || s[i].product != s[j].product {
      if j == |ws| {
        assert s[i] == ws[i];
      }
    }
  }

  /**
    Deleting the entry of a pair from a list where pairs are unique removes the pair entirely and keeps the
    pairs unique.
  */
  lemma RemoveDropsPair(ws: seq<WishlistItem>, k: nat)
    requires k < |ws| && UniquePairs(ws)
    ensures UniquePairs(ws[..k] + ws[k + 1..])
    ensures !HasPair(ws[..k] + ws[k + 1..], ws[k].user, ws[k].product)
  {
    var s := ws[..k] + ws[k + 1..];
    forall i, j | 0 <= i < j < |s| ensures s[i].user != s[j].user || s[i].product != s[j].product {
      var i' := if i < k then i else i + 1;
      var j' := if j < k then j else j + 1;
      assert s[i] == ws[i'] && s[j] == ws[j'];
    }
    forall i | 0 <= i < |s| ensures s[i].user != ws[k].user || s[i].product != ws[k].product {
      var i' := if i < k then i else i + 1;
      assert s[i] == ws[i'];
    }
  }
}

=== FILE: wishlist_routes.dfy ===
/**
  The wishlist endpoints (server/routes/wishlistRoutes.js), all behind the sign-in check: list the caller's
  entries with their products, add a product, remove one, and ask whether a product is listed.
*/
module WishlistRoutes {
  import opened Common
  import opened Strings
  import opened ProductModel
  import opened WishlistModel
  import opened Records
  import opened Store

  /** An entry as it is sent back: the product reference replaced by the product, or `None` when it is gone. */
  datatype ListedItem = ListedItem(item: WishlistItem, product: Option<Product>)

  /** The reply of a removal: a message and the product id exactly as it was given in the path. */
  datatype RemoveReply = RemoveReply(message: string, productId: string)

  /** The entries of one user, in store order (the query `find({ user })`). */
  function ItemsOf(ws: seq<WishlistItem>, user: string): (r: seq<WishlistItem>)
    ensures |r| <= |ws|
    ensures forall i :: 0 <= i < |r| ==> r[i].user == user
    ensures forall w :: w in r <==> w in ws && w.user == user
  {
    if |ws| == 0 then []
    else if ws[0].user == user then [ws[0]] + ItemsOf(ws[1..], user)
    else ItemsOf(ws[1..], user)
  }

  /** `populate('product')`: the referenced product, or `None` when no product has that id any more. */
  function Populated(w: WishlistItem, products: map<string, Product>): (r: ListedItem)
    ensures r.item == w
    ensures r.product.Some? <==> w.product in products
    ensures r.product.Some? ==> r.product.value == products[w.product]
  {
    ListedItem(w, if w.product in products then Some(products[w.product]) else None)
  }

  function PopulateAll(ws: seq<WishlistItem>, products: map<string, Product>): (r: seq<ListedItem>)
    ensures |r| == |ws|
    ensures forall i :: 0 <= i < |ws| ==> r[i] == Populated(ws[i], products)
  {
    if |ws| == 0 then [] else [Populated(ws[0], products)] + PopulateAll(ws[1..], products)
  }

  /** `GET /`: the caller's entries, each with its product. */
  method ListWishlist(db: Db, caller: User) returns (r: Outcome<seq<ListedItem>>)
    ensures r == Ok(200, PopulateAll(ItemsOf(db.wishlist, caller.id), db.products))
  {
    r := Ok(200, PopulateAll(ItemsOf(db.wishlist, caller.id), db.products));
  }

  /**
    `POST /`: the product must exist and must not be listed yet (400). A body without `productId` looks up
    no id and finds nothing: 404. An id that is present but no ObjectId, the empty text included, fails the
    cast: 500. The new entry is answered with 201, populated with its product.
  */
  method AddToWishlist(db: Db, caller: User, productId: Option<string>, now: int, newId: string)
    returns (r: Outcome<ListedItem>)
    modifies db`wishlist
    ensures productId.None? ==> r == Fail(404, "Product not found")
    ensures productId.Some? && !IsObjectId(productId.value) ==> r.Fail? && r.status == 500
    ensures productId.Some? && IsObjectId(productId.value) && Canon(productId.value) !in db.products ==>
      r == Fail(404, "Product not found")
    ensures productId.Some? && IsObjectId(productId.value) && Canon(productId.value) in db.products
            && HasPair(old(db.wishlist), caller.id, Canon(productId.value)) ==>
      r == Fail(400, "Product already in wishlist")
    ensures r.Ok? ==>
      productId.Some? && IsObjectId(productId.value) && Canon(productId.value) in db.products
      && !HasPair(old(db.wishlist), caller.id, Canon(productId.value))
      && var w := NewItem(newId, caller.id, Canon(productId.value), now);
         SchemaValid(w) && db.wishlist == old(db.wishlist) + [w]
         && r == Ok(201, ListedItem(w, Some(db.products[Canon(productId.value)])))
    ensures (productId.Some? && IsObjectId(productId.value) && Canon(productId.value) in db.products
             && !HasPair(old(db.wishlist), caller.id, Canon(productId.value)) && IsObjectId(caller.id)) ==> r.Ok?
    ensures r.Fail? ==> db.wishlist == old(db.wishlist)
    ensures productId.Some? ==>
      (HasPair(db.wishlist, caller.id, Canon(productId.value))
       <==> HasPair(old(db.wishlist), caller.id, Canon(productId.value)) || r.Ok?)
    ensures UniquePairs(old(db.wishlist)) ==> UniquePairs(db.wishlist)
  {
    if productId.None? {
      return Fail(404, "Product not found");
    }
    if !IsObjectId(productId.value) {
      return Fail(500, "Server error");
    }
    var key := Canon(productId.value);
    if key !in db.products {
      return Fail(404, "Product not found");
    }
    if HasPair(db.wishlist, caller.id, key) {
      return Fail(400, "Product already in wishlist");
    }
    var w := NewItem(newId, caller.id, key, now);
    if !SchemaValid(w) {
      return Fail(500, "Server error");
    }
    if UniquePairs(db.wishlist) {
      AppendKeepsUniquePairs(db.wishlist, w);
    }
    assert (db.wishlist + [w])[|db.wishlist|] == w;
    db.wishlist := db.wishlist + [w];
    r := Ok(201, Populated(w, db.products));
  }

  /** `DELETE /:productId`: the caller's entry of the product is deleted; a missing one is 404. */
  method RemoveFromWishlist(db: Db, caller: User, productId: string) returns (r: Outcome<RemoveReply>)
    modifies db`wishlist
    ensures !IsObjectId(productId) ==> r.Fail? && r.status == 500 && db.wishlist == old(db.wishlist)
    ensures IsObjectId(productId) && !HasPair(old(db.wishlist), caller.id, Canon(productId)) ==>
      r == Fail(404, "Product not found in wishlist") && db.wishlist == old(db.wishlist)
    ensures IsObjectId(productId) && HasPair(old(db.wishlist), caller.id, Canon(productId)) ==>
      var k := FindPair(old(db.wishlist), caller.id, Canon(productId));
      k < |old(db.wishlist)|
      && db.wishlist == old(db.wishlist)[..k] + old(db.wishlist)[k + 1..]
      && r == Ok(200, RemoveReply("Product removed from wishlist", productId))
    ensures UniquePairs(old(db.wishlist)) ==>
      UniquePairs(db.wishlist) && (IsObjectId(productId) ==> !HasPair(db.wishlist, caller.id, Canon(productId)))
  {
    if !IsObjectId(productId) {
      return Fail(500, "Server error");
    }
    var key := Canon(productId);
    var k := FindPair(db.wishlist, caller.id, key);
    FindPairIffHasPair(db.wishlist, caller.id, key);
    if k == |db.wishlist| {
      return Fail(404, "Product not found in wishlist");
    }
    if UniquePairs(db.wishlist) {
      RemoveDropsPair(db.wishlist, k);
    }
    db.wishlist := db.wishlist[..k] + db.wishlist[k + 1..];
    r := Ok(200, RemoveReply("Product removed from wishlist", productId));
  }

  /** `GET /check/:productId`: whether the caller lists the product. */
  method CheckWishlist(db: Db, caller: User, productId: string) returns (r: Outcome<bool>)
    ensures !IsObjectId(productId) ==> r.Fail? && r.status == 500
    ensures IsObjectId(productId) ==> r == Ok(200, HasPair(db.wishlist, caller.id, Canon(productId)))
  {
    if !IsObjectId(productId) {
      return Fail(500, "Server error");
    }
    r := Ok(200, HasPair(db.wishlist, caller.id, Canon(productId)));
  }
}
